=== FILE: README.md ===
# Wearable-evaluation pipeline: a Dafny model

This project models the pure core of the Healthy Brain Network wearable-evaluation
scripts. These scripts compare accelerometer and photoplethysmograph recordings
from several wrist-worn devices (ActiGraph, Empatica E4, GENEActiv, Wavelet).
The model covers:

- **Placement resolver** (`chart_data.py`, module `ChartData`):
  - reads the device-placement log;
  - sorts the distinct person/wrist tuples and the integer change-points;
  - maps every change-point to the next one;
  - emits one wear event per occupied log cell;
  - takes a wearer's overall span (`get_startstop`);
  - cuts each device table to that span, both ends inclusive, and pivots the rows by instant (`buildperson`);
  - names the output files (`write_csv`).
- **Raw-export parsing** (`organize_wearable_data.py`, module `OrganizeWearableData`):
  - `drop_non_csv`;
  - the E4 timestamp generator `e4_timestamp`;
  - the per-device count-to-g conversion (128 counts per g for the ActiGraph, 64 for the E4 and the Wavelet) and the Wavelet millisecond clock;
  - the file-name routing of the loaders, including the GENEActiv black/pink split;
  - the accumulation of the kept files' tables;
  - the `save_df` file name.
- **Unit-cube normalization**, in two variants:
  - a fixed per-device scale (`normalize_acc_data.py`, module `NormalizeAcc`);
  - a scale inferred from the data when none is given (`utilities/normalize_acc_data.py`, module `NormalizeAccInferred`).
- **Rescaling and merging before plotting:**
  - `baseshift_and_renormalize` and the build step of the vector-length plot (`plot_normalized_vector_lengths.py`, module `PlotVectorLengths`);
  - `demean`, `normalize`, the per-channel choice and the outer merge of the PPG plot (`plot_normalized_ppgs.py`, module `PlotPpgs`).
- **Configuration:** the raw-data URL table, `raw_urls` and `sensorlist` (`config/config.py`, module `Config`).
- **Colour palette:** the round-robin palette builder `CMI_color_palette` (`config/CMI_colors/color_cycle.py`, module `ColorCycle`).
- **Shared modules:**
  - `Wrappers`: `Option` and `Result`;
  - `Text`: split, join, prefix and suffix tests;
  - `Sorting`: sorted distinct insertion;
  - `RealSeq`: sum, max, min, mean and median of real sequences;
  - `Window`: the inclusive time window and the pandas-style pivot on (instant, device).

## Modelling conventions

- **Instants** are Unix seconds as `int`. The datetime round trips (`datetimeint`, `fromtimestamp`, `strftime`) are identities on them.
- **Sensor values** are `real`.
- **Square root:** the source takes a square root for the vector length. The model keeps the squared length `(x² + y² + z²) / (3·scale²)`.
  - It is 0, 1 and at most 1 exactly where the length is.
  - It behaves the same way under scaling, sign flips and axis permutation.
- **Undefined values:** numpy turns a division by zero into NaN or infinity. Every such case is an error result instead:
  - an all-zero table with an inferred scale;
  - a baseshift whose maximum is 0;
  - a PPG normalize of an all-zero series.
- **Crashing lookups** are error results too:
  - a missing log column;
  - a change-point with no successor;
  - a missing palette;
  - a pivot on a repeated (instant, device) pair;
  - an empty series, on which the builtin `max()` raises `ValueError` before any division (the PPG normalize and the baseshift).
- **Non-termination:** a palette map with an extra key would make `CMI_color_palette` loop forever. It is reported as the `NeverEnds` error.
- **Module-level dictionary:** `CMI_color_palette` reads and consumes a module-level dictionary. The model passes the dictionary in and returns what is left of it.
- **Where the source's own documentation and its code disagree, the model follows the code:**
  - **PPG `normalize`:** its docstring promises a new minimum of -1 and a new maximum of +1. Only the side with the larger magnitude reaches ±1 (`PlotPpgs.NormalizeOneSided`).
  - **Final change-point:** a wearer still listed at the final change-point has no stop time. `getpeople` does not skip that cell; the successor lookup fails (`ChartData.FinalChangePointFails`). A log whose last row is vacant resolves normally.

## Model

| member | source | states |
|---|---|---|
| Window.Filter | chart_data.py:67-68 | every kept sample lies inside the inclusive window, and no more samples are kept than the table has; which samples are kept is stated by FilterMembership |
| Window.FilterMembership | chart_data.py:67-68 | a sample is kept by the window exactly when it is in the table and start <= t <= stop |
| Window.FilterConcat | chart_data.py:67-68 | windowing a concatenation is the concatenation of the windowed parts, so kept samples stay in table order |
| Window.BoundariesInclusive | plot_normalized_vector_lengths.py:147-149 | samples exactly at start or stop are kept; samples one unit outside either bound are dropped |
| Window.FilterIdempotent | plot_normalized_ppgs.py:104-106 | cutting a cut table to the same window changes nothing |
| Window.Pivot | chart_data.py:77 | no contract of its own: the reshaping into one row per instant and one cell per device; when it succeeds and what it holds are stated by PivotSucceeds, PivotKeys, PivotCells and PivotSound |
| Window.PivotSucceeds | chart_data.py:77 | the pivot on (Timestamp, device) succeeds exactly when no (instant, device) pair occurs twice |
| Window.PivotKeys | chart_data.py:77 | the pivoted index is exactly the set of instants of the rows |
| Window.PivotCells | chart_data.py:77 | every row's value lands in the cell of its instant and device |
| Window.PivotSound | chart_data.py:77 | every cell of the pivoted table comes from a row with that instant, device and value |
| Window.DisjointMerge | plot_normalized_ppgs.py:113-114 | merging two devices with disjoint timestamps gives as many rows as both tables together, each row holding exactly one device |
| Window.DistinctInstantsCard | plot_normalized_ppgs.py:113-114 | rows with pairwise distinct instants give one index entry per row |
| ChartData.SortWearers | chart_data.py:172 | the wearers come out strictly sorted in Python tuple order and are exactly the distinct input tuples |
| ChartData.ChangePoints | chart_data.py:167-173 | change-points are strictly increasing and are exactly the integer cells of the log |
| ChartData.Wearers | chart_data.py:167-172 | wearers are strictly sorted and are exactly the occupied (tuple) cells of the log; vacant cells never count |
| ChartData.Successors | chart_data.py:174-177 | every change-point but the last is a key, and it maps to the next change-point |
| ChartData.SuccessorDefined | chart_data.py:175-177 | a change-point has a successor exactly when it is not the last one |
| ChartData.SuccessorIsNext | chart_data.py:174-177 | the successor is a later change-point with no change-point strictly in between, so consecutive intervals neither overlap nor leave gaps |
| ChartData.LastHasNoSuccessor | chart_data.py:175-177 | the row stamped with the greatest change-point has no successor entry |
| ChartData.Column | chart_data.py:181 | the cell read under a device column is one of the row's cells, or vacant when the log has no such column |
| ChartData.EmitFrom | chart_data.py:178-185 | no contract of its own: the three nested loops of the resolver from a given position; what they yield and when they fail is stated by OriginsExact and RunSpec |
| ChartData.OriginsExact | chart_data.py:179-182 | events are emitted for exactly the (wearer, device, row) positions whose cell holds that wearer, each once, ordered by sorted wearer, then device-list order, then row order |
| ChartData.RunSpec | chart_data.py:178-185 | the resolver loops succeed exactly when every listed device is a log column (if there is any wearer) and every matching row's change-point has a successor, and then yield one event per matching position in loop order |
| ChartData.GetPeople | chart_data.py:178-185 | each event starts at a change-point and stops at the immediately following one (start < stop); success exactly under the RunSpec conditions |
| ChartData.EventsSortedByWearer | chart_data.py:179-185 | events come grouped by wearer, wearers in sorted order |
| ChartData.FinalChangePointFails | chart_data.py:183-185 | an occupied cell in the row of the final change-point makes the resolver fail instead of being skipped |
| ChartData.WearerIndex | chart_data.py:167-172 | any tuple found in a device column is one of the sorted wearers |
| ChartData.GetStartStop | chart_data.py:214-222 | fails exactly when the wearer has no event; otherwise the start is one of the wearer's starts and is <= all of them, and the stop is one of the stops and is >= all of them |
| ChartData.SpanOfResolvedEvents | chart_data.py:214-222 | over resolved events a wearer's span is a proper interval, start < stop |
| ChartData.UniqueDevices | chart_data.py:52 | the devices are listed without repetition, and are exactly those of the given events (plus any already listed) |
| ChartData.Pieces | chart_data.py:56-74 | the concatenated rows are exactly the samples inside the span of the listed devices that have a table, tagged with their device |
| ChartData.PersonRows | chart_data.py:52-74 | the rows gathered are exactly the samples, inside the wearer's span, of the devices the wearer has events on and tables for |
| ChartData.BuildPerson | chart_data.py:49-78 | fails exactly when the wearer has no event or the pivot fails; otherwise every cell is a kept sample and every kept sample is in its cell; nothing is produced exactly when no sample is kept |
| ChartData.PivotedRows | chart_data.py:76-77 | a successful pivot holds every row in its cell and nothing else |
| ChartData.CsvName | chart_data.py:253-258 | the output name is exactly `person_wrist_device.csv` for a non-empty device and `person_wrist.csv` for none or the empty string |
| ChartData.CsvNamesDistinct | chart_data.py:253-258 | for one wearer different devices get different files, and no device file is the merged person_wrist.csv |
| OrganizeWearableData.DropNonCsv | organize_wearable_data.py:384-391 | the table has one row per line after the dropped lines and the optional header line, each row being its line split on every comma; the header exists exactly when requested; a short file gives an empty table |
| OrganizeWearableData.DropNonCsvFails | organize_wearable_data.py:387-390 | the only failure is a header whose field count is not the widest data row's, and this happens exactly when some data line is wider or every data line is narrower |
| OrganizeWearableData.DropNonCsvRoundTrip | organize_wearable_data.py:389-390 | joining a row's fields with commas restores its line, and the field count is the comma count plus one |
| OrganizeWearableData.DropNonCsvKeepsTail | organize_wearable_data.py:384-390 | the rows, joined back, are exactly the lines after the skipped ones: no dropped line is returned and no later line is lost |
| OrganizeWearableData.Trunc | organize_wearable_data.py:167-168 | `int()` truncates toward zero: a non-negative value lies in [n, n+1) and a negative one in (n-1, n] |
| OrganizeWearableData.Arange | organize_wearable_data.py:170-171 | the range has exactly the requested number of entries; its start and step are stated by ArangeIncreasing |
| OrganizeWearableData.E4Clock | organize_wearable_data.py:167-168 | start time and step are the truncated first values of rows 0 and 1; fewer than two rows or a zero step is an error |
| OrganizeWearableData.E4TimestampAsWritten | organize_wearable_data.py:169-174 | as written, data row k (label k+2) gets timestamp number k+2 and the last two data rows get none |
| OrganizeWearableData.E4TimestampShift | organize_wearable_data.py:169-174 | where the as-written stamping gives a timestamp, it is the intended timestamp of the row two places further down |
| OrganizeWearableData.E4TimestampMisaligned | organize_wearable_data.py:169-174 | a concrete export with start 100 and step 1: as written the first data row is stamped 102, the other two none; the intended stamping is 100, 101, 102 |
| OrganizeWearableData.E4Timestamp | organize_wearable_data.py:167-171 | one timestamp per data row after the first two rows, with the data rows unchanged |
| OrganizeWearableData.E4TimestampProgression | organize_wearable_data.py:167-171 | timestamps start at the start time and advance by the step; for a positive step they strictly increase |
| OrganizeWearableData.ArangeIncreasing | organize_wearable_data.py:170-171 | the generated range has the given start and step, and increases strictly for a positive step |
| OrganizeWearableData.ToG | organize_wearable_data.py:85-86 | each converted axis value times the count-per-g divisor gives back the raw count |
| OrganizeWearableData.CountsPerG | organize_wearable_data.py:84-317 | every device's count-per-g divisor is positive |
| OrganizeWearableData.ConvertToG | organize_wearable_data.py:84-86 | the converted table has one row per input row, and each axis value times 128 (ActiGraph) or 64 (E4 and Wavelet, organize_wearable_data.py:147-148 and 314-317) gives back the raw count |
| OrganizeWearableData.ConvertKeepsOrder | organize_wearable_data.py:146-148 | converting a device's table keeps the order of the x readings and the sign of each x value |
| OrganizeWearableData.ToGMonotone | organize_wearable_data.py:147-148 | with a positive divisor, conversion keeps the order of readings and their sign |
| OrganizeWearableData.WaveletSeconds | organize_wearable_data.py:306-308 | the Wavelet clock's seconds times 1000 give back the truncated millisecond timestamp |
| OrganizeWearableData.IsActigraphExport | organize_wearable_data.py:50 | no contract of its own: the ActiGraph loader's test, a name ending in `1sec.csv` |
| OrganizeWearableData.IsE4AccExport | organize_wearable_data.py:135 | no contract of its own: the E4 loader's test, a name containing `ACC` and ending in `csv` |
| OrganizeWearableData.IsCsv | organize_wearable_data.py:295 | no contract of its own: the `csv` suffix test, which the Wavelet loader applies alone |
| OrganizeWearableData.GeneactivStrap | organize_wearable_data.py:220-230 | a csv file naming Jon is routed to black; failing that, one naming Curt or Arno to pink; nothing else is routed |
| OrganizeWearableData.RoutingOverlaps | organize_wearable_data.py:50 | every ActiGraph (1sec.csv) and every E4 (ACC plus csv) export also passes the plain csv suffix test |
| OrganizeWearableData.JonTakesPrecedence | organize_wearable_data.py:220-230 | a file naming both Jon and Curt goes to the black device only |
| OrganizeWearableData.Collect | organize_wearable_data.py:134-145 | the accumulated table holds exactly the rows of the files the loader keeps |
| OrganizeWearableData.CollectSize | organize_wearable_data.py:134-145 | the accumulated table is exactly as long as the kept files' tables together |
| OrganizeWearableData.GeneactivAsWritten | organize_wearable_data.py:240-241 | as written, the pink output file receives the black table |
| OrganizeWearableData.GeneactivPinkLost | organize_wearable_data.py:236-241 | a lone pink export is routed to pink, yet the pink output is empty |
| OrganizeWearableData.Geneactiv | normalize_acc_data.py:158-181 | each device's output holds exactly the rows of the files routed to it |
| OrganizeWearableData.GeneactivPinkKept | normalize_acc_data.py:168-181 | with per-device accumulation the lone pink export's row reaches the pink output |
| OrganizeWearableData.SavedName | organize_wearable_data.py:419-431 | the saved file name is exactly the device name followed by `.csv` |
| OrganizeWearableData.SavedNamesDistinct | organize_wearable_data.py:431 | distinct devices are saved under distinct file names |
| NormalizeAcc.LengthSq | normalize_acc_data.py:284-288 | the squared normalized length is non-negative, and times the squared unit `3·scale²` it gives back x² + y² + z² |
| NormalizeAcc.Normalize | normalize_acc_data.py:285-289 | the table keeps its length and every instant and axis value; each row's length is `LengthSq` of its axes at the given scale |
| NormalizeAcc.NormalizedLengths | normalize_acc_data.py:267-289 | in the normalized table a row at full scale on every axis has length 1, the zero row length 0, and every row within the scale on each axis a length of at most 1 |
| NormalizeAcc.NormalizeIdempotent | normalize_acc_data.py:285-289 | normalizing an already normalized table with the same scale changes nothing |
| NormalizeAcc.CornerAndOrigin | normalize_acc_data.py:267-269 | a reading at full scale on every axis has length 1, and the zero reading has length 0 |
| NormalizeAcc.InsideCube | normalize_acc_data.py:276-277 | readings with every axis within the scale in absolute value have length at most 1 |
| NormalizeAcc.ScaleInvariant | normalize_acc_data.py:284-288 | multiplying the reading and the scale by the same non-zero factor leaves the length unchanged |
| NormalizeAcc.Symmetric | normalize_acc_data.py:284-288 | flipping an axis's sign or swapping two axes leaves the length unchanged |
| NormalizeAcc.FullScale | normalize_acc_data.py:72-254 | every device's full scale is positive |
| NormalizeAcc.NormalizeDevice | normalize_acc_data.py:72-254 | each loader's normalized table gets every row's length at its device's full scale: 1024 for the ActiGraph (line 72), 128 for the E4 (line 113) and the Wavelet (line 254), 8 for the GENEActiv (line 179) |
| NormalizeAcc.NormalizeDeviceBounded | normalize_acc_data.py:72-289 | in a device's normalized table a reading within its full scale on every axis has length at most 1, and one at full scale on every axis has length 1 |
| NormalizeAcc.ActigraphSingleAxis | normalize_acc_data.py:72 | with the ActiGraph scale 1024, a reading of 1024 on one axis has squared length 1/3, that is length 1/sqrt(3) |
| NormalizeAcc.NormalizedName | normalize_acc_data.py:323-324 | the saved file name is exactly the device name followed by `_normalized_unit.csv` |
| NormalizeAcc.NormalizedNamesDistinct | normalize_acc_data.py:323-324 | distinct devices are saved under distinct normalized-table names |
| NormalizeAccInferred.AxisExtent | utilities/normalize_acc_data.py:48 | the extent of an axis bounds every absolute value on it and is the absolute value of one of them |
| NormalizeAccInferred.InferredScale | utilities/normalize_acc_data.py:47-48 | the inferred scale bounds every axis value in absolute value and is reached by some axis value of some reading |
| NormalizeAccInferred.InferredScaleZero | utilities/normalize_acc_data.py:48-49 | the inferred scale is 0 exactly when every reading is the zero reading |
| NormalizeAccInferred.Normalize | utilities/normalize_acc_data.py:47-55 | a truthy scale is used as given; otherwise, for a non-empty table, the table is normalized with the inferred scale; fails exactly for a non-empty all-zero table without a given scale; instants and axes are untouched and every row gets a length |
| NormalizeAccInferred.InferredLengthsBounded | utilities/normalize_acc_data.py:47-55 | with an inferred scale every length is at most 1, and some reading's squared length is at least 1/3 |
| NormalizeAccInferred.ExtremeReading | utilities/normalize_acc_data.py:48-55 | a reading with one axis at full scale has squared length at least 1/3 |
| NormalizeAccInferred.NormalizeIdempotent | utilities/normalize_acc_data.py:47-56 | normalizing the result again with the same scale argument, inferred again if need be, gives the same table |
| PlotVectorLengths.Baseshift | plot_normalized_vector_lengths.py:86-92 | fails exactly for an empty series or one with no value above both its median and 0 (the shifted maximum is then 0 and the division leaves no number); otherwise keeps the length |
| RealSeq.Median | plot_normalized_vector_lengths.py:86 | no contract of its own: `np.median`, the middle sorted value or the mean of the two middle ones; bounded by MedianBounds |
| RealSeq.MedianBounds | plot_normalized_vector_lengths.py:86 | the median lies between the smallest and the largest value, and some value is at or below it |
| PlotVectorLengths.ShiftedPeak | plot_normalized_vector_lengths.py:86-90 | for a non-empty series, the shifted maximum is the original maximum if some value lies above both the median and 0, and 0 otherwise |
| PlotVectorLengths.BaseshiftReference | plot_normalized_vector_lengths.py:86-92 | each output value is 0 when the input is at or below the median, and otherwise the unshifted input divided by the input's maximum |
| PlotVectorLengths.BaseshiftPeak | plot_normalized_vector_lengths.py:74 | every output value is at most 1 and some output value is exactly 1 |
| PlotVectorLengths.BaseshiftMonotone | plot_normalized_vector_lengths.py:86-92 | for non-negative input every output lies in [0, 1] and larger inputs never get smaller outputs |
| PlotVectorLengths.Rescale | plot_normalized_vector_lengths.py:156-157 | rescaling a device table keeps its instants and replaces its lengths by the baseshifted ones |
| PlotVectorLengths.DeviceTablesAsWritten | plot_normalized_vector_lengths.py:147-158 | as written the table for the baseline-adjusted chart is the plain window, and the plain chart gets the window rescaled by the baseline shift; fails exactly when the baseshift fails |
| PlotVectorLengths.PlainChartAltered | plot_normalized_vector_lengths.py:150-158 | when the window holds only positive lengths, the as-written plain chart differs from the window it should show |
| PlotVectorLengths.DeviceTables | plot_normalized_vector_lengths.py:147-158 | the plain chart gets the window unchanged, the adjusted chart the window rescaled by the baseline shift; fails exactly when the baseshift fails |
| PlotVectorLengths.DeviceTablesSwapped | plot_normalized_vector_lengths.py:150-158 | the as-written tables are the corrected ones with the two charts exchanged |
| PlotVectorLengths.AdjustedChartPeaks | plot_normalized_vector_lengths.py:74 | in the corrected adjusted chart every value is at most 1 and some value is 1 |
| PlotVectorLengths.Stack | plot_normalized_vector_lengths.py:152-170 | with the corrected per-device tables (see "## Findings"): succeeds exactly when every device's window can be rescaled, and otherwise reports a device that cannot be with its cause; the plain rows are the windowed samples in device order, and the adjusted rows are each device's rescaled window in the same order (the reference `RescaledWindowed`) |
| PlotVectorLengths.WindowedMembership | plot_normalized_vector_lengths.py:147-149 | a tagged sample is stacked exactly when some listed device with a table has it inside the window |
| PlotVectorLengths.BuildPlot | plot_normalized_vector_lengths.py:128-176 | corrected build (see "## Findings"): nothing is charted exactly when no listed device has a table, because a table with an empty window fails at `max()`; otherwise the plain chart is the pivot of the stacked windows and the "baseline adjusted" chart the pivot of every device's rescaled window; the build fails exactly when some window cannot be rescaled (with that device's cause) or a device reports an instant twice |
| PlotVectorLengths.BuildPlotAsWritten | plot_normalized_vector_lengths.py:128-176 | as written: nothing is charted exactly when no listed device has a table; otherwise the "baseline adjusted" chart is the pivot of the raw windows and the plain chart the pivot of the rescaled windows; fails exactly when the corrected build does |
| PlotVectorLengths.BuildPlotSwapped | plot_normalized_vector_lengths.py:150-176 | the as-written build succeeds exactly when the corrected one does, and charts the same two tables with the plain and "baseline adjusted" charts exchanged |
| PlotVectorLengths.WindowedEmpty | plot_normalized_vector_lengths.py:137-171 | once every device's window rescales, `csv_df` is empty exactly when no listed device has a table |
| PlotVectorLengths.BuildPlotPlainCells | plot_normalized_vector_lengths.py:171-176 | corrected build (see "## Findings"): the plain chart's index is exactly the windowed instants, and every windowed sample sits in its cell |
| PlotVectorLengths.BuildPlotAdjustedCells | plot_normalized_vector_lengths.py:171-176 | corrected build: the "baseline adjusted" chart has the same index as the plain one, every windowed sample's device has a cell in it, and every rescaled sample's value sits in its cell |
| PlotVectorLengths.AdjustedChartValues | plot_normalized_vector_lengths.py:86-176 | corrected build: the "baseline adjusted" cell of a windowed sample is 0 when the sample is at or below its device window's median, and otherwise its length over the window's maximum |
| PlotVectorLengths.RescaledMember | plot_normalized_vector_lengths.py:150-170 | every rescaled sample of a listed device's window is among the rows collected for the "baseline adjusted" chart, under its device |
| PlotVectorLengths.AdjustedChartRaw | plot_normalized_vector_lengths.py:150-176 | as written, the "baseline adjusted" chart's index is exactly the windowed instants and every cell holds the raw length |
| Window.SameKeysPivot | plot_normalized_vector_lengths.py:173-176 | whether the pivot succeeds depends only on the rows' devices and instants, so the raw and the rescaled rows pivot alike |
| PlotPpgs.Present | plot_normalized_ppgs.py:137 | dropping missing values keeps exactly the present ones |
| PlotPpgs.NonZero | plot_normalized_ppgs.py:138 | keeping the non-zero entries keeps exactly the non-zero values |
| PlotPpgs.ReadingsCount | plot_normalized_ppgs.py:137-138 | the readings are as many as the present non-zero entries, and are exactly the present non-zero values |
| PlotPpgs.Demean | plot_normalized_ppgs.py:137-140 | one value per reading, with every pairwise difference of the readings preserved |
| PlotPpgs.DemeanSumsToZero | plot_normalized_ppgs.py:133-134 | the demeaned series is recentred on 0: it sums to zero |
| PlotPpgs.DemeanOrder | plot_normalized_ppgs.py:138-140 | demeaning preserves the order between any two readings |
| PlotPpgs.DemeanUnique | plot_normalized_ppgs.py:133-140 | any series with the readings' pairwise differences that sums to zero is the demeaned series |
| PlotPpgs.Normalize | plot_normalized_ppgs.py:157-158 | fails exactly for an empty or all-zero series; otherwise keeps the length and divides every value by the positive largest absolute value `max(max(s), abs(min(s)))` |
| PlotPpgs.NormalizeBounded | plot_normalized_ppgs.py:153-158 | every value lies in [-1, 1], some value has absolute value 1, and signs and order are preserved |
| PlotPpgs.NormalizeOneSided | plot_normalized_ppgs.py:153-158 | [1, -2] normalizes to [0.5, -1]: only the larger-magnitude side reaches ±1 |
| PlotPpgs.PlotLine | plot_normalized_ppgs.py:215-222 | the nW channel is normalized after dropping missing values, every other channel after demeaning; every plotted value lies in [-1, 1] |
| PlotPpgs.FlatChannelFails | plot_normalized_ppgs.py:222 | a channel other than nW cannot be plotted exactly when all its readings are equal (or there are none) |
| PlotPpgs.CompleteMembership | plot_normalized_ppgs.py:103 | after dropping incomplete rows exactly the rows with a value remain |
| PlotPpgs.MergedMembership | plot_normalized_ppgs.py:103-114 | a tagged sample is merged exactly when some device with a table has it, complete and inside the window |
| PlotPpgs.BuildPlot | plot_normalized_ppgs.py:110-118 | nothing is charted exactly when no device has a complete sample in the window; otherwise the table is the outer merge of the windows |
| PlotPpgs.BuildPlotOuter | plot_normalized_ppgs.py:113-118 | the merged index holds every instant of any device's window and nothing else, all inside the window, and no row is empty |
| Config.RawUrls | config/config.py:62-87 | every entry of the result is an entry of the URL table with the same value; a false argument (the default `None`) gives every sensor; a non-empty string gives exactly its own sensor when it is known and nothing otherwise; a non-iterable scalar gives nothing |
| Config.RawUrlsOfNames | config/config.py:82-84 | a prefix of a name list selects exactly the known sensors it names, or everything once it holds the empty name |
| Config.RawUrlsNames | config/config.py:75-87 | an empty list selects the whole table; a non-empty list selects exactly the known sensors named (all of them if the empty name is among them), each with its table entry |
| Config.RawUrlsSameNames | config/config.py:82-84 | order and repetition in the list do not matter |
| Config.RawUrlsName | config/config.py:75-80 | the empty name selects the whole table, a known name its own entry, an unknown name nothing, and a name alone is the same as a one-element list |
| Config.Sensorlist | config/config.py:102-103 | seven distinct sensors, all keys of the URL table: every key except raw_accelerometer and accelerometer quicktest |
| ColorCycle.Take | config/CMI_colors/color_cycle.py:14-17 | one step appends the palette's next colour, advances only that palette, and never adds a palette |
| ColorCycle.Round | config/CMI_colors/color_cycle.py:13-17 | one pass of the `for` loop appends the next colour of each palette that has one, in the order Primary, Secondary, Tertiary, and advances each of them by one |
| ColorCycle.Interleave | config/CMI_colors/color_cycle.py:10-17 | the loop produces the round-robin interleaving of the three palettes and leaves the map empty |
| ColorCycle.Palette | config/CMI_colors/color_cycle.py:9-19 | succeeds exactly for exactly the three non-empty palettes, giving their round-robin interleaving; a missing palette fails at its reverse (Primary first), otherwise the first empty palette in Primary, Secondary, Tertiary order fails at its first-round pop; an extra key never ends |
| ColorCycle.PaletteTwice | config/CMI_colors/color_cycle.py:4-11 | the call consumes the map, so a second call fails at the Primary reverse |
| ColorCycle.PopReversed | config/CMI_colors/color_cycle.py:11-15 | popping the reversed list yields the palette's first colour and leaves the rest in order |
| ColorCycle.LiveNonEmpty | config/CMI_colors/color_cycle.py:12-17 | while the map holds a palette, some colour remains to be taken |
| ColorCycle.LiveEmpty | config/CMI_colors/color_cycle.py:16-17 | once every palette has been deleted, no colour remains |
| ColorCycle.RoundRobinPermutation | config/CMI_colors/color_cycle.py:12-17 | the output is as long as the three palettes together and is a permutation of their union |
| ColorCycle.RoundRobinKeepsOrder | config/CMI_colors/color_cycle.py:10-15 | the colours of each palette appear in the output in their original order |
| ColorCycle.RoundRobinMarked | config/CMI_colors/color_cycle.py:12-17 | dropping the palette tags from the interleaving of the tagged palettes gives the interleaving of the plain palettes, so the order statement is about the colour list |

## Left out

- File and directory I/O is not modelled: `os.listdir`, `open`, `read_csv`, `to_csv`, `makedirs`. Inputs are in-memory lines, rows and maps of device tables.
- Datetime parsing and formatting is not modelled: `datetimeint`, `datetimedt`, `fromtimestamp`, `strftime`, `dateutil.parser`. Instants are integers throughout, so the Timestamp re-parse in `utilities/normalize_acc_data.py` is the identity.
- Parsing of CSV fields into numbers and pandas' `float64` conversion are not modelled. Tables hold `real` values.
- Square roots are not modelled. Normalized lengths are kept squared, which is order- and bound-equivalent.
- Plotting is left out:
  - `linechart`;
  - `plot_all_sensors.py`, `annotate_range.py` and `line_charts/line_charts.js`;
  - the `cycler` wrapper of the colour list.
- Network fetch is left out: `data/osf.py` and the fetch helpers.
- Floating-point statistics are left out: cross-correlation, rolling windows, Bland-Altman and `rolling_correlations.py`.
- `mindboggle/extract/extract_fundi.py` is unrelated mesh code and is not part of this model.
- `chart_data_ppg.py` is not part of this model. It depends on names that the modelled `chart_data.py` does not define.
- The cross-correlation loop of the PPG plot is not part of this model. Its `cross_correlate` is not defined anywhere in the repository.
- The day-by-day chunking of merged tables is not part of this model. It is not in the modelled files.
- The root `config.py` is not part of this model. It holds paths only; `devices` and the device tables are parameters instead.
- The `write_csv` calls with a `normal=` keyword in the vector-length plot are left out. `write_csv` takes no such argument, so these calls raise before writing.
- The per-device `write_csv` in the PPG build step is left out. It is output only.
- `sort_values` on Timestamp before windowing and pivoting is left out. The pivoted map does not depend on row order.
- The no-op `s.apply(pd.to_numeric)` in `demean` is left out. Its result is discarded.
- pandas' outer merge on duplicate timestamps, which forms a cartesian product, is not modelled. Any repeated (instant, device) pair is a merge error instead.
- ChartData.Wearers: a half-empty occupancy tuple is not modelled. When only one of `person.csv` and `wrist.csv` has a value at a change-point, the outer merge (chart_data.py:148-163) gives `(person, NaN)` or `(NaN, wrist)`. The source keeps such a tuple as a wearer (chart_data.py:168), and `chart_wrists.sort()` (chart_data.py:172) raises `TypeError` once it compares the NaN with a string. A model cell is a full tuple or vacant, so the model covers only logs where both files agree on every change-point.
- ChartData.GetPeople: a missing device column is a failure, as the `KeyError` that `person_wrist.ix[:, device]` raises at chart_data.py:181.
- OrganizeWearableData.DropNonCsv: pandas pads short rows with `None`. The model keeps the split fields and states only the column-count check.
- OrganizeWearableData.Collect: states which rows the accumulated table holds and, through CollectSize, how many. Their order (listing order) follows from the body but is not stated separately.
- OrganizeWearableData.Geneactiv: states membership only, not the order in which the rows of several files are concatenated.
- PlotVectorLengths.Baseshift: proportionality of the rescaled values is stated as order and bounds (BaseshiftMonotone, BaseshiftReference), not as a product identity.

## Findings

| source | as written | input that shows it | evidently intended | confidence | as-written member | corrected member |
|---|---|---|---|---|---|---|
| organize_wearable_data.py:169-174 | the generated timestamps carry labels 0..n-1 and the data rows keep labels 2..n+1; the column assignment aligns on labels, so data row k gets timestamp k+2 and the last two rows get NaN | start 100, step 1, three data rows: stamped 102, none, none | data row k stamped start + k·step: 100, 101, 102 | not executed | OrganizeWearableData.E4TimestampMisaligned | OrganizeWearableData.E4TimestampProgression |
| organize_wearable_data.py:236, 240-241 | a second pink file is appended to the black table, and the black table is saved under the pink name too | a single file "Curt.csv" with one row: the pink output is empty | each device's files accumulated into its own table and saved under its own name, as in normalize_acc_data.py:174, 180-181 | not executed | OrganizeWearableData.GeneactivPinkLost | OrganizeWearableData.GeneactivPinkKept |
| plot_normalized_vector_lengths.py:150-158 | the copy is taken before the rescaling, and `baseshift_and_renormalize` then rescales the original in place, so the plain chart gets the rescaled lengths and the "baseline adjusted" chart the raw ones | a window whose lengths are all positive, such as 1, 2, 3: the plain chart shows 0, 0, 1 | the plain chart shows the window; the baseline-adjusted chart shows the rescaled copy | not executed | PlotVectorLengths.PlainChartAltered | PlotVectorLengths.AdjustedChartPeaks |

=== FILE: chart_data.dfy ===
/** The placement resolver and per-wearer chart builder of `chart_data.py`.

    The placement log records, at each change-point, which (person, wrist)
    wears each device. `GetPeople` turns it into wear events: every occupied
    cell becomes an event from its row's change-point up to the next one.
    `GetStartStop` spans all events of one wearer, and `BuildPerson` cuts
    each of that wearer's device tables to the span and pivots them into one
    table. Instants are Unix seconds. */
module ChartData {
  import opened Wrappers
  import Text
  import Sorting
  import Window

  type Device = string

  datatype PersonWrist = PersonWrist(person: string, wrist: string)

  /** Python's tuple order on (person, wrist). */
  predicate PwLess(a: PersonWrist, b: PersonWrist)
  {
    Text.Less(a.person, b.person) || (a.person == b.person && Text.Less(a.wrist, b.wrist))
  }

  lemma PwLessTransitive(a: PersonWrist, b: PersonWrist, c: PersonWrist)
    requires PwLess(a, b) && PwLess(b, c)
    ensures PwLess(a, c)
  {
    if Text.Less(a.person, b.person) && Text.Less(b.person, c.person) {
      Text.LessTransitive(a.person, b.person, c.person);
    }
    Text.LessIrreflexive(a.person);
    Text.LessIrreflexive(b.person);
    if a.person == b.person && b.person == c.person {
      Text.LessTransitive(a.wrist, b.wrist, c.wrist);
    }
  }

  lemma PwLessTotal(a: PersonWrist, b: PersonWrist)
    requires a != b
    ensures PwLess(a, b) || PwLess(b, a)
  {
    if a.person != b.person {
      Text.LessTotal(a.person, b.person);
    } else {
      Text.LessTotal(a.wrist, b.wrist);
    }
  }

  predicate StrictlySorted(s: seq<PersonWrist>)
  {
    forall i, j :: 0 <= i < j < |s| ==> PwLess(s[i], s[j])
  }

  function InsertWearer(x: PersonWrist, s: seq<PersonWrist>): (r: seq<PersonWrist>)
    requires StrictlySorted(s)
    ensures StrictlySorted(r)
    ensures forall y :: y in r <==> y == x || y in s
  {
    if |s| == 0 then [x]
    else if x == s[0] then s
    else if PwLess(x, s[0]) then
      assert forall k :: 0 < k < |s| ==> PwLess(x, s[k]) by {
        forall k | 0 < k < |s|
          ensures PwLess(x, s[k])
        {
          PwLessTransitive(x, s[0], s[k]);
        }
      }
      [x] + s
    else
      PwLessTotal(x, s[0]);
      var rest := InsertWearer(x, s[1..]);
      assert forall k :: 0 <= k < |rest| ==> PwLess(s[0], rest[k]) by {
        forall k | 0 <= k < |rest|
          ensures PwLess(s[0], rest[k])
        {
          assert rest[k] in rest;
          if rest[k] != x {
            var m :| 0 <= m < |s[1..]| && s[1..][m] == rest[k];
            assert s[m + 1] == rest[k];
          }
        }
      }
      [s[0]] + rest
  }

  /** `sorted(unique(pws))`: the distinct wearers in tuple order. */
  function SortWearers(pws: seq<PersonWrist>): (r: seq<PersonWrist>)
    ensures StrictlySorted(r)
    ensures forall y :: y in r <==> y in pws
  {
    if |pws| == 0 then [] else InsertWearer(pws[0], SortWearers(pws[1..]))
  }

  /** A cell of the merged person/wrist log: an integer change-point, a
      (person, wrist) occupancy tuple, or the (NaN, NaN) tuple of a device
      nobody wears. */
  datatype Cell = Instant(t: int) | Occupied(pw: PersonWrist) | Vacant

  /** One log row: its Timestamp cell and one cell per device column. */
  datatype LogRow = LogRow(stamp: Cell, cells: seq<Cell>)

  datatype PlacementLog = PlacementLog(columns: seq<Device>, rows: seq<LogRow>)

  /** `person_wrist.values.ravel()`: every cell, row by row. */
  function Ravel(rows: seq<LogRow>): (cells: seq<Cell>)
    ensures forall i :: 0 <= i < |rows| ==> rows[i].stamp in cells
    ensures forall i, c :: 0 <= i < |rows| && c in rows[i].cells ==> c in cells
  {
    if |rows| == 0 then []
    else
      var rest := Ravel(rows[1..]);
      assert forall i :: 1 <= i < |rows| ==> rows[i] == rows[1..][i - 1];
      [rows[0].stamp] + rows[0].cells + rest
  }

  /** The integer cells, in order. */
  function InstantsIn(cells: seq<Cell>): (ts: seq<int>)
    ensures forall t :: t in ts <==> Instant(t) in cells
  {
    if |cells| == 0 then []
    else
      assert cells == [cells[0]] + cells[1..];
      (if cells[0].Instant? then [cells[0].t] else []) + InstantsIn(cells[1..])
  }

  /** The occupancy tuples, in order; vacant cells are skipped. */
  function OccupantsIn(cells: seq<Cell>): (pws: seq<PersonWrist>)
    ensures forall pw :: pw in pws <==> Occupied(pw) in cells
  {
    if |cells| == 0 then []
    else
      assert cells == [cells[0]] + cells[1..];
      (if cells[0].Occupied? then [cells[0].pw] else []) + OccupantsIn(cells[1..])
  }

  /** The sorted distinct change-points: exactly the integer cells of the log. */
  function ChangePoints(log: PlacementLog): (times: seq<int>)
    ensures Sorting.StrictlyIncreasing(times)
    ensures forall t :: t in times <==> Instant(t) in Ravel(log.rows)
  {
    Sorting.SortDistinct(InstantsIn(Ravel(log.rows)))
  }

  /** The sorted distinct wearers: exactly the occupancy tuples of the log. */
  function Wearers(log: PlacementLog): (pws: seq<PersonWrist>)
    ensures StrictlySorted(pws)
    ensures forall pw :: pw in pws <==> Occupied(pw) in Ravel(log.rows)
  {
    SortWearers(OccupantsIn(Ravel(log.rows)))
  }

  /** `start_stop`: each change-point but the last mapped to the next one. */
  function Successors(times: seq<int>): (m: map<int, int>)
    requires Sorting.StrictlyIncreasing(times)
    ensures m.Keys == set k | 0 <= k < |times| - 1 :: times[k]
    ensures forall k :: 0 <= k < |times| - 1 ==> m[times[k]] == times[k + 1]
  {
    if |times| < 2 then map[]
    else
      var rest := Successors(times[1..]);
      assert forall k :: 1 <= k < |times| ==> times[k] == times[1..][k - 1];
      assert times[0] !in rest.Keys;
      var m := rest[times[0] := times[1]];
      assert m.Keys == set k | 0 <= k < |times| - 1 :: times[k] by {
        forall t | t in m.Keys
          ensures t in set k | 0 <= k < |times| - 1 :: times[k]
        {
          if t != times[0] {
            var k :| 0 <= k < |times[1..]| - 1 && times[1..][k] == t;
            assert times[k + 1] == t;
          }
        }
      }
      m
  }

  /** Exactly the change-points other than the last have a successor. */
  lemma SuccessorDefined(times: seq<int>, t: int)
    requires Sorting.StrictlyIncreasing(times)
    requires t in times
    ensures t in Successors(times) <==> t != times[|times| - 1]
  {
    var k :| 0 <= k < |times| && times[k] == t;
    if k == |times| - 1 {
      forall q | 0 <= q < |times| - 1
        ensures times[q] != t
      {
      }
    }
  }

  /** The successor of a change-point is the next one: a later change-point
      with no change-point strictly between the two. */
  lemma SuccessorIsNext(times: seq<int>, k: nat)
    requires Sorting.StrictlyIncreasing(times)
    requires k < |times| - 1
    ensures times[k] in Successors(times)
    ensures times[k] < Successors(times)[times[k]]
    ensures Successors(times)[times[k]] in times
    ensures forall c :: c in times ==> !(times[k] < c < Successors(times)[times[k]])
  {
    var t := times[k];
    var m := Successors(times);
    assert m[t] == times[k + 1];
    forall c | c in times
      ensures !(t < c < times[k + 1])
    {
      var n :| 0 <= n < |times| && times[n] == c;
      if n <= k {
        assert c <= t;
      } else {
        assert times[k + 1] <= c;
      }
    }
  }

  /** The cell a row holds under the first column named `d` (`.ix[:, d]`). */
  function Column(columns: seq<Device>, cells: seq<Cell>, d: Device): (c: Cell)
    ensures c == Vacant || c in cells
  {
    if |columns| == 0 || |cells| == 0 then Vacant
    else if columns[0] == d then cells[0]
    else Column(columns[1..], cells[1..], d)
  }

  /** One wear interval: `device` worn by `pw` from `start` up to `stop`. */
  datatype Event = Event(pw: PersonWrist, device: Device, start: int, stop: int)

  datatype PlacementError =
    | MissingDevice(device: Device)   // KeyError: the log has no such column
    | NoSuccessor(stamp: Cell)        // KeyError: the row's Timestamp has no next change-point

  /** Everything the three nested loops of the resolver read. */
  datatype Resolver = Resolver(log: PlacementLog, devices: seq<Device>, wearers: seq<PersonWrist>, successors: map<int, int>)

  /** Loop position: wearer index `p`, device index `j`, row index `i`. */
  datatype Origin = Origin(p: nat, j: nat, i: nat)

  predicate OriginLess(a: Origin, b: Origin)
  {
    a.p < b.p || (a.p == b.p && (a.j < b.j || (a.j == b.j && a.i < b.i)))
  }

  /** Row `i` holds wearer `p` under device `j`. */
  predicate Matches(r: Resolver, p: nat, j: nat, i: nat)
  {
    && p < |r.wearers| && j < |r.devices| && i < |r.log.rows|
    && r.devices[j] in r.log.columns
    && Column(r.log.columns, r.log.rows[i].cells, r.devices[j]) == Occupied(r.wearers[p])
  }

  /** The event a matching position yields, if its row's Timestamp has a
      successor. */
  function EventAt(r: Resolver, o: Origin): Option<Event>
    requires o.p < |r.wearers| && o.j < |r.devices| && o.i < |r.log.rows|
  {
    var stamp := r.log.rows[o.i].stamp;
    if stamp.Instant? && stamp.t in r.successors then
      Some(Event(r.wearers[o.p], r.devices[o.j], stamp.t, r.successors[stamp.t]))
    else None
  }

  /** Reference enumeration: every matching position at or after (p, j, i),
      in loop order. */
  function OriginsFrom(r: Resolver, p: nat, j: nat, i: nat): seq<Origin>
    decreases |r.wearers| - p, |r.devices| - j, |r.log.rows| - i
  {
    if p >= |r.wearers| then []
    else if j >= |r.devices| then OriginsFrom(r, p + 1, 0, 0)
    else if i >= |r.log.rows| then OriginsFrom(r, p, j + 1, 0)
    else (if Matches(r, p, j, i) then [Origin(p, j, i)] else []) + OriginsFrom(r, p, j, i + 1)
  }

  /** The loops of `getpeople` from position (p, j, i) on: for each wearer,
      for each device (failing when the log has no such column), for each row
      holding that wearer, one event (failing when the row's Timestamp has no
      successor). */
  function EmitFrom(r: Resolver, p: nat, j: nat, i: nat): Result<seq<Event>, PlacementError>
    decreases |r.wearers| - p, |r.devices| - j, |r.log.rows| - i
  {
    if p >= |r.wearers| then Ok([])
    else if j >= |r.devices| then EmitFrom(r, p + 1, 0, 0)
    else if i == 0 && r.devices[j] !in r.log.columns then Err(MissingDevice(r.devices[j]))
    else if i >= |r.log.rows| then EmitFrom(r, p, j + 1, 0)
    else if Matches(r, p, j, i) then
      match EventAt(r, Origin(p, j, i))
      case None => Err(NoSuccessor(r.log.rows[i].stamp))
      case Some(e) =>
        var rest :- EmitFrom(r, p, j, i + 1);
        Ok([e] + rest)
    else EmitFrom(r, p, j, i + 1)
  }

  function ResolverOf(log: PlacementLog, devices: seq<Device>): Resolver
  {
    var times := ChangePoints(log);
    Resolver(log, devices, Wearers(log), Successors(times))
  }

  /** All positions that yield an event, in the order they are emitted. */
  function Origins(log: PlacementLog, devices: seq<Device>): seq<Origin>
  {
    OriginsFrom(ResolverOf(log, devices), 0, 0, 0)
  }

  // ---------------------------------------------------------------------
  // The reference enumeration: sound, complete, strictly ordered.
  // ---------------------------------------------------------------------

  /** Every enumerated position matches and comes at or after the start. */
  lemma {:induction false} OriginsFromSound(r: Resolver, p: nat, j: nat, i: nat)
    ensures forall o :: o in OriginsFrom(r, p, j, i) ==>
      Matches(r, o.p, o.j, o.i) && !OriginLess(o, Origin(p, j, i))
    decreases |r.wearers| - p, |r.devices| - j, |r.log.rows| - i
  {
    if p >= |r.wearers| {
    } else if j >= |r.devices| {
      OriginsFromSound(r, p + 1, 0, 0);
    } else if i >= |r.log.rows| {
      OriginsFromSound(r, p, j + 1, 0);
    } else {
      OriginsFromSound(r, p, j, i + 1);
    }
  }

  /** Every matching position at or after the start is enumerated. */
  lemma {:induction false} OriginsFromComplete(r: Resolver, p: nat, j: nat, i: nat, q: Origin)
    requires Matches(r, q.p, q.j, q.i)
    requires !OriginLess(q, Origin(p, j, i))
    ensures q in OriginsFrom(r, p, j, i)
    decreases |r.wearers| - p, |r.devices| - j, |r.log.rows| - i
  {
    if p >= |r.wearers| {
    } else if j >= |r.devices| {
      OriginsFromComplete(r, p + 1, 0, 0, q);
    } else if i >= |r.log.rows| {
      OriginsFromComplete(r, p, j + 1, 0, q);
    } else if q == Origin(p, j, i) {
    } else {
      OriginsFromComplete(r, p, j, i + 1, q);
    }
  }

  /** The enumeration is strictly increasing in loop order, so no position
      appears twice. */
  lemma {:induction false} OriginsFromSorted(r: Resolver, p: nat, j: nat, i: nat)
    ensures forall a, b :: 0 <= a < b < |OriginsFrom(r, p, j, i)| ==>
      OriginLess(OriginsFrom(r, p, j, i)[a], OriginsFrom(r, p, j, i)[b])
    decreases |r.wearers| - p, |r.devices| - j, |r.log.rows| - i
  {
    if p >= |r.wearers| {
    } else if j >= |r.devices| {
      OriginsFromSorted(r, p + 1, 0, 0);
    } else if i >= |r.log.rows| {
      OriginsFromSorted(r, p, j + 1, 0);
    } else {
      OriginsFromSorted(r, p, j, i + 1);
      OriginsFromSound(r, p, j, i + 1);
      var tail := OriginsFrom(r, p, j, i + 1);
      var s := OriginsFrom(r, p, j, i);
      if Matches(r, p, j, i) {
        forall a, b | 0 <= a < b < |s|
          ensures OriginLess(s[a], s[b])
        {
          if a == 0 {
            assert s[b] == tail[b - 1];
            assert s[b] in tail;
          } else {
            assert s[a] == tail[a - 1] && s[b] == tail[b - 1];
          }
        }
      }
    }
  }

  // ---------------------------------------------------------------------
  // The loops against the reference enumeration.
  // ---------------------------------------------------------------------

  predicate InRange(r: Resolver, o: Origin)
  {
    o.p < |r.wearers| && o.j < |r.devices| && o.i < |r.log.rows|
  }

  /** `evs` is, position by position, the events of the positions `os`. */
  predicate Yields(r: Resolver, os: seq<Origin>, evs: seq<Event>)
  {
    |os| == |evs| && forall k :: 0 <= k < |os| ==> InRange(r, os[k]) && EventAt(r, os[k]) == Some(evs[k])
  }

  lemma YieldsCons(r: Resolver, o: Origin, e: Event, os: seq<Origin>, evs: seq<Event>)
    requires InRange(r, o) && EventAt(r, o) == Some(e)
    requires Yields(r, os, evs)
    ensures Yields(r, [o] + os, [e] + evs)
  {
    forall k | 1 <= k < |os| + 1
      ensures ([o] + os)[k] == os[k - 1] && ([e] + evs)[k] == evs[k - 1]
    {
    }
  }

  /** A successful run emits, in order, the event of every enumerated
      position. */
  lemma {:induction false} EmitFollowsOrigins(r: Resolver, p: nat, j: nat, i: nat)
    requires EmitFrom(r, p, j, i).Ok?
    ensures Yields(r, OriginsFrom(r, p, j, i), EmitFrom(r, p, j, i).value)
    decreases |r.wearers| - p, |r.devices| - j, |r.log.rows| - i
  {
    if p >= |r.wearers| {
    } else if j >= |r.devices| {
      EmitFollowsOrigins(r, p + 1, 0, 0);
    } else if i >= |r.log.rows| {
      EmitFollowsOrigins(r, p, j + 1, 0);
    } else {
      EmitFollowsOrigins(r, p, j, i + 1);
      if Matches(r, p, j, i) {
        var e := EventAt(r, Origin(p, j, i)).value;
        var rest := EmitFrom(r, p, j, i + 1).value;
        assert EmitFrom(r, p, j, i).value == [e] + rest;
        assert OriginsFrom(r, p, j, i) == [Origin(p, j, i)] + OriginsFrom(r, p, j, i + 1);
        YieldsCons(r, Origin(p, j, i), e, OriginsFrom(r, p, j, i + 1), rest);
      } else {
        assert OriginsFrom(r, p, j, i) == [] + OriginsFrom(r, p, j, i + 1);
      }
    }
  }

  /** A position whose row has no successor makes the run fail: the final
      change-point is never silently skipped. */
  lemma {:induction false} EmitFailsWithoutSuccessor(r: Resolver, p: nat, j: nat, i: nat, q: Origin)
    requires q in OriginsFrom(r, p, j, i)
    requires q.p < |r.wearers| && q.j < |r.devices| && q.i < |r.log.rows|
    requires EventAt(r, q).None?
    ensures EmitFrom(r, p, j, i).Err?
    decreases |r.wearers| - p, |r.devices| - j, |r.log.rows| - i
  {
    if p >= |r.wearers| {
    } else if j >= |r.devices| {
      EmitFailsWithoutSuccessor(r, p + 1, 0, 0, q);
    } else if i == 0 && r.devices[j] !in r.log.columns {
    } else if i >= |r.log.rows| {
      EmitFailsWithoutSuccessor(r, p, j + 1, 0, q);
    } else if Matches(r, p, j, i) && q == Origin(p, j, i) {
    } else if Matches(r, p, j, i) && EventAt(r, Origin(p, j, i)).None? {
    } else {
      EmitFailsWithoutSuccessor(r, p, j, i + 1, q);
    }
  }

  /** A listed device missing from the log makes the run fail once some
      wearer's loop reaches it. */
  lemma {:induction false} EmitFailsOnMissingDevice(r: Resolver, p: nat, j: nat, i: nat, m: nat)
    requires p < |r.wearers| && m < |r.devices| && r.devices[m] !in r.log.columns
    requires p + 1 < |r.wearers| || j < m || (j == m && i == 0)
    ensures EmitFrom(r, p, j, i).Err?
    decreases |r.wearers| - p, |r.devices| - j, |r.log.rows| - i
  {
    if j >= |r.devices| {
      EmitFailsOnMissingDevice(r, p + 1, 0, 0, m);
    } else if i == 0 && r.devices[j] !in r.log.columns {
    } else if i >= |r.log.rows| {
      EmitFailsOnMissingDevice(r, p, j + 1, 0, m);
    } else if Matches(r, p, j, i) && EventAt(r, Origin(p, j, i)).None? {
    } else {
      EmitFailsOnMissingDevice(r, p, j, i + 1, m);
    }
  }

  /** With every device present and every enumerated position's row having a
      successor, the run succeeds. */
  lemma {:induction false} EmitSucceeds(r: Resolver, p: nat, j: nat, i: nat)
    requires forall d :: d in r.devices ==> d in r.log.columns
    requires forall q :: q in OriginsFrom(r, p, j, i) ==>
      q.p < |r.wearers| && q.j < |r.devices| && q.i < |r.log.rows| && EventAt(r, q).Some?
    ensures EmitFrom(r, p, j, i).Ok?
    decreases |r.wearers| - p, |r.devices| - j, |r.log.rows| - i
  {
    if p >= |r.wearers| {
    } else if j >= |r.devices| {
      EmitSucceeds(r, p + 1, 0, 0);
    } else if i >= |r.log.rows| {
      assert r.devices[j] in r.devices;
      EmitSucceeds(r, p, j + 1, 0);
    } else {
      assert r.devices[j] in r.devices;
      var head := if Matches(r, p, j, i) then [Origin(p, j, i)] else [];
      var tail := OriginsFrom(r, p, j, i + 1);
      assert OriginsFrom(r, p, j, i) == head + tail;
      forall q | q in tail
        ensures q in OriginsFrom(r, p, j, i)
      {
      }
      EmitSucceeds(r, p, j, i + 1);
      if Matches(r, p, j, i) {
        assert Origin(p, j, i) in OriginsFrom(r, p, j, i);
        assert EventAt(r, Origin(p, j, i)).Some?;
      }
    }
  }

  // ---------------------------------------------------------------------
  // getpeople
  // ---------------------------------------------------------------------

  /** A successor entry is an interval between consecutive change-points. */
  lemma SuccessorEntry(times: seq<int>, t: int)
    requires Sorting.StrictlyIncreasing(times)
    requires t in Successors(times)
    ensures t in times && Successors(times)[t] in times && t < Successors(times)[t]
    ensures forall c :: c in times ==> !(t < c < Successors(times)[t])
  {
    var k :| 0 <= k < |times| - 1 && times[k] == t;
    SuccessorIsNext(times, k);
  }

  /** Every event a run yields spans consecutive change-points. */
  lemma YieldedAreIntervals(log: PlacementLog, devices: seq<Device>, os: seq<Origin>, evs: seq<Event>)
    requires Yields(ResolverOf(log, devices), os, evs)
    ensures forall e :: e in evs ==>
      e.start < e.stop && e.start in ChangePoints(log) && e.stop in ChangePoints(log) &&
      forall c :: c in ChangePoints(log) ==> !(e.start < c < e.stop)
  {
    var r := ResolverOf(log, devices);
    forall e | e in evs
      ensures e.start < e.stop && e.start in ChangePoints(log) && e.stop in ChangePoints(log) &&
        forall c :: c in ChangePoints(log) ==> !(e.start < c < e.stop)
    {
      var k :| 0 <= k < |evs| && evs[k] == e;
      assert EventAt(r, os[k]) == Some(e);
      SuccessorEntry(ChangePoints(log), e.start);
    }
  }

  /** The run from the first position: what it yields when it succeeds, and
      exactly when it succeeds. */
  lemma RunSpec(log: PlacementLog, devices: seq<Device>)
    ensures var out := EmitFrom(ResolverOf(log, devices), 0, 0, 0);
      && (out.Ok? ==> Yields(ResolverOf(log, devices), Origins(log, devices), out.value))
      && (out.Ok? <==>
        && (|Wearers(log)| == 0 || forall d :: d in devices ==> d in log.columns)
        && forall o :: o in Origins(log, devices) ==> InRange(ResolverOf(log, devices), o) && EventAt(ResolverOf(log, devices), o).Some?)
  {
    var res := ResolverOf(log, devices);
    var out := EmitFrom(res, 0, 0, 0);
    OriginsFromSound(res, 0, 0, 0);
    if out.Ok? {
      EmitFollowsOrigins(res, 0, 0, 0);
      if |res.wearers| > 0 {
        forall d | d in devices
          ensures d in log.columns
        {
          if d !in log.columns {
            var m :| 0 <= m < |devices| && devices[m] == d;
            EmitFailsOnMissingDevice(res, 0, 0, 0, m);
          }
        }
      }
      forall o | o in Origins(log, devices)
        ensures InRange(res, o) && EventAt(res, o).Some?
      {
        var k :| 0 <= k < |Origins(log, devices)| && Origins(log, devices)[k] == o;
      }
    }
    if && |res.wearers| > 0
       && (forall d :: d in devices ==> d in log.columns)
       && (forall o :: o in Origins(log, devices) ==> InRange(res, o) && EventAt(res, o).Some?) {
      EmitSucceeds(res, 0, 0, 0);
    }
  }

  /** `getpeople`: the wear events of the placement log, for the device
      columns named in `devices`. */
  function GetPeople(log: PlacementLog, devices: seq<Device>): (r: Result<seq<Event>, PlacementError>)
    ensures r.Ok? ==> Yields(ResolverOf(log, devices), Origins(log, devices), r.value)
    ensures r.Ok? ==> forall e :: e in r.value ==>
      e.start < e.stop && e.start in ChangePoints(log) && e.stop in ChangePoints(log) &&
      forall c :: c in ChangePoints(log) ==> !(e.start < c < e.stop)
    ensures r.Ok? <==>
      && (|Wearers(log)| == 0 || forall d :: d in devices ==> d in log.columns)
      && forall o :: o in Origins(log, devices) ==> InRange(ResolverOf(log, devices), o) && EventAt(ResolverOf(log, devices), o).Some?
  {
    var out := EmitFrom(ResolverOf(log, devices), 0, 0, 0);
    RunSpec(log, devices);
    if out.Ok? then
      YieldedAreIntervals(log, devices, Origins(log, devices), out.value);
      out
    else out
  }

  /** The emitted positions are exactly the (wearer, device, row) positions
      whose cell holds the wearer, each once, ordered by sorted wearer, then
      device-list order, then row order. */
  lemma OriginsExact(log: PlacementLog, devices: seq<Device>)
    ensures forall o :: o in Origins(log, devices) <==> Matches(ResolverOf(log, devices), o.p, o.j, o.i)
    ensures forall a, b :: 0 <= a < b < |Origins(log, devices)| ==>
      OriginLess(Origins(log, devices)[a], Origins(log, devices)[b])
  {
    var r := ResolverOf(log, devices);
    OriginsFromSound(r, 0, 0, 0);
    OriginsFromSorted(r, 0, 0, 0);
    forall o: Origin | Matches(r, o.p, o.j, o.i)
      ensures o in Origins(log, devices)
    {
      OriginsFromComplete(r, 0, 0, 0, o);
    }
  }

  /** Events come grouped by wearer, wearers in sorted order. */
  lemma EventsSortedByWearer(log: PlacementLog, devices: seq<Device>)
    requires GetPeople(log, devices).Ok?
    ensures forall a, b :: 0 <= a < b < |GetPeople(log, devices).value| ==>
      var evs := GetPeople(log, devices).value;
      evs[a].pw == evs[b].pw || PwLess(evs[a].pw, evs[b].pw)
  {
    var r := ResolverOf(log, devices);
    var os := Origins(log, devices);
    var evs := GetPeople(log, devices).value;
    OriginsExact(log, devices);
    forall a, b | 0 <= a < b < |evs|
      ensures evs[a].pw == evs[b].pw || PwLess(evs[a].pw, evs[b].pw)
    {
      assert EventAt(r, os[a]) == Some(evs[a]) && EventAt(r, os[b]) == Some(evs[b]);
      assert OriginLess(os[a], os[b]);
      assert os[a].p <= os[b].p;
    }
  }

  /** An occupied cell in the row of the final change-point has no stop, and
      the resolver fails rather than dropping it. */
  lemma FinalChangePointFails(log: PlacementLog, devices: seq<Device>, i: nat, j: nat, pw: PersonWrist)
    requires i < |log.rows| && j < |devices| && devices[j] in log.columns
    requires Column(log.columns, log.rows[i].cells, devices[j]) == Occupied(pw)
    requires log.rows[i].stamp.Instant?
    requires forall t :: t in ChangePoints(log) ==> t <= log.rows[i].stamp.t
    ensures GetPeople(log, devices).Err?
  {
    var r := ResolverOf(log, devices);
    var p := WearerIndex(log, i, j, devices[j], pw);
    assert Matches(r, p, j, i);
    OriginsFromComplete(r, 0, 0, 0, Origin(p, j, i));
    LastHasNoSuccessor(log, i);
    EmitFailsWithoutSuccessor(r, 0, 0, 0, Origin(p, j, i));
    assert GetPeople(log, devices) == EmitFrom(r, 0, 0, 0);
  }

  /** A wearer found in a device column is one of the sorted wearers. */
  lemma WearerIndex(log: PlacementLog, i: nat, j: nat, d: Device, pw: PersonWrist) returns (p: nat)
    requires i < |log.rows|
    requires Column(log.columns, log.rows[i].cells, d) == Occupied(pw)
    ensures p < |Wearers(log)| && Wearers(log)[p] == pw
  {
    assert Occupied(pw) in log.rows[i].cells;
    assert Occupied(pw) in Ravel(log.rows);
    p :| 0 <= p < |Wearers(log)| && Wearers(log)[p] == pw;
  }

  /** The row stamped with the greatest change-point has no successor. */
  lemma LastHasNoSuccessor(log: PlacementLog, i: nat)
    requires i < |log.rows| && log.rows[i].stamp.Instant?
    requires forall t :: t in ChangePoints(log) ==> t <= log.rows[i].stamp.t
    ensures log.rows[i].stamp.t !in Successors(ChangePoints(log))
  {
    var times := ChangePoints(log);
    var t := log.rows[i].stamp.t;
    assert Instant(t) in Ravel(log.rows);
    assert t in times;
    SuccessorDefined(times, t);
    var last := times[|times| - 1];
    assert last in times;
    Sorting.LastIsGreatest(times);
  }

  // ---------------------------------------------------------------------
  // get_startstop, buildperson, write_csv
  // ---------------------------------------------------------------------

  function Earliest(s: seq<int>): (m: int)
    requires |s| > 0
    ensures m in s && forall k :: 0 <= k < |s| ==> m <= s[k]
  {
    if |s| == 1 then s[0]
    else
      var rest := Earliest(s[1..]);
      assert forall k :: 1 <= k < |s| ==> s[k] == s[1..][k - 1];
      if s[0] <= rest then s[0] else rest
  }

  function Latest(s: seq<int>): (m: int)
    requires |s| > 0
    ensures m in s && forall k :: 0 <= k < |s| ==> s[k] <= m
  {
    if |s| == 1 then s[0]
    else
      var rest := Latest(s[1..]);
      assert forall k :: 1 <= k < |s| ==> s[k] == s[1..][k - 1];
      if s[0] >= rest then s[0] else rest
  }

  /** The events of one wearer, in order. */
  function EventsOf(events: seq<Event>, pw: PersonWrist): (r: seq<Event>)
    ensures forall e :: e in r <==> e in events && e.pw == pw
  {
    if |events| == 0 then []
    else
      assert events == [events[0]] + events[1..];
      (if events[0].pw == pw then [events[0]] else []) + EventsOf(events[1..], pw)
  }

  function Starts(events: seq<Event>): (r: seq<int>)
    ensures |r| == |events| && forall k :: 0 <= k < |r| ==> r[k] == events[k].start
  {
    if |events| == 0 then [] else [events[0].start] + Starts(events[1..])
  }

  function Stops(events: seq<Event>): (r: seq<int>)
    ensures |r| == |events| && forall k :: 0 <= k < |r| ==> r[k] == events[k].stop
  {
    if |events| == 0 then [] else [events[0].stop] + Stops(events[1..])
  }

  datatype Span = Span(pw: PersonWrist, start: int, stop: int)

  datatype ChartError =
    | NoEvents(pw: PersonWrist)                  // ValueError: min() of an empty list
    | Unpivotable(error: Window.MergeError)      // ValueError: duplicate index entries

  /** `get_startstop`: the earliest start and the latest stop over the
      wearer's events; it fails when the wearer has none. */
  function GetStartStop(events: seq<Event>, pw: PersonWrist): (r: Result<Span, ChartError>)
    ensures r.Ok? <==> exists e :: e in events && e.pw == pw
    ensures r.Ok? ==> r.value.pw == pw
    ensures r.Ok? ==> exists e :: e in events && e.pw == pw && e.start == r.value.start
    ensures r.Ok? ==> exists e :: e in events && e.pw == pw && e.stop == r.value.stop
    ensures r.Ok? ==> forall e :: e in events && e.pw == pw ==> r.value.start <= e.start && e.stop <= r.value.stop
  {
    var mine := EventsOf(events, pw);
    if |mine| == 0 then
      assert forall e :: e in events && e.pw == pw ==> e in mine;
      Err(NoEvents(pw))
    else
      var start := Earliest(Starts(mine));
      var stop := Latest(Stops(mine));
      assert mine[0] in mine;
      assert forall e :: e in mine ==> start <= e.start && e.stop <= stop by {
        forall e | e in mine
          ensures start <= e.start && e.stop <= stop
        {
          var k :| 0 <= k < |mine| && mine[k] == e;
          assert Starts(mine)[k] == e.start && Stops(mine)[k] == e.stop;
        }
      }
      assert exists e :: e in mine && e.start == start by {
        var k :| 0 <= k < |mine| && Starts(mine)[k] == start;
        assert mine[k] in mine;
      }
      assert exists e :: e in mine && e.stop == stop by {
        var k :| 0 <= k < |mine| && Stops(mine)[k] == stop;
        assert mine[k] in mine;
      }
      Ok(Span(pw, start, stop))
  }

  /** Over the events the resolver yields, a wearer's span is a proper
      interval. */
  lemma SpanOfResolvedEvents(log: PlacementLog, devices: seq<Device>, pw: PersonWrist)
    requires GetPeople(log, devices).Ok?
    requires GetStartStop(GetPeople(log, devices).value, pw).Ok?
    ensures GetStartStop(GetPeople(log, devices).value, pw).value.start < GetStartStop(GetPeople(log, devices).value, pw).value.stop
  {
    var evs := GetPeople(log, devices).value;
    var span := GetStartStop(evs, pw).value;
    var e :| e in evs && e.pw == pw && e.start == span.start;
    assert e.stop <= span.stop;
  }

  /** `pd.unique(person_df.device)`: the devices of the wearer's events, each
      once, in first-appearance order. */
  function UniqueDevices(events: seq<Event>, seen: seq<Device>): (r: seq<Device>)
    requires forall a, b :: 0 <= a < b < |seen| ==> seen[a] != seen[b]
    ensures forall a, b :: 0 <= a < b < |r| ==> r[a] != r[b]
    ensures forall d :: d in r <==> d in seen || exists e :: e in events && e.device == d
  {
    if |events| == 0 then seen
    else
      assert events == [events[0]] + events[1..];
      var d := events[0].device;
      UniqueDevices(events[1..], if d in seen then seen else seen + [d])
  }

  type Xyz = (real, real, real)

  /** The in-span rows of every listed device that has a table, tagged with
      the device and concatenated (`pd.concat`). */
  function Pieces(devices: seq<Device>, data: map<Device, seq<Window.Sample<Xyz>>>, start: int, stop: int): (rows: seq<Window.Tagged<Xyz>>)
    ensures forall x :: x in rows <==>
      x.device in devices && x.device in data && x.sample in data[x.device] && Window.InWindow(x.sample.t, start, stop)
  {
    if |devices| == 0 then []
    else
      var d := devices[0];
      var here := if d in data then Window.Tag(d, Window.Filter(data[d], start, stop)) else [];
      assert forall x :: x in here <==> x.device == d && d in data && x.sample in data[d] && Window.InWindow(x.sample.t, start, stop) by {
        if d in data {
          forall x
            ensures x in here <==> x.device == d && x.sample in data[d] && Window.InWindow(x.sample.t, start, stop)
          {
            Window.FilterMembership(data[d], start, stop, x.sample);
            if x.device == d && x.sample in Window.Filter(data[d], start, stop) {
              var k :| 0 <= k < |Window.Filter(data[d], start, stop)| && Window.Filter(data[d], start, stop)[k] == x.sample;
              assert here[k] == x;
            }
          }
        }
      }
      assert devices == [d] + devices[1..];
      here + Pieces(devices[1..], data, start, stop)
  }

  /** The wearer has at least one event on device `d`. */
  predicate Wears(events: seq<Event>, pw: PersonWrist, d: Device)
  {
    exists e :: e in events && e.pw == pw && e.device == d
  }

  /** A device table row `buildperson` keeps: a row of one of the wearer's
      devices, inside the span. */
  predicate Kept(events: seq<Event>, pw: PersonWrist, data: map<Device, seq<Window.Sample<Xyz>>>, span: Span, d: Device, x: Window.Sample<Xyz>)
  {
    Wears(events, pw, d) && d in data && x in data[d] && Window.InWindow(x.t, span.start, span.stop)
  }

  /** The rows `buildperson` concatenates before pivoting. */
  function PersonRows(events: seq<Event>, pw: PersonWrist, data: map<Device, seq<Window.Sample<Xyz>>>, span: Span): (rows: seq<Window.Tagged<Xyz>>)
    ensures forall x :: x in rows <==> Kept(events, pw, data, span, x.device, x.sample)
  {
    var mine := EventsOf(events, pw);
    var devs := UniqueDevices(mine, []);
    assert forall d :: d in devs <==> Wears(events, pw, d) by {
      forall d
        ensures d in devs <==> Wears(events, pw, d)
      {
        if d in devs {
          var e :| e in mine && e.device == d;
          assert e in events && e.pw == pw;
        }
        if Wears(events, pw, d) {
          var e :| e in events && e.pw == pw && e.device == d;
          assert e in mine;
        }
      }
    }
    Pieces(devs, data, span.start, span.stop)
  }

  /** `buildperson`: the wearer's span, then each of the wearer's devices
      that has a table (`data`) cut to the span, both ends included, and
      pivoted by instant. Nothing is produced when no device has a row in the
      span. */
  function BuildPerson(events: seq<Event>, pw: PersonWrist, data: map<Device, seq<Window.Sample<Xyz>>>): (r: Result<Option<Window.Wide<Xyz>>, ChartError>)
    ensures r.Ok? <==> GetStartStop(events, pw).Ok? && Window.Pivot(PersonRows(events, pw, data, GetStartStop(events, pw).value)).Ok?
    ensures r.Ok? && r.value.Some? ==>
      forall t, d :: t in r.value.value && d in r.value.value[t] ==>
        Kept(events, pw, data, GetStartStop(events, pw).value, d, Window.Sample(t, r.value.value[t][d]))
    ensures r.Ok? && r.value.Some? ==>
      forall d, x :: Kept(events, pw, data, GetStartStop(events, pw).value, d, x) ==>
        x.t in r.value.value && d in r.value.value[x.t] && r.value.value[x.t][d] == x.v
    ensures r.Ok? ==>
      (r.value.None? <==> forall d, x :: !Kept(events, pw, data, GetStartStop(events, pw).value, d, x))
  {
    var span :- GetStartStop(events, pw);
    var rows := PersonRows(events, pw, data, span);
    if |rows| == 0 then
      assert forall d, x :: Kept(events, pw, data, span, d, x) ==> Window.Tagged(d, x) in rows;
      Ok(None)
    else
      var table := Window.Pivot(rows);
      if table.Err? then Err(Unpivotable(table.error))
      else
        PivotedRows(rows, table.value);
        assert forall d, x :: Kept(events, pw, data, span, d, x) ==> Window.Tagged(d, x) in rows;
        assert rows[0] in rows;
        assert Kept(events, pw, data, span, rows[0].device, rows[0].sample);
        Ok(Some(table.value))
  }

  lemma PivotedRows(rows: seq<Window.Tagged<Xyz>>, m: Window.Wide<Xyz>)
    requires Window.Pivot(rows) == Ok(m)
    ensures forall t, d :: t in m && d in m[t] ==> Window.Tagged(d, Window.Sample(t, m[t][d])) in rows
    ensures forall d, x :: Window.Tagged(d, x) in rows ==> x.t in m && d in m[x.t] && m[x.t][d] == x.v
  {
    Window.PivotSound(rows);
    Window.PivotCells(rows);
    forall d, x | Window.Tagged(d, x) in rows
      ensures x.t in m && d in m[x.t] && m[x.t][d] == x.v
    {
      var k :| 0 <= k < |rows| && rows[k] == Window.Tagged(d, x);
    }
  }

  /** `write_csv`'s file name: `person_wrist_device.csv`, or `person_wrist.csv`
      when no device (None or the empty string) is given. */
  function CsvName(pw: PersonWrist, device: Option<string>): (name: string)
    ensures Text.EndsWith(name, ".csv")
    ensures Text.StartsWith(name, pw.person + "_" + pw.wrist)
    ensures device.Some? && device.value != "" ==> name == pw.person + "_" + pw.wrist + "_" + device.value + ".csv"
    ensures device.None? || device.value == "" ==> name == pw.person + "_" + pw.wrist + ".csv"
  {
    if device.Some? && device.value != "" then
      var file := Text.Join([device.value, "csv"], '.');
      Text.JoinPair(device.value, "csv", '.');
      Text.JoinTriple(pw.person, pw.wrist, file, '_');
      assert file == device.value + ".csv";
      var name := Text.Join([pw.person, pw.wrist, file], '_');
      assert name == (pw.person + "_" + pw.wrist) + ("_" + device.value + ".csv");
      name
    else
      var file := Text.Join([pw.wrist, "csv"], '.');
      Text.JoinPair(pw.wrist, "csv", '.');
      Text.JoinPair(pw.person, file, '_');
      assert file == pw.wrist + ".csv";
      var name := Text.Join([pw.person, file], '_');
      assert name == (pw.person + "_" + pw.wrist) + ".csv";
      name
  }

  /** For one wearer, different devices get different files, and no device
      file coincides with the wearer's merged file. */
  lemma CsvNamesDistinct(pw: PersonWrist, d1: string, d2: string)
    requires d1 != "" && d2 != ""
    ensures CsvName(pw, Some(d1)) == CsvName(pw, Some(d2)) ==> d1 == d2
    ensures CsvName(pw, Some(d1)) != CsvName(pw, None)
  {
    var base := pw.person + "_" + pw.wrist;
    if CsvName(pw, Some(d1)) == CsvName(pw, Some(d2)) {
      var n1 := base + "_" + d1 + ".csv";
      var n2 := base + "_" + d2 + ".csv";
      assert |d1| == |d2|;
      assert d1 == n1[|base| + 1..|n1| - 4];
      assert d2 == n2[|base| + 1..|n2| - 4];
    }
    var n1 := base + "_" + d1 + ".csv";
    assert |n1| > |base + ".csv"|;
  }
}

=== FILE: color_cycle.dfy ===
/** `config/CMI_colors/color_cycle.py`: the colour list `CMI_color_palette`
    builds by taking colours round-robin from the Primary, Secondary and
    Tertiary palettes of the loaded palette map, which the call consumes. */
module ColorCycle {
  import opened Wrappers

  type Color = string

  /** The palette map: palette name -> colours. */
  type PaletteMap = map<string, seq<Color>>

  const Primary: string := "Primary"
  const Secondary: string := "Secondary"
  const Tertiary: string := "Tertiary"

  /** A palette the map lacks fails at `reverse` (`KeyError`); an empty one
      fails at `pop` (`IndexError`); with any further key the map never
      empties and the `while` loop never ends. */
  datatype PaletteError = MissingPalette(name: string) | EmptyPalette(name: string) | NeverEnds

  function First<T>(s: seq<T>): (r: seq<T>)
    ensures |r| == if |s| > 0 then 1 else 0
  {
    if |s| > 0 then [s[0]] else []
  }

  function Rest<T>(s: seq<T>): (r: seq<T>)
    ensures |r| == if |s| > 0 then |s| - 1 else 0
  {
    if |s| > 0 then s[1..] else []
  }

  /** Reference: one colour from each palette that still has one, in the
      order Primary, Secondary, Tertiary, round after round. */
  function RoundRobin<T>(a: seq<T>, b: seq<T>, c: seq<T>): seq<T>
    decreases |a| + |b| + |c|
  {
    if |a| + |b| + |c| == 0 then []
    else First(a) + First(b) + First(c) + RoundRobin(Rest(a), Rest(b), Rest(c))
  }

  /** `list.reverse()`. */
  function Reverse<T>(s: seq<T>): (r: seq<T>)
    ensures |r| == |s|
  {
    seq(|s|, i requires 0 <= i < |s| => s[|s| - 1 - i])
  }

  lemma ReverseReverse<T>(s: seq<T>)
    ensures Reverse(Reverse(s)) == s
  {
  }

  /** Popping the last colour of a reversed palette takes its first colour
      and leaves the rest, still reversed. */
  lemma PopReversed<T>(s: seq<T>)
    requires |s| > 0
    ensures s[|s| - 1] == Reverse(s)[0]
    ensures Reverse(s[..|s| - 1]) == Rest(Reverse(s))
  {
  }

  /** The colours palette `name` still has to give, in order: the map holds
      them reversed. */
  function Remaining(m: PaletteMap, name: string): seq<Color>
  {
    if name in m then Reverse(m[name]) else []
  }

  /** The three palettes, all present and non-empty, and nothing else. */
  predicate WellFormed(key: PaletteMap)
  {
    key.Keys == {Primary, Secondary, Tertiary} &&
    |key[Primary]| > 0 && |key[Secondary]| > 0 && |key[Tertiary]| > 0
  }

  /** The loop state: only the three palettes, none of them empty. */
  predicate Live(m: PaletteMap)
  {
    m.Keys <= {Primary, Secondary, Tertiary} && forall n :: n in m ==> |m[n]| > 0
  }

  /** One step of the inner loop: if palette `name` is still in the map, its
      last colour is appended and the palette is deleted once empty. */
  method Take(m: PaletteMap, name: string, out: seq<Color>) returns (m': PaletteMap, out': seq<Color>)
    requires Live(m)
    ensures Live(m')
    ensures out' == out + First(Remaining(m, name))
    ensures Remaining(m', name) == Rest(Remaining(m, name))
    ensures forall n :: n != name ==> Remaining(m', n) == Remaining(m, n)
    ensures m'.Keys <= m.Keys
  {
    if name in m {
      var colors := m[name];
      PopReversed(colors);
      out' := out + [colors[|colors| - 1]];
      var rest := colors[..|colors| - 1];
      if |rest| == 0 {
        m' := m - {name};
      } else {
        m' := m[name := rest];
      }
    } else {
      m', out' := m, out;
    }
  }

  /** The `while` loop of `CMI_color_palette` on a well-formed map: the
      interleaved colours, and the emptied map. */
  method Interleave(key: PaletteMap) returns (out: seq<Color>, m: PaletteMap)
    requires WellFormed(key)
    ensures out == RoundRobin(key[Primary], key[Secondary], key[Tertiary])
    ensures m == map[]
  {
    m := map[Primary := Reverse(key[Primary]), Secondary := Reverse(key[Secondary]),
             Tertiary := Reverse(key[Tertiary])];
    Reversed(key, m);
    out := [];
    while |m| > 0
      invariant Live(m)
      invariant out + RoundRobin(Remaining(m, Primary), Remaining(m, Secondary), Remaining(m, Tertiary))
        == RoundRobin(key[Primary], key[Secondary], key[Tertiary])
      decreases |Remaining(m, Primary)| + |Remaining(m, Secondary)| + |Remaining(m, Tertiary)|
    {
      ghost var a, b, c := Remaining(m, Primary), Remaining(m, Secondary), Remaining(m, Tertiary);
      LiveNonEmpty(m);
      RoundStep(out, a, b, c);
      m, out := Round(m, out);
    }
    LiveEmpty(m);
  }

  /** One pass of the `for` loop over the three palettes: each palette that
      still has a colour gives its next one. */
  method Round(m: PaletteMap, out: seq<Color>) returns (m': PaletteMap, out': seq<Color>)
    requires Live(m)
    ensures Live(m')
    ensures out' == out + First(Remaining(m, Primary)) + First(Remaining(m, Secondary)) + First(Remaining(m, Tertiary))
    ensures Remaining(m', Primary) == Rest(Remaining(m, Primary))
    ensures Remaining(m', Secondary) == Rest(Remaining(m, Secondary))
    ensures Remaining(m', Tertiary) == Rest(Remaining(m, Tertiary))
  {
    var m1, out1 := Take(m, Primary, out);
    var m2, out2 := Take(m1, Secondary, out1);
    m', out' := Take(m2, Tertiary, out2);
  }

  /** `CMI_color_palette()`: the colour list and the palette map the call
      leaves behind. */
  method Palette(key: PaletteMap) returns (r: Result<(seq<Color>, PaletteMap), PaletteError>)
    ensures r.Ok? <==> WellFormed(key)
    ensures r.Ok? ==> r.value.0 == RoundRobin(key[Primary], key[Secondary], key[Tertiary])
    ensures r.Ok? ==> r.value.1 == map[]
    ensures Primary !in key ==> r == Err(MissingPalette(Primary))
    ensures Primary in key && Secondary !in key ==> r == Err(MissingPalette(Secondary))
    ensures Primary in key && Secondary in key && Tertiary !in key ==> r == Err(MissingPalette(Tertiary))
    ensures (Primary in key && Secondary in key && Tertiary in key && |key[Primary]| == 0) ==>
      r == Err(EmptyPalette(Primary))
    ensures (Primary in key && Secondary in key && Tertiary in key && |key[Primary]| > 0 &&
             |key[Secondary]| == 0) ==>
      r == Err(EmptyPalette(Secondary))
    ensures (Primary in key && Secondary in key && Tertiary in key && |key[Primary]| > 0 &&
             |key[Secondary]| > 0 && |key[Tertiary]| == 0) ==>
      r == Err(EmptyPalette(Tertiary))
    ensures r == Err(NeverEnds) <==>
      Primary in key && Secondary in key && Tertiary in key &&
      |key[Primary]| > 0 && |key[Secondary]| > 0 && |key[Tertiary]| > 0 &&
      key.Keys != {Primary, Secondary, Tertiary}
  {
    if Primary !in key { return Err(MissingPalette(Primary)); }
    if Secondary !in key { return Err(MissingPalette(Secondary)); }
    if Tertiary !in key { return Err(MissingPalette(Tertiary)); }
    if |key[Primary]| == 0 { return Err(EmptyPalette(Primary)); }
    if |key[Secondary]| == 0 { return Err(EmptyPalette(Secondary)); }
    if |key[Tertiary]| == 0 { return Err(EmptyPalette(Tertiary)); }
    if key.Keys != {Primary, Secondary, Tertiary} { return Err(NeverEnds); }
    var out, m := Interleave(key);
    return Ok((out, m));
  }

  /** The map after `reverse` holds the palettes reversed. */
  lemma Reversed(key: PaletteMap, m: PaletteMap)
    requires WellFormed(key)
    requires m == map[Primary := Reverse(key[Primary]), Secondary := Reverse(key[Secondary]),
                      Tertiary := Reverse(key[Tertiary])]
    ensures Live(m)
    ensures Remaining(m, Primary) == key[Primary]
    ensures Remaining(m, Secondary) == key[Secondary]
    ensures Remaining(m, Tertiary) == key[Tertiary]
  {
    ReverseReverse(key[Primary]);
    ReverseReverse(key[Secondary]);
    ReverseReverse(key[Tertiary]);
  }

  /** One round of the interleaving. */
  lemma RoundStep<T>(out: seq<T>, a: seq<T>, b: seq<T>, c: seq<T>)
    requires |a| + |b| + |c| > 0
    ensures out + RoundRobin(a, b, c) == out + First(a) + First(b) + First(c) + RoundRobin(Rest(a), Rest(b), Rest(c))
  {
  }

  /** A live map with a palette left has colours left. */
  lemma LiveNonEmpty(m: PaletteMap)
    requires Live(m) && |m| > 0
    ensures |Remaining(m, Primary)| + |Remaining(m, Secondary)| + |Remaining(m, Tertiary)| > 0
  {
    var n :| n in m;
    assert n == Primary || n == Secondary || n == Tertiary;
  }

  lemma LiveEmpty(m: PaletteMap)
    requires Live(m) && |m| == 0
    ensures m == map[] && Remaining(m, Primary) == [] && Remaining(m, Secondary) == [] && Remaining(m, Tertiary) == []
  {
  }

  /** The list holds every colour once per occurrence: its length is the sum
      of the palette lengths and it is a permutation of their union. */
  lemma {:induction false} RoundRobinPermutation<T>(a: seq<T>, b: seq<T>, c: seq<T>)
    ensures |RoundRobin(a, b, c)| == |a| + |b| + |c|
    ensures multiset(RoundRobin(a, b, c)) == multiset(a) + multiset(b) + multiset(c)
  {
    if |a| + |b| + |c| > 0 {
      RoundRobinPermutation(Rest(a), Rest(b), Rest(c));
      SplitFirst(a);
      SplitFirst(b);
      SplitFirst(c);
    }
  }

  lemma SplitFirst<T>(s: seq<T>)
    ensures s == First(s) + Rest(s)
  {
  }

  /** A colour marked with the palette it came from. */
  datatype Marked<T> = Marked(palette: nat, color: T)

  function Mark<T>(p: nat, s: seq<T>): (r: seq<Marked<T>>)
    ensures |r| == |s|
  {
    seq(|s|, i requires 0 <= i < |s| => Marked(p, s[i]))
  }

  /** The marked colours of palette `p`, in order. */
  function Of<T>(p: nat, s: seq<Marked<T>>): seq<Marked<T>>
  {
    if |s| == 0 then [] else (if s[0].palette == p then [s[0]] else []) + Of(p, s[1..])
  }

  lemma {:induction false} OfConcat<T>(p: nat, s: seq<Marked<T>>, t: seq<Marked<T>>)
    ensures Of(p, s + t) == Of(p, s) + Of(p, t)
  {
    if |s| > 0 {
      assert (s + t)[1..] == s[1..] + t;
      OfConcat(p, s[1..], t);
    } else {
      assert s + t == t;
    }
  }

  lemma MarkSplit<T>(p: nat, s: seq<T>)
    ensures First(Mark(p, s)) == Mark(p, First(s))
    ensures Rest(Mark(p, s)) == Mark(p, Rest(s))
  {
  }

  lemma OfMarked<T>(p: nat, q: nat, s: seq<T>)
    requires |s| <= 1
    ensures Of(p, Mark(q, s)) == if p == q then Mark(q, s) else []
  {
    if |s| == 1 {
      assert Mark(q, s)[1..] == [];
    }
  }

  /** The sequence of palette `p` among three. */
  function Pick<T>(p: nat, x: T, y: T, z: T): T
  {
    if p == 0 then x else if p == 1 then y else z
  }

  lemma {:induction false} OfRoundRobin<T>(p: nat, a: seq<T>, b: seq<T>, c: seq<T>)
    requires p <= 2
    ensures Of(p, RoundRobin(Mark(0, a), Mark(1, b), Mark(2, c))) == Pick(p, Mark(0, a), Mark(1, b), Mark(2, c))
    decreases |a| + |b| + |c|
  {
    var ma, mb, mc := Mark(0, a), Mark(1, b), Mark(2, c);
    if |a| + |b| + |c| > 0 {
      MarkSplit(0, a);
      MarkSplit(1, b);
      MarkSplit(2, c);
      OfRoundRobin(p, Rest(a), Rest(b), Rest(c));
      var tail := RoundRobin(Rest(ma), Rest(mb), Rest(mc));
      assert RoundRobin(ma, mb, mc) == First(ma) + First(mb) + First(mc) + tail;
      OfConcat(p, First(ma) + First(mb) + First(mc), tail);
      OfConcat(p, First(ma) + First(mb), First(mc));
      OfConcat(p, First(ma), First(mb));
      OfMarked(p, 0, First(a));
      OfMarked(p, 1, First(b));
      OfMarked(p, 2, First(c));
      SplitFirst(Pick(p, ma, mb, mc));
    }
  }

  /** Each palette's colours come out in their original order: taking the
      colours of one palette from the interleaving gives back that palette. */
  lemma RoundRobinKeepsOrder<T>(a: seq<T>, b: seq<T>, c: seq<T>)
    ensures Of(0, RoundRobin(Mark(0, a), Mark(1, b), Mark(2, c))) == Mark(0, a)
    ensures Of(1, RoundRobin(Mark(0, a), Mark(1, b), Mark(2, c))) == Mark(1, b)
    ensures Of(2, RoundRobin(Mark(0, a), Mark(1, b), Mark(2, c))) == Mark(2, c)
  {
    OfRoundRobin(0, a, b, c);
    OfRoundRobin(1, a, b, c);
    OfRoundRobin(2, a, b, c);
  }

  /** The colours of marked colours, marks dropped. */
  function Unmark<T>(s: seq<Marked<T>>): (r: seq<T>)
    ensures |r| == |s|
  {
    seq(|s|, i requires 0 <= i < |s| => s[i].color)
  }

  lemma UnmarkConcat<T>(s: seq<Marked<T>>, t: seq<Marked<T>>)
    ensures Unmark(s + t) == Unmark(s) + Unmark(t)
  {
  }

  lemma UnmarkMark<T>(p: nat, s: seq<T>)
    ensures Unmark(Mark(p, s)) == s
  {
  }

  /** Unmarking the interleaved colours gives the interleaving itself, so the
      order statement above is about the colour list. */
  lemma {:induction false} RoundRobinMarked<T>(a: seq<T>, b: seq<T>, c: seq<T>)
    ensures Unmark(RoundRobin(Mark(0, a), Mark(1, b), Mark(2, c))) == RoundRobin(a, b, c)
    decreases |a| + |b| + |c|
  {
    var ma, mb, mc := Mark(0, a), Mark(1, b), Mark(2, c);
    if |a| + |b| + |c| > 0 {
      MarkSplit(0, a);
      MarkSplit(1, b);
      MarkSplit(2, c);
      RoundRobinMarked(Rest(a), Rest(b), Rest(c));
      var tail := RoundRobin(Rest(ma), Rest(mb), Rest(mc));
      assert RoundRobin(ma, mb, mc) == First(ma) + First(mb) + First(mc) + tail;
      UnmarkConcat(First(ma) + First(mb) + First(mc), tail);
      UnmarkConcat(First(ma) + First(mb), First(mc));
      UnmarkConcat(First(ma), First(mb));
      UnmarkMark(0, First(a));
      UnmarkMark(1, First(b));
      UnmarkMark(2, First(c));
    }
  }

  /** The call consumes the palette map: calling it again fails at the
      first `reverse`. */
  method PaletteTwice(key: PaletteMap) returns (first: Result<(seq<Color>, PaletteMap), PaletteError>,
                                                 second: Result<(seq<Color>, PaletteMap), PaletteError>)
    requires WellFormed(key)
    ensures first.Ok? && second == Err(MissingPalette(Primary))
  {
    first := Palette(key);
    second := Palette(first.value.1);
  }
}

=== FILE: config.dfy ===
/** `config/config.py`: the table of raw-data download URLs by sensor and
    device, the selection `raw_urls` makes from it, and `sensorlist`. */
module Config {

  type Sensor = string
  type Device = string
  type Url = string

  /** Sensor -> device -> URL. */
  type UrlTable = map<Sensor, map<Device, Url>>

  /** `rawurls`: every sensor's downloads by device. */
  const RawUrlTable: UrlTable := map[
    "accelerometer" := map[
      "ActiGraph wGT3X-BT" := "https://osf.io/rjhv6/?action=download&version=3",
      "Empatica E4" := "https://osf.io/kc2xz/?action=download&version=5",
      "Wavelet Wristband" := "https://osf.io/8zpkn/?action=download&version=2",
      "GENEActiv Original (black)" := "https://osf.io/df7zq/?action=download&version=2",
      "GENEActiv Original (pink)" := "https://osf.io/yjc7s/?action=download&version=2"],
    "photoplethysmograph" := map[
      "Empatica E4" := "https://osf.io/v3ad6/?action=download&version=3",
      "Wavelet Wristband" := "https://osf.io/c5b9z/?action=download&version=1"],
    "electrodermal activity" := map[
      "Empatica E4" := "https://osf.io/53vwz/?action=download&version=2"],
    "gyroscopy" := map[],
    "electrocardiography" := map[
      "ActiGraph wGT3X-BT" := "https://osf.io/cde76/?action=download&version=1",
      "Empatica E4" := "https://osf.io/be2p8/?action=download&version=2"],
    "light" := map[
      "ActiGraph wGT3X-BT" := "https://osf.io/b2xtm/?action=download&version=1",
      "GENEActiv Original (black)" := "https://osf.io/c5by9/?action=download&version=1",
      "GENEActiv Original (pink)" := "https://osf.io/b75g8/?action=download&version=1"],
    "temperature" := map[
      "Empatica E4" := "https://osf.io/38pyj/?action=download&version=3",
      "GENEActiv Original (black)" := "https://osf.io/hync2/?action=download&version=1",
      "GENEActiv Original (pink)" := "https://osf.io/vhd8w/?action=download&version=1"],
    "raw_accelerometer" := map[
      "ActiGraph wGT3X-BT" := "https://osf.io/va9kc/?action=download&version=1",
      "GENEActiv Original (black)" := "https://osf.io/y5cz7/?action=download&version=1",
      "GENEActiv Original (pink)" := "https://osf.io/q4bwx/?action=download&version=1"],
    "accelerometer quicktest" := map[
      "ActiGraph wGT3X-BT" := "https://osf.io/h3aem/?action=download&version=1",
      "GENEActiv Original (black)" := "https://osf.io/j5rcu/?action=download&version=1",
      "GENEActiv Original (pink)" := "https://osf.io/yxgzt/?action=download&version=1"]
  ]

  /** The Python values `raw_urls` can be called with: `None`, a string, a
      list (of anything), or a scalar that cannot be iterated. */
  datatype Arg = NoneArg | Str(text: string) | List(items: seq<Arg>) | Number(n: int)

  /** Python truthiness: `None`, `""`, `[]` and `0` are false. */
  predicate Truthy(a: Arg)
  {
    match a
    case NoneArg => false
    case Str(t) => |t| > 0
    case List(items) => |items| > 0
    case Number(n) => n != 0
  }

  /** Entries of the result are entries of the table. */
  predicate Drawn(r: UrlTable)
  {
    forall k :: k in r ==> k in RawUrlTable && r[k] == RawUrlTable[k]
  }

  /** `raw_urls(sensors)`: the whole table for a false argument; for a
      string, the one-entry table of that sensor, or nothing when the sensor
      is unknown; for a list, the union of the results for its elements.
      Iterating a scalar raises a `TypeError` that the handler reports, and
      the result is empty. */
  function RawUrls(a: Arg): (r: UrlTable)
    decreases a, 1
    ensures Drawn(r)
    ensures !Truthy(a) ==> r == RawUrlTable
    ensures a.Str? && Truthy(a) ==> forall k :: k in r <==> k == a.text && k in RawUrlTable
    ensures a.Number? && Truthy(a) ==> r == map[]
  {
    if !Truthy(a) then RawUrlTable
    else
      match a
      case Str(t) => if t in RawUrlTable then map[t := RawUrlTable[t]] else map[]
      case List(items) => RawUrlsOf(a, |items|)
      case _ => map[]
  }

  /** `{**urls, **raw_urls(sensor)}` over the first `n` elements of a list. */
  function RawUrlsOf(a: Arg, n: nat): (r: UrlTable)
    requires a.List? && n <= |a.items|
    decreases a, 0, n
    ensures Drawn(r)
  {
    if n == 0 then map[] else RawUrlsOf(a, n - 1) + RawUrls(a.items[n - 1])
  }

  function Strs(names: seq<string>): (r: seq<Arg>)
    ensures |r| == |names| && forall k :: 0 <= k < |r| ==> r[k] == Str(names[k])
  {
    seq(|names|, k requires 0 <= k < |names| => Str(names[k]))
  }

  /** Sensor `k` is chosen by the names: it is in the table, and it is named
      or the empty name (which selects everything) is. */
  predicate Chosen(names: seq<string>, k: Sensor)
  {
    k in RawUrlTable && (k in names || "" in names)
  }

  /** The sensors a prefix of a name list chooses. */
  lemma {:induction false} RawUrlsOfNames(names: seq<string>, n: nat)
    requires n <= |names|
    ensures forall k :: k in RawUrlsOf(List(Strs(names)), n) <==> Chosen(names[..n], k)
  {
    var a := List(Strs(names));
    if n > 0 {
      RawUrlsOfNames(names, n - 1);
      assert names[..n] == names[..n - 1] + [names[n - 1]];
      assert a.items[n - 1] == Str(names[n - 1]);
    }
  }

  /** For a list of names, the result holds exactly the chosen sensors, each
      with its table entry; an empty list selects the whole table. */
  lemma RawUrlsNames(names: seq<string>)
    ensures |names| == 0 ==> RawUrls(List(Strs(names))) == RawUrlTable
    ensures |names| > 0 ==> forall k :: k in RawUrls(List(Strs(names))) <==> Chosen(names, k)
    ensures forall k :: k in RawUrls(List(Strs(names))) ==> RawUrls(List(Strs(names)))[k] == RawUrlTable[k]
  {
    if |names| > 0 {
      RawUrlsOfNames(names, |names|);
      assert names[..|names|] == names;
    }
  }

  /** Order and repetition in the list do not matter. */
  lemma RawUrlsSameNames(a: seq<string>, b: seq<string>)
    requires |a| > 0 && |b| > 0
    requires forall x :: x in a <==> x in b
    ensures RawUrls(List(Strs(a))) == RawUrls(List(Strs(b)))
  {
    RawUrlsNames(a);
    RawUrlsNames(b);
    assert "" in a <==> "" in b;
    assert forall k :: Chosen(a, k) <==> Chosen(b, k);
    SameEntries(RawUrls(List(Strs(a))), RawUrls(List(Strs(b))), RawUrlTable);
  }

  /** Two maps with the same keys that agree with a third map on them are
      equal. */
  lemma SameEntries(x: UrlTable, y: UrlTable, t: UrlTable)
    requires forall k :: k in x <==> k in y
    requires forall k :: k in x ==> k in t && x[k] == t[k]
    requires forall k :: k in y ==> k in t && y[k] == t[k]
    ensures x == y
  {
    assert x.Keys == y.Keys;
  }

  /** A single known name selects its own entry, an unknown name nothing,
      and the empty name everything. */
  lemma RawUrlsName(t: string)
    ensures t == "" ==> RawUrls(Str(t)) == RawUrlTable
    ensures t != "" && t in RawUrlTable ==> RawUrls(Str(t)).Keys == {t}
    ensures t != "" && t !in RawUrlTable ==> RawUrls(Str(t)) == map[]
    ensures RawUrls(Str(t)) == RawUrls(List([Str(t)]))
  {
    var a := List([Str(t)]);
    assert RawUrlsOf(a, 1) == RawUrlsOf(a, 0) + RawUrls(Str(t));
  }

  /** `sensorlist()`: every sensor of the table except the raw and
      quick-test accelerometer downloads, each once. */
  function Sensorlist(): (r: seq<Sensor>)
    ensures |r| == 7
    ensures forall k :: k in r ==> k in RawUrlTable
    ensures forall k :: k in RawUrlTable ==>
      (k in r <==> k != "raw_accelerometer" && k != "accelerometer quicktest")
    ensures forall i, j :: 0 <= i < j < |r| ==> r[i] != r[j]
  {
    ["accelerometer", "photoplethysmograph", "electrodermal activity",
     "gyroscopy", "electrocardiography", "light", "temperature"]
  }
}

=== FILE: normalize_acc_data.dfy ===
/** Accelerometer normalization of `normalize_acc_data.py`: every reading
    gets the length of (x, y, z) measured against the diagonal of the cube
    whose half-side is the device's full scale, so a reading at full scale on
    all three axes has length 1.

    The source takes a square root; the model keeps the squared length
    (x² + y² + z²) / (3·scale²), which is 0, 1 and at most 1 exactly where the
    length is, and is compared, scaled and permuted the same way. */
module NormalizeAcc {
  import opened Wrappers
  import Text

  /** A reading: instant, the three axes, and `normalized_vector_length`
      (stored squared) once it has been computed. */
  datatype AccRow = AccRow(t: int, x: real, y: real, z: real, lengthSq: Option<real>)

  /** The identity. Squares are written `a * Same(a)` so that the solver
      keeps them as products rather than rewriting them into powers it then
      cannot relate to other terms. */
  function Same(a: real): real
  {
    a
  }

  /** `a²`, never negative and zero only at zero. */
  function Sq(a: real): (r: real)
    ensures r >= 0.0
    ensures a != 0.0 ==> r > 0.0
  {
    a * Same(a)
  }

  lemma SqNeg(a: real)
    ensures Sq(-a) == Sq(a)
  {
  }

  lemma SqProduct(a: real, b: real)
    ensures Sq(a * b) == Sq(a) * Sq(b)
  {
  }

  lemma MulMono(a: real, b: real, c: real, d: real)
    requires 0.0 <= a <= c && 0.0 <= b <= d
    ensures a * b <= c * d
  {
    assert a * b <= c * b;
    assert c * b <= c * d;
  }

  /** `unit²`: three times the squared scale. */
  function Unit(scale: real): (u: real)
    requires scale != 0.0
    ensures u > 0.0
  {
    3.0 * Sq(scale)
  }

  /** `(x/unit)² + (y/unit)² + (z/unit)²`, the squared normalized length. */
  function LengthSq(x: real, y: real, z: real, scale: real): (l: real)
    requires scale != 0.0
    ensures l >= 0.0
    ensures l * Unit(scale) == Sq(x) + Sq(y) + Sq(z)
  {
    (Sq(x) + Sq(y) + Sq(z)) / Unit(scale)
  }

  /** Division by a positive factor, stated as multiplication. */
  lemma Cancel(a: real, b: real, d: real)
    requires d > 0.0 && a * d == b * d
    ensures a == b
  {
    assert a == (a * d) / d;
    assert b == (b * d) / d;
  }

  lemma CancelLe(a: real, b: real, d: real)
    requires d > 0.0 && a * d <= b * d
    ensures a <= b
  {
    assert (b - a) * d >= 0.0;
    assert b - a == ((b - a) * d) / d;
  }

  /** `normalize(df, scale)`: adds the normalized length to every row and
      leaves the instant and the axes as they were. */
  function Normalize(rows: seq<AccRow>, scale: real): (r: seq<AccRow>)
    requires scale != 0.0
    ensures |r| == |rows|
    ensures forall i :: 0 <= i < |r| ==>
      r[i].t == rows[i].t && r[i].x == rows[i].x && r[i].y == rows[i].y && r[i].z == rows[i].z
    ensures forall i :: 0 <= i < |r| ==>
      r[i].lengthSq == Some(LengthSq(rows[i].x, rows[i].y, rows[i].z, scale))
    ensures forall i :: 0 <= i < |r| ==> r[i].lengthSq.Some? && r[i].lengthSq.value >= 0.0
  {
    seq(|rows|, i requires 0 <= i < |rows| =>
      rows[i].(lengthSq := Some(LengthSq(rows[i].x, rows[i].y, rows[i].z, scale))))
  }

  /** Normalizing a normalized table changes nothing. */
  lemma NormalizeIdempotent(rows: seq<AccRow>, scale: real)
    requires scale != 0.0
    ensures Normalize(Normalize(rows, scale), scale) == Normalize(rows, scale)
  {
  }

  /** A reading at full scale on every axis has length 1; the zero reading
      has length 0. */
  lemma CornerAndOrigin(scale: real)
    requires scale != 0.0
    ensures LengthSq(scale, scale, scale, scale) == 1.0
    ensures LengthSq(0.0, 0.0, 0.0, scale) == 0.0
  {
    Cancel(LengthSq(scale, scale, scale, scale), 1.0, Unit(scale));
    Cancel(LengthSq(0.0, 0.0, 0.0, scale), 0.0, Unit(scale));
  }

  /** A value no further from zero than `s` has a square no larger than `s²`. */
  lemma SquareBound(a: real, s: real)
    requires -s <= a <= s
    ensures Sq(a) <= Sq(s)
  {
    if a >= 0.0 {
      MulMono(a, Same(a), s, Same(s));
    } else {
      SqNeg(a);
      MulMono(-a, Same(-a), s, Same(s));
    }
  }

  /** Readings inside the cube of half-side |scale| (the largest absolute
      value the scale admits) have length at most 1. */
  lemma InsideCube(x: real, y: real, z: real, scale: real)
    requires scale != 0.0
    requires WithinScale(x, scale) && WithinScale(y, scale) && WithinScale(z, scale)
    ensures LengthSq(x, y, z, scale) <= 1.0
  {
    var s := if scale < 0.0 then -scale else scale;
    SqNeg(scale);
    assert Sq(s) == Sq(scale);
    SquareBound(x, s);
    SquareBound(y, s);
    SquareBound(z, s);
    var l, u := LengthSq(x, y, z, scale), Unit(scale);
    assert l * u == Sq(x) + Sq(y) + Sq(z);
    assert u == 3.0 * Sq(scale);
    BelowUnit(l, u, Sq(x), Sq(y), Sq(z), Sq(scale));
  }

  /** `a` lies between 0 and the scale, whichever its sign. */
  predicate WithinScale(a: real, scale: real)
  {
    -scale <= a <= scale || scale <= a <= -scale
  }

  /** The normalized table: a row at full scale on every axis gets length 1,
      the zero reading length 0, and every reading inside the cube of the
      scale a length of at most 1. */
  lemma NormalizedLengths(rows: seq<AccRow>, scale: real)
    requires scale != 0.0
    ensures forall i :: 0 <= i < |rows| && rows[i].x == rows[i].y == rows[i].z == scale ==>
      Normalize(rows, scale)[i].lengthSq == Some(1.0)
    ensures forall i :: 0 <= i < |rows| && rows[i].x == rows[i].y == rows[i].z == 0.0 ==>
      Normalize(rows, scale)[i].lengthSq == Some(0.0)
    ensures forall i :: (0 <= i < |rows| &&
        WithinScale(rows[i].x, scale) && WithinScale(rows[i].y, scale) && WithinScale(rows[i].z, scale)) ==>
      Normalize(rows, scale)[i].lengthSq.value <= 1.0
  {
    var r := Normalize(rows, scale);
    CornerAndOrigin(scale);
    forall i | 0 <= i < |rows| &&
      WithinScale(rows[i].x, scale) && WithinScale(rows[i].y, scale) && WithinScale(rows[i].z, scale)
      ensures r[i].lengthSq.value <= 1.0
    {
      InsideCube(rows[i].x, rows[i].y, rows[i].z, scale);
    }
  }

  /** A quotient of three terms, each at most `m`, by `3m` is at most 1. */
  lemma BelowUnit(l: real, u: real, a: real, b: real, c: real, m: real)
    requires u > 0.0 && u == 3.0 * m && l * u == a + b + c
    requires a <= m && b <= m && c <= m
    ensures l <= 1.0
  {
    CancelLe(l, 1.0, u);
  }

  lemma QuotientScaled(n: real, u: real, q: real)
    requires u > 0.0 && q > 0.0
    ensures (q * n) / (q * u) == n / u
  {
  }

  /** Scaling a reading and its scale by the same non-zero factor leaves the
      length unchanged. */
  lemma ScaleInvariant(x: real, y: real, z: real, scale: real, k: real)
    requires scale != 0.0 && k != 0.0
    ensures LengthSq(k * x, k * y, k * z, k * scale) == LengthSq(x, y, z, scale)
  {
    var n := Sq(x) + Sq(y) + Sq(z);
    var q := Sq(k);
    SqProduct(k, x);
    SqProduct(k, y);
    SqProduct(k, z);
    SqProduct(k, scale);
    assert Sq(k * x) + Sq(k * y) + Sq(k * z) == q * n;
    assert Unit(k * scale) == q * Unit(scale);
    QuotientScaled(n, Unit(scale), q);
  }

  /** Flipping the sign of an axis or permuting the axes leaves the length
      unchanged. */
  lemma Symmetric(x: real, y: real, z: real, scale: real)
    requires scale != 0.0
    ensures LengthSq(-x, y, z, scale) == LengthSq(x, y, z, scale)
    ensures LengthSq(y, x, z, scale) == LengthSq(x, y, z, scale)
    ensures LengthSq(x, z, y, scale) == LengthSq(x, y, z, scale)
  {
    SqNeg(x);
  }

  /** Full scale of each device, in the units its table holds. */
  const ActigraphScale: real := 1024.0
  const E4Scale: real := 128.0
  const GeneactivScale: real := 8.0
  const WaveletScale: real := 128.0

  /** The devices whose loaders call `normalize`. */
  datatype AccDevice = Actigraph | E4 | Geneactiv | Wavelet

  /** The full scale each loader passes to `normalize`. */
  function FullScale(d: AccDevice): (s: real)
    ensures s > 0.0
  {
    match d
    case Actigraph => ActigraphScale
    case E4 => E4Scale
    case Geneactiv => GeneactivScale
    case Wavelet => WaveletScale
  }

  /** A loader's `normalize(acc_data, scale)` call: the ActiGraph table is
      normalized against 1024, the E4 and Wavelet tables against 128, the
      GENEActiv tables against 8. */
  function NormalizeDevice(d: AccDevice, rows: seq<AccRow>): (r: seq<AccRow>)
    ensures |r| == |rows|
    ensures d == Actigraph ==> forall i :: 0 <= i < |r| ==>
      r[i].lengthSq == Some(LengthSq(rows[i].x, rows[i].y, rows[i].z, 1024.0))
    ensures d == E4 || d == Wavelet ==> forall i :: 0 <= i < |r| ==>
      r[i].lengthSq == Some(LengthSq(rows[i].x, rows[i].y, rows[i].z, 128.0))
    ensures d == Geneactiv ==> forall i :: 0 <= i < |r| ==>
      r[i].lengthSq == Some(LengthSq(rows[i].x, rows[i].y, rows[i].z, 8.0))
  {
    Normalize(rows, FullScale(d))
  }

  /** In a device's normalized table every reading within the device's full
      scale on each axis has length at most 1, and a reading at full scale
      on every axis has length 1. */
  lemma NormalizeDeviceBounded(d: AccDevice, rows: seq<AccRow>)
    ensures forall i :: (0 <= i < |rows| && WithinScale(rows[i].x, FullScale(d)) &&
        WithinScale(rows[i].y, FullScale(d)) && WithinScale(rows[i].z, FullScale(d))) ==>
      NormalizeDevice(d, rows)[i].lengthSq.value <= 1.0
    ensures forall i :: 0 <= i < |rows| && rows[i].x == rows[i].y == rows[i].z == FullScale(d) ==>
      NormalizeDevice(d, rows)[i].lengthSq == Some(1.0)
  {
    NormalizedLengths(rows, FullScale(d));
  }

  /** A full-scale Actigraph reading on one axis has squared length 1/3. */
  lemma ActigraphSingleAxis()
    ensures LengthSq(ActigraphScale, 0.0, 0.0, ActigraphScale) == 1.0 / 3.0
  {
    var l := LengthSq(ActigraphScale, 0.0, 0.0, ActigraphScale);
    assert Unit(ActigraphScale) == 3.0 * Sq(ActigraphScale);
    Cancel(l, 1.0 / 3.0, Unit(ActigraphScale));
  }

  /** `save_df`'s file name: `device_normalized_unit.csv`; the vector-length
      plot reads a device's table from the same name. */
  function NormalizedName(device: string): (name: string)
    ensures name == device + "_normalized_unit.csv"
  {
    Text.JoinPair("normalized", "unit", '_');
    Text.JoinTriple(device, "normalized", "unit", '_');
    Text.JoinPair(Text.Join([device, "normalized", "unit"], '_'), "csv", '.');
    Text.Join([Text.Join([device, "normalized", "unit"], '_'), "csv"], '.')
  }

  /** Distinct devices get distinct normalized tables. */
  lemma NormalizedNamesDistinct(a: string, b: string)
    requires a != b
    ensures NormalizedName(a) != NormalizedName(b)
  {
    var na, nb := NormalizedName(a), NormalizedName(b);
    if |a| == |b| {
      assert na[..|a|] == a && nb[..|b|] == b;
    } else {
      assert |na| != |nb|;
    }
  }
}

=== FILE: normalize_inferred.dfy ===
/** The variant of `normalize` in `utilities/normalize_acc_data.py`: when no
    scale is given (or the scale given is 0), the scale is taken from the data
    as the largest absolute axis value, so every normalized length is at most
    1 and the table's most extreme reading sets the unit. */
module NormalizeAccInferred {
  import opened Wrappers
  import RealSeq
  import NormalizeAcc

  type AccRow = NormalizeAcc.AccRow

  /** `max(df[ax].max(), abs(df[ax].min()))` for one axis: the largest
      absolute value on it. */
  function AxisExtent(s: seq<real>): (e: real)
    requires |s| > 0
    ensures forall k :: 0 <= k < |s| ==> RealSeq.Abs(s[k]) <= e
    ensures exists k :: 0 <= k < |s| && RealSeq.Abs(s[k]) == e
  {
    var hi := RealSeq.Max(s);
    var lo := RealSeq.Min(s);
    if hi >= RealSeq.Abs(lo) then
      var k :| 0 <= k < |s| && s[k] == hi;
      hi
    else
      var k :| 0 <= k < |s| && s[k] == lo;
      RealSeq.Abs(lo)
  }

  function Xs(rows: seq<AccRow>): seq<real> { seq(|rows|, i requires 0 <= i < |rows| => rows[i].x) }
  function Ys(rows: seq<AccRow>): seq<real> { seq(|rows|, i requires 0 <= i < |rows| => rows[i].y) }
  function Zs(rows: seq<AccRow>): seq<real> { seq(|rows|, i requires 0 <= i < |rows| => rows[i].z) }

  /** Some axis value of row `i` has absolute value `v`. */
  predicate Reaches(row: AccRow, v: real)
  {
    RealSeq.Abs(row.x) == v || RealSeq.Abs(row.y) == v || RealSeq.Abs(row.z) == v
  }

  /** No axis value of the row exceeds `v` in absolute value. */
  predicate Within(row: AccRow, v: real)
  {
    RealSeq.Abs(row.x) <= v && RealSeq.Abs(row.y) <= v && RealSeq.Abs(row.z) <= v
  }

  /** The inferred scale: the largest of the three axis extents. It bounds
      every axis value and is reached by one. */
  function InferredScale(rows: seq<AccRow>): (scale: real)
    requires |rows| > 0
    ensures forall i :: 0 <= i < |rows| ==> Within(rows[i], scale)
    ensures exists i :: 0 <= i < |rows| && Reaches(rows[i], scale)
  {
    var ex, ey, ez := AxisExtent(Xs(rows)), AxisExtent(Ys(rows)), AxisExtent(Zs(rows));
    var m := if ex >= ey && ex >= ez then ex else if ey >= ez then ey else ez;
    ScaleBounds(rows, ex, ey, ez, m);
    ScaleReached(rows, ex, ey, ez, m);
    m
  }

  lemma ScaleBounds(rows: seq<AccRow>, ex: real, ey: real, ez: real, m: real)
    requires |rows| > 0
    requires ex == AxisExtent(Xs(rows)) && ey == AxisExtent(Ys(rows)) && ez == AxisExtent(Zs(rows))
    requires ex <= m && ey <= m && ez <= m
    ensures forall i :: 0 <= i < |rows| ==> Within(rows[i], m)
  {
    forall i | 0 <= i < |rows|
      ensures Within(rows[i], m)
    {
      assert RealSeq.Abs(Xs(rows)[i]) <= ex;
      assert RealSeq.Abs(Ys(rows)[i]) <= ey;
      assert RealSeq.Abs(Zs(rows)[i]) <= ez;
    }
  }

  lemma ScaleReached(rows: seq<AccRow>, ex: real, ey: real, ez: real, m: real)
    requires |rows| > 0
    requires ex == AxisExtent(Xs(rows)) && ey == AxisExtent(Ys(rows)) && ez == AxisExtent(Zs(rows))
    requires m == ex || m == ey || m == ez
    ensures exists i :: 0 <= i < |rows| && Reaches(rows[i], m)
  {
    if m == ex {
      var k :| 0 <= k < |rows| && RealSeq.Abs(Xs(rows)[k]) == ex;
      assert Reaches(rows[k], m);
    } else if m == ey {
      var k :| 0 <= k < |rows| && RealSeq.Abs(Ys(rows)[k]) == ey;
      assert Reaches(rows[k], m);
    } else {
      var k :| 0 <= k < |rows| && RealSeq.Abs(Zs(rows)[k]) == ez;
      assert Reaches(rows[k], m);
    }
  }

  /** The scale is 0 only when every reading is the zero reading. */
  lemma InferredScaleZero(rows: seq<AccRow>)
    requires |rows| > 0
    ensures InferredScale(rows) == 0.0 <==>
      forall i :: 0 <= i < |rows| ==> rows[i].x == 0.0 && rows[i].y == 0.0 && rows[i].z == 0.0
  {
    var s := InferredScale(rows);
    if s == 0.0 {
      assert forall i :: 0 <= i < |rows| ==> Within(rows[i], 0.0);
    } else {
      var i :| 0 <= i < |rows| && Reaches(rows[i], s);
      assert rows[i].x != 0.0 || rows[i].y != 0.0 || rows[i].z != 0.0;
    }
  }

  /** An all-zero table has no unit: numpy would divide 0 by 0. */
  datatype NormalizeError = ZeroScale

  /** Python truthiness of the `scale` argument: `None` and 0 are falsy. */
  predicate Given(scale: Option<real>)
  {
    scale.Some? && scale.value != 0.0
  }

  /** `normalize(df, scale=None)`. A given scale is used as it is; otherwise
      the scale is inferred from the data. An empty table stays empty. */
  function Normalize(rows: seq<AccRow>, scale: Option<real>): (r: Result<seq<AccRow>, NormalizeError>)
    ensures Given(scale) ==> r == Ok(NormalizeAcc.Normalize(rows, scale.value))
    ensures !Given(scale) && |rows| > 0 && r.Ok? ==>
      InferredScale(rows) != 0.0 && r.value == NormalizeAcc.Normalize(rows, InferredScale(rows))
    ensures r.Err? <==>
      (!Given(scale) && |rows| > 0 &&
       forall i :: 0 <= i < |rows| ==> rows[i].x == 0.0 && rows[i].y == 0.0 && rows[i].z == 0.0)
    ensures r.Ok? ==> |r.value| == |rows| && forall i :: 0 <= i < |rows| ==>
      r.value[i].t == rows[i].t && r.value[i].x == rows[i].x &&
      r.value[i].y == rows[i].y && r.value[i].z == rows[i].z && r.value[i].lengthSq.Some?
  {
    if Given(scale) then Ok(NormalizeAcc.Normalize(rows, scale.value))
    else if |rows| == 0 then Ok([])
    else
      InferredScaleZero(rows);
      var inferred := InferredScale(rows);
      if inferred == 0.0 then Err(ZeroScale)
      else Ok(NormalizeAcc.Normalize(rows, inferred))
  }

  /** With an inferred scale every normalized length is at most 1, and the
      most extreme reading has squared length at least 1/3. */
  lemma InferredLengthsBounded(rows: seq<AccRow>, scale: Option<real>)
    requires !Given(scale) && Normalize(rows, scale).Ok?
    ensures forall i :: 0 <= i < |rows| ==> Normalize(rows, scale).value[i].lengthSq.value <= 1.0
    ensures |rows| > 0 ==> exists i :: 0 <= i < |rows| && Normalize(rows, scale).value[i].lengthSq.value >= 1.0 / 3.0
  {
    if |rows| > 0 {
      var s := InferredScale(rows);
      var out := Normalize(rows, scale).value;
      assert out == NormalizeAcc.Normalize(rows, s);
      forall i | 0 <= i < |rows|
        ensures out[i].lengthSq.value <= 1.0
      {
        assert Within(rows[i], s);
        NormalizeAcc.InsideCube(rows[i].x, rows[i].y, rows[i].z, s);
      }
      var i :| 0 <= i < |rows| && Reaches(rows[i], s);
      ExtremeReading(rows[i].x, rows[i].y, rows[i].z, s);
    }
  }

  lemma ThirdAtLeast(n: real, q: real)
    requires q > 0.0 && n >= q
    ensures n / (3.0 * q) >= 1.0 / 3.0
  {
    var d := 3.0 * q;
    assert (n / d) * d == n;
    assert (1.0 / 3.0) * d == q;
    NormalizeAcc.CancelLe(1.0 / 3.0, n / d, d);
  }

  /** A reading with one axis at full scale has squared length at least 1/3. */
  lemma ExtremeReading(x: real, y: real, z: real, s: real)
    requires s != 0.0
    requires RealSeq.Abs(x) == s || RealSeq.Abs(y) == s || RealSeq.Abs(z) == s
    ensures NormalizeAcc.LengthSq(x, y, z, s) >= 1.0 / 3.0
  {
    var l := NormalizeAcc.LengthSq(x, y, z, s);
    NormalizeAcc.SqNeg(s);
    NormalizeAcc.SqNeg(x);
    NormalizeAcc.SqNeg(y);
    NormalizeAcc.SqNeg(z);
    assert NormalizeAcc.Sq(x) + NormalizeAcc.Sq(y) + NormalizeAcc.Sq(z) >= NormalizeAcc.Sq(s);
    assert l == (NormalizeAcc.Sq(x) + NormalizeAcc.Sq(y) + NormalizeAcc.Sq(z)) / (3.0 * NormalizeAcc.Sq(s));
    ThirdAtLeast(NormalizeAcc.Sq(x) + NormalizeAcc.Sq(y) + NormalizeAcc.Sq(z), NormalizeAcc.Sq(s));
  }

  /** Tables that agree on every axis value agree on the axis columns. */
  lemma SameAxes(a: seq<AccRow>, b: seq<AccRow>)
    requires |a| == |b|
    requires forall i :: 0 <= i < |a| ==> a[i].x == b[i].x && a[i].y == b[i].y && a[i].z == b[i].z
    ensures Xs(a) == Xs(b) && Ys(a) == Ys(b) && Zs(a) == Zs(b)
  {
  }

  /** Normalizing a normalized table again, with the scale inferred again,
      changes nothing: the axes, and so the inferred scale, are the same. */
  lemma NormalizeIdempotent(rows: seq<AccRow>, scale: Option<real>)
    requires Normalize(rows, scale).Ok?
    ensures Normalize(Normalize(rows, scale).value, scale) == Normalize(rows, scale)
  {
    var out := Normalize(rows, scale).value;
    if Given(scale) {
      NormalizeAcc.NormalizeIdempotent(rows, scale.value);
    } else if |rows| > 0 {
      var s := InferredScale(rows);
      assert out == NormalizeAcc.Normalize(rows, s);
      SameAxes(rows, out);
      assert InferredScale(out) == s;
      NormalizeAcc.NormalizeIdempotent(rows, s);
    }
  }
}

=== FILE: organize_wearable_data.dfy ===
/** The raw-export parsing of `organize_wearable_data.py`.

    `DropNonCsv` reads a device export as lines: a fixed number of preamble
    lines is skipped, an optional header line names the columns, and every
    remaining line is split on commas. `E4Timestamp` turns the first two rows
    of an Empatica E4 export (start time, step) into a timestamp per data row.
    The loaders route export files by name, concatenate the tables of the
    files they keep in listing order, and divide raw counts by a
    per-device count-per-g constant. */
module OrganizeWearableData {
  import opened Wrappers
  import Text

  // ---------------------------------------------------------------------
  // drop_non_csv
  // ---------------------------------------------------------------------

  /** A table as `drop_non_csv` builds it: the header line's fields when one
      was read, and the fields of every remaining line. */
  datatype Frame = Frame(header: Option<seq<string>>, rows: seq<seq<string>>)

  /** pandas refuses a list of column names whose length differs from the
      width of the data (the longest row). */
  datatype FrameError = ColumnMismatch(named: nat, width: nat)

  /** Python's `readline`: past the end of the file it returns "". */
  function ReadLine(lines: seq<string>, k: nat): string
  {
    if k < |lines| then lines[k] else ""
  }

  /** Python's `readlines` after `k` lines were read. */
  function ReadLines(lines: seq<string>, k: nat): (rest: seq<string>)
    ensures |rest| == if k <= |lines| then |lines| - k else 0
  {
    if k <= |lines| then lines[k..] else []
  }

  /** Every line split on commas. */
  function SplitAll(lines: seq<string>): (rows: seq<seq<string>>)
    ensures |rows| == |lines|
    ensures forall i :: 0 <= i < |lines| ==> rows[i] == Text.Split(lines[i], ',')
  {
    if |lines| == 0 then [] else [Text.Split(lines[0], ',')] + SplitAll(lines[1..])
  }

  /** The width pandas gives a list of rows: the length of the longest. */
  function Width(rows: seq<seq<string>>): (w: nat)
    ensures forall i :: 0 <= i < |rows| ==> |rows[i]| <= w
    ensures |rows| > 0 ==> exists i :: 0 <= i < |rows| && |rows[i]| == w
    ensures |rows| == 0 ==> w == 0
  {
    if |rows| == 0 then 0
    else
      var rest := Width(rows[1..]);
      assert forall i :: 1 <= i < |rows| ==> rows[i] == rows[1..][i - 1];
      if |rows[0]| >= rest then |rows[0]| else rest
  }

  /** Number of lines consumed before the data: the dropped lines, plus the
      header line when there is one. */
  function Skipped(dropRows: nat, headerRow: bool): nat
  {
    dropRows + if headerRow then 1 else 0
  }

  /** `drop_non_csv(open_csv_file, drop_rows, header_row)` over the lines of
      the file (each with its line terminator, as `readline` keeps it).
      The first `dropRows` lines never reach the table; with `headerRow` the
      next line names the columns; every later line becomes one row, split on
      every comma. A short file is not an error: it yields an empty table. The
      only failure is pandas rejecting a header whose length is not the data
      width. */
  function DropNonCsv(lines: seq<string>, dropRows: nat, headerRow: bool): (r: Result<Frame, FrameError>)
    ensures r.Ok? ==> |r.value.rows| == |ReadLines(lines, Skipped(dropRows, headerRow))|
    ensures r.Ok? ==> forall i :: 0 <= i < |r.value.rows| ==>
      r.value.rows[i] == Text.Split(lines[Skipped(dropRows, headerRow) + i], ',')
    ensures r.Ok? ==> (r.value.header.Some? <==> headerRow)
    ensures r.Ok? && headerRow ==> r.value.header.value == Text.Split(ReadLine(lines, dropRows), ',')
    ensures |lines| <= Skipped(dropRows, headerRow) ==> r.Ok? && r.value.rows == []
    ensures r.Err? ==> headerRow && Skipped(dropRows, headerRow) < |lines|
  {
    var skip := Skipped(dropRows, headerRow);
    var rows := SplitAll(ReadLines(lines, skip));
    if !headerRow then Ok(Frame(None, rows))
    else
      var header := Text.Split(ReadLine(lines, dropRows), ',');
      if |rows| > 0 && Width(rows) != |header| then
        Err(ColumnMismatch(|header|, Width(rows)))
      else
        Ok(Frame(Some(header), rows))
  }

  /** Some data line has more fields than the header line, or every data
      line has fewer. */
  predicate Mismatched(header: string, data: seq<string>)
  {
    (exists i :: 0 <= i < |data| && |Text.Split(data[i], ',')| > |Text.Split(header, ',')|) ||
    (forall i :: 0 <= i < |data| ==> |Text.Split(data[i], ',')| < |Text.Split(header, ',')|)
  }

  /** The widest of some split lines differs from `h` exactly when one line
      is wider or all are narrower. */
  lemma WidthDiffers(data: seq<string>, header: string)
    requires |data| > 0
    ensures Width(SplitAll(data)) != |Text.Split(header, ',')| <==> Mismatched(header, data)
  {
    var rows := SplitAll(data);
    var h := |Text.Split(header, ',')|;
    var w := Width(rows);
    var k :| 0 <= k < |rows| && |rows[k]| == w;
    if w > h {
      assert |Text.Split(data[k], ',')| > h;
    } else if w == h {
      assert |Text.Split(data[k], ',')| == h;
    }
  }

  /** `drop_non_csv` fails exactly when a header was read, at least one data
      line follows it, and the header's field count is not the widest data
      line's. */
  lemma DropNonCsvFails(lines: seq<string>, dropRows: nat, headerRow: bool)
    ensures DropNonCsv(lines, dropRows, headerRow).Err? <==>
      headerRow && dropRows + 1 < |lines| && Mismatched(lines[dropRows], lines[dropRows + 1..])
  {
    if headerRow && dropRows + 1 < |lines| {
      WidthDiffers(lines[dropRows + 1..], lines[dropRows]);
    }
  }

  /** Each row joined back with commas is the line it came from, and has one
      more field than the line has commas. */
  lemma DropNonCsvRoundTrip(lines: seq<string>, dropRows: nat, headerRow: bool, i: nat)
    requires DropNonCsv(lines, dropRows, headerRow).Ok?
    requires i < |DropNonCsv(lines, dropRows, headerRow).value.rows|
    ensures Text.Join(DropNonCsv(lines, dropRows, headerRow).value.rows[i], ',') == lines[Skipped(dropRows, headerRow) + i]
    ensures |DropNonCsv(lines, dropRows, headerRow).value.rows[i]| == Text.Count(lines[Skipped(dropRows, headerRow) + i], ',') + 1
  {
    var line := lines[Skipped(dropRows, headerRow) + i];
    Text.JoinSplit(line, ',');
    Text.SplitCount(line, ',');
  }

  /** The rows returned are exactly the lines after the skipped ones: no
      dropped line is returned, and no later line is lost. */
  lemma DropNonCsvKeepsTail(lines: seq<string>, dropRows: nat, headerRow: bool)
    requires DropNonCsv(lines, dropRows, headerRow).Ok?
    ensures
      var rows := DropNonCsv(lines, dropRows, headerRow).value.rows;
      seq(|rows|, i requires 0 <= i < |rows| => Text.Join(rows[i], ',')) == ReadLines(lines, Skipped(dropRows, headerRow))
  {
    var rows := DropNonCsv(lines, dropRows, headerRow).value.rows;
    forall i | 0 <= i < |rows|
      ensures Text.Join(rows[i], ',') == ReadLines(lines, Skipped(dropRows, headerRow))[i]
    {
      DropNonCsvRoundTrip(lines, dropRows, headerRow, i);
    }
  }

  // ---------------------------------------------------------------------
  // e4_timestamp
  // ---------------------------------------------------------------------

  /** One row of an E4 export as pandas reads it with column names x, y, z. */
  datatype Triple = Triple(x: real, y: real, z: real)

  /** Python's `int()` on a float: truncation toward zero. */
  function Trunc(v: real): (n: int)
    ensures 0.0 <= v ==> n as real <= v < n as real + 1.0
    ensures v < 0.0 ==> n as real - 1.0 < v <= n as real
  {
    if 0.0 <= v then v.Floor else -((-v).Floor)
  }

  /** `np.arange(start, start + n*step, step)` for a non-zero step. */
  function Arange(start: int, step: int, n: nat): (s: seq<int>)
    requires step != 0
    ensures |s| == n
  {
    seq(n, i requires 0 <= i < n => start + i * step)
  }

  /** More steps of a positive size reach further. */
  lemma StepsApart(i: int, j: int, step: int)
    requires i < j && step > 0
    ensures i * step < j * step
  {
    assert j * step - i * step == (j - i) * step;
  }

  /** A positive step gives a strictly increasing sequence that starts at
      `start` and advances by `step`. */
  lemma ArangeIncreasing(start: int, step: int, n: nat)
    requires step > 0
    ensures forall i, j :: 0 <= i < j < n ==> Arange(start, step, n)[i] < Arange(start, step, n)[j]
    ensures n > 0 ==> Arange(start, step, n)[0] == start
    ensures forall i :: 0 <= i < n - 1 ==> Arange(start, step, n)[i + 1] - Arange(start, step, n)[i] == step
  {
    var s := Arange(start, step, n);
    forall i, j | 0 <= i < j < n
      ensures s[i] < s[j]
    {
      StepsApart(i, j, step);
    }
    forall i | 0 <= i < n - 1
      ensures s[i + 1] - s[i] == step
    {
      assert (i + 1) * step == i * step + step;
    }
  }

  /** `int(df.iloc[k, 0])` fails with an index error when there is no row k;
      `np.arange` fails on a zero step. */
  datatype E4Error = MissingHeaderRow(rows: nat) | ZeroStep

  /** A data row with the timestamp it was given; `None` is pandas' NaN. */
  datatype Stamped = Stamped(t: Option<int>, row: Triple)

  /** Start time and step of an E4 export: the first value of rows 0 and 1. */
  function E4Clock(df: seq<Triple>): (r: Result<(int, int), E4Error>)
    ensures r.Ok? <==> |df| >= 2 && Trunc(df[1].x) != 0
    ensures r.Ok? ==> r.value.0 == Trunc(df[0].x) && r.value.1 == Trunc(df[1].x)
  {
    if |df| < 2 then Err(MissingHeaderRow(|df|))
    else if Trunc(df[1].x) == 0 then Err(ZeroStep)
    else Ok((Trunc(df[0].x), Trunc(df[1].x)))
  }

  /** `e4_timestamp` as written: the data rows keep their labels 2..N-1 while
      the generated timestamps carry labels 0..N-3, and the assignment aligns
      on labels. So the data row labelled k receives timestamp number k, and
      the last two data rows receive none. */
  function E4TimestampAsWritten(df: seq<Triple>): (r: Result<seq<Stamped>, E4Error>)
    ensures r.Ok? <==> E4Clock(df).Ok?
    ensures r.Ok? ==> |r.value| == |df| - 2
    ensures r.Ok? ==> forall i :: 0 <= i < |r.value| ==> r.value[i].row == df[i + 2]
    ensures r.Ok? ==> forall i :: 0 <= i < |r.value| ==>
      (r.value[i].t.Some? <==> i + 2 < |r.value|)
  {
    var (start, step) :- E4Clock(df);
    var data := df[2..];
    var index := Arange(start, step, |data|);
    Ok(seq(|data|, i requires 0 <= i < |data| =>
      Stamped(if i + 2 < |index| then Some(index[i + 2]) else None, data[i])))
  }

  /** `e4_timestamp` as its documentation describes it: data row i is stamped
      `start + i*step`. */
  function E4Timestamp(df: seq<Triple>): (r: Result<seq<(int, Triple)>, E4Error>)
    ensures r.Ok? <==> E4Clock(df).Ok?
    ensures r.Ok? ==> |r.value| == |df| - 2
    ensures r.Ok? ==> forall i :: 0 <= i < |r.value| ==> r.value[i].1 == df[i + 2]
  {
    var (start, step) :- E4Clock(df);
    var data := df[2..];
    var index := Arange(start, step, |data|);
    Ok(seq(|data|, i requires 0 <= i < |data| => (index[i], data[i])))
  }

  /** Data row `i` of the corrected stamping gets `start + i*step`. */
  lemma E4TimestampAt(df: seq<Triple>, i: nat)
    requires E4Timestamp(df).Ok? && i < |E4Timestamp(df).value|
    ensures E4Timestamp(df).value[i].0 == Trunc(df[0].x) + i * Trunc(df[1].x)
  {
    assert E4Clock(df) == Ok((Trunc(df[0].x), Trunc(df[1].x)));
  }

  /** The timestamps of the corrected stamping start at the start time and
      advance by the step; for a positive step they strictly increase. */
  lemma E4TimestampProgression(df: seq<Triple>)
    requires E4Timestamp(df).Ok?
    ensures var r := E4Timestamp(df).value;
      (|r| > 0 ==> r[0].0 == Trunc(df[0].x)) &&
      (forall i :: 0 <= i < |r| - 1 ==> r[i + 1].0 - r[i].0 == Trunc(df[1].x))
    ensures var r := E4Timestamp(df).value;
      Trunc(df[1].x) > 0 ==> forall i, j :: 0 <= i < j < |r| ==> r[i].0 < r[j].0
  {
    var r := E4Timestamp(df).value;
    var step := Trunc(df[1].x);
    if |r| > 0 {
      E4TimestampAt(df, 0);
    }
    forall i | 0 <= i < |r| - 1
      ensures r[i + 1].0 - r[i].0 == step
    {
      E4TimestampAt(df, i);
      E4TimestampAt(df, i + 1);
      assert (i + 1) * step == i * step + step;
    }
    if step > 0 {
      forall i, j | 0 <= i < j < |r|
        ensures r[i].0 < r[j].0
      {
        E4TimestampAt(df, i);
        E4TimestampAt(df, j);
        StepsApart(i, j, step);
      }
    }
  }

  /** Where the stamping as written gives a timestamp, it is the one the
      intended stamping gives the row two places further down. */
  lemma E4TimestampShift(df: seq<Triple>, i: nat)
    requires E4Timestamp(df).Ok? && i + 2 < |df| - 2
    ensures E4TimestampAsWritten(df).Ok?
    ensures E4TimestampAsWritten(df).value[i].t == Some(E4Timestamp(df).value[i + 2].0)
  {
  }

  /** A concrete export with start 100, step 1 and three data rows: as written
      the first data row is stamped 102 rather than 100, and the other two
      rows get no timestamp. */
  lemma E4TimestampMisaligned()
    ensures
      var df := [Triple(100.0, 100.0, 100.0), Triple(1.0, 1.0, 1.0),
                 Triple(0.0, 0.0, 1.0), Triple(0.0, 1.0, 0.0), Triple(1.0, 0.0, 0.0)];
      E4TimestampAsWritten(df) == Ok([Stamped(Some(102), df[2]), Stamped(None, df[3]), Stamped(None, df[4])]) &&
      E4Timestamp(df) == Ok([(100, df[2]), (101, df[3]), (102, df[4])])
  {
    var df := [Triple(100.0, 100.0, 100.0), Triple(1.0, 1.0, 1.0),
               Triple(0.0, 0.0, 1.0), Triple(0.0, 1.0, 0.0), Triple(1.0, 0.0, 0.0)];
    assert E4Clock(df) == Ok((100, 1));
    assert df[2..] == [df[2], df[3], df[4]];
    assert Arange(100, 1, 3) == [100, 101, 102];
    var w := E4TimestampAsWritten(df).value;
    assert w[0] == Stamped(Some(102), df[2]);
    assert w == [w[0], w[1], w[2]];
    var c := E4Timestamp(df).value;
    assert c == [c[0], c[1], c[2]];
  }

  // ---------------------------------------------------------------------
  // Units
  // ---------------------------------------------------------------------

  /** Wavelet timestamps are milliseconds. */
  const WaveletTicksPerSecond: real := 1000.0

  /** `float(x)/countsPerG` on every axis: the ActiGraph records 1/128 g,
      the E4 and the Wavelet 1/64 g. */
  function ToG(counts: Triple, countsPerG: real): (g: Triple)
    requires countsPerG != 0.0
    ensures g.x * countsPerG == counts.x && g.y * countsPerG == counts.y && g.z * countsPerG == counts.z
  {
    Triple(counts.x / countsPerG, counts.y / countsPerG, counts.z / countsPerG)
  }

  /** The devices whose loaders convert raw counts to g. */
  datatype CountingDevice = Actigraph | E4 | Wavelet

  /** Raw counts per g of each device's export. */
  function CountsPerG(d: CountingDevice): (c: real)
    ensures c > 0.0
  {
    match d
    case Actigraph => 128.0
    case E4 => 64.0
    case Wavelet => 64.0
  }

  /** A loader's conversion of its accumulated table to g: every axis of
      every row divided by 128 for the ActiGraph, by 64 for the E4 and the
      Wavelet. */
  function ConvertToG(d: CountingDevice, rows: seq<Triple>): (r: seq<Triple>)
    ensures |r| == |rows|
    ensures d == Actigraph ==> forall k :: 0 <= k < |r| ==>
      r[k].x * 128.0 == rows[k].x && r[k].y * 128.0 == rows[k].y && r[k].z * 128.0 == rows[k].z
    ensures d != Actigraph ==> forall k :: 0 <= k < |r| ==>
      r[k].x * 64.0 == rows[k].x && r[k].y * 64.0 == rows[k].y && r[k].z * 64.0 == rows[k].z
  {
    seq(|rows|, k requires 0 <= k < |rows| => ToG(rows[k], CountsPerG(d)))
  }

  /** Converting a table keeps the order of its x readings and the sign of
      each x value (y and z are converted alike). */
  lemma ConvertKeepsOrder(d: CountingDevice, rows: seq<Triple>)
    ensures forall i, j :: 0 <= i < |rows| && 0 <= j < |rows| && rows[i].x <= rows[j].x ==>
      ConvertToG(d, rows)[i].x <= ConvertToG(d, rows)[j].x
    ensures forall i :: 0 <= i < |rows| ==> (ConvertToG(d, rows)[i].x < 0.0 <==> rows[i].x < 0.0)
  {
    // Both follow from ConvertToG's per-row equations with a positive divisor.
  }

  /** With a positive divisor, conversion keeps the order of readings on
      each axis and the sign of each value. */
  lemma ToGMonotone(a: Triple, b: Triple, countsPerG: real)
    requires countsPerG > 0.0
    requires a.x <= b.x
    ensures ToG(a, countsPerG).x <= ToG(b, countsPerG).x
    ensures (ToG(a, countsPerG).x < 0.0) <==> (a.x < 0.0)
  {
    var ga, gb := ToG(a, countsPerG), ToG(b, countsPerG);
    assert (gb.x - ga.x) * countsPerG == b.x - a.x;
    if ga.x < 0.0 {
      assert ga.x * countsPerG < 0.0;
    }
    if a.x < 0.0 {
      assert ga.x * countsPerG < 0.0;
    }
  }

  /** `int(x)/1000`: a Wavelet millisecond timestamp as (fractional) seconds. */
  function WaveletSeconds(ms: real): (s: real)
    ensures s * WaveletTicksPerSecond == Trunc(ms) as real
  {
    Trunc(ms) as real / WaveletTicksPerSecond
  }

  // ---------------------------------------------------------------------
  // File routing and accumulation
  // ---------------------------------------------------------------------

  /** Actigraph loader: one-second exports end in "1sec.csv". */
  predicate IsActigraphExport(name: string)
  {
    Text.EndsWith(name, "1sec.csv")
  }

  /** The suffix test the E4, GENEActiv and Wavelet loaders share: the name
      ends in "csv" (the Wavelet loader takes every such file). */
  predicate IsCsv(name: string)
  {
    Text.EndsWith(name, "csv")
  }

  /** E4 loader: accelerometer exports have "ACC" in the name and end in "csv". */
  predicate IsE4AccExport(name: string)
  {
    Text.Contains(name, "ACC") && IsCsv(name)
  }

  /** The two GENEActiv devices, told apart by their wearer's name. */
  datatype Strap = Black | Pink

  /** GENEActiv loader: a "csv" file naming Jon is the black device's; failing
      that, one naming Curt or Arno is the pink device's. */
  function GeneactivStrap(name: string): (s: Option<Strap>)
    ensures s.Some? ==> IsCsv(name)
    ensures s == Some(Black) <==> IsCsv(name) && Text.Contains(name, "Jon")
    ensures s == Some(Pink) <==>
      (IsCsv(name) && !Text.Contains(name, "Jon") &&
       (Text.Contains(name, "Curt") || Text.Contains(name, "Arno")))
  {
    if Text.Contains(name, "Jon") && IsCsv(name) then Some(Black)
    else if (Text.Contains(name, "Curt") || Text.Contains(name, "Arno")) && IsCsv(name) then Some(Pink)
    else None
  }

  /** A suffix of a suffix is a suffix. */
  lemma EndsWithTail(s: string, suffix: string, k: nat)
    requires Text.EndsWith(s, suffix) && k <= |suffix|
    ensures Text.EndsWith(s, suffix[k..])
  {
    assert s[|s| - |suffix[k..]|..] == s[|s| - |suffix|..][k..];
  }

  /** Every Actigraph and E4 export also passes the "csv" suffix test of the
      Wavelet loader, so the loaders only keep devices apart by directory. */
  lemma RoutingOverlaps(name: string)
    ensures IsActigraphExport(name) ==> IsCsv(name)
    ensures IsE4AccExport(name) ==> IsCsv(name)
  {
    if IsActigraphExport(name) {
      EndsWithTail(name, "1sec.csv", 5);
      assert "1sec.csv"[5..] == "csv";
    }
  }

  /** A file naming both Jon and Curt goes to the black device only. */
  lemma JonTakesPrecedence()
    ensures GeneactivStrap("Jon_Curt.csv") == Some(Black)
  {
    assert Text.StartsWith("Jon_Curt.csv", "Jon");
  }

  /** An export file as the loaders see it: its name and its parsed table. */
  datatype Export<T> = Export(name: string, table: seq<T>)

  /** One loader step: an empty table is replaced by the next file's table,
      a non-empty one has it appended. Either way the rows are concatenated. */
  function Accumulate<T>(acc: seq<T>, next: seq<T>): (r: seq<T>)
    ensures r == acc + next
  {
    if |acc| == 0 then next else acc + next
  }

  /** A loader: the tables of the files `keep` accepts, accumulated in
      listing order. */
  function Collect<T(!new)>(files: seq<Export<T>>, keep: string -> bool): (r: seq<T>)
    ensures forall x :: x in r <==> exists k :: 0 <= k < |files| && keep(files[k].name) && x in files[k].table
  {
    if |files| == 0 then []
    else
      var last := files[|files| - 1];
      var prior := Collect(files[..|files| - 1], keep);
      assert forall k :: 0 <= k < |files| - 1 ==> files[..|files| - 1][k] == files[k];
      if keep(last.name) then Accumulate(prior, last.table) else prior
  }

  /** The number of rows a loader collects: the sizes of the kept files. */
  function KeptRows<T>(files: seq<Export<T>>, keep: string -> bool): nat
  {
    if |files| == 0 then 0
    else (if keep(files[0].name) then |files[0].table| else 0) + KeptRows(files[1..], keep)
  }

  /** The collected table is exactly as long as the kept tables together. */
  lemma {:induction false} CollectSize<T(!new)>(files: seq<Export<T>>, keep: string -> bool)
    ensures |Collect(files, keep)| == KeptRows(files, keep)
  {
    if |files| > 0 {
      var init := files[..|files| - 1];
      CollectSize(init, keep);
      KeptRowsSnoc(init, files[|files| - 1], keep);
      assert init + [files[|files| - 1]] == files;
    }
  }

  lemma {:induction false} KeptRowsSnoc<T>(files: seq<Export<T>>, last: Export<T>, keep: string -> bool)
    ensures KeptRows(files + [last], keep) == KeptRows(files, keep) + (if keep(last.name) then |last.table| else 0)
  {
    if |files| > 0 {
      assert (files + [last])[1..] == files[1..] + [last];
      KeptRowsSnoc(files[1..], last, keep);
    }
  }

  /** The two GENEActiv tables a run saves, under the black and pink names. */
  datatype Straps<T> = Straps(black: seq<T>, pink: seq<T>)

  /** One step of the GENEActiv loop as written: a further pink file is
      appended to the black table, not to the pink one. */
  function GeneactivStepAsWritten<T>(acc: Straps<T>, file: Export<T>): Straps<T>
  {
    match GeneactivStrap(file.name)
    case Some(Black) => acc.(black := Accumulate(acc.black, file.table))
    case Some(Pink) => acc.(pink := if |acc.pink| == 0 then file.table else acc.black + file.table)
    case None => acc
  }

  function GeneactivLoopAsWritten<T>(files: seq<Export<T>>): Straps<T>
  {
    if |files| == 0 then Straps([], [])
    else GeneactivStepAsWritten(GeneactivLoopAsWritten(files[..|files| - 1]), files[|files| - 1])
  }

  /** `geneactiv_acc` as written: the black table is saved under both names. */
  function GeneactivAsWritten<T>(files: seq<Export<T>>): (saved: Straps<T>)
    ensures saved.pink == saved.black
  {
    var loop := GeneactivLoopAsWritten(files);
    Straps(loop.black, loop.black)
  }

  /** A lone pink export: as written the pink output is empty, although the
      pink file has a row. */
  lemma GeneactivPinkLost(row: int)
    ensures GeneactivStrap("Curt.csv") == Some(Pink)
    ensures GeneactivAsWritten([Export("Curt.csv", [row])]).pink == []
  {
    CurtIsPink();
    var files := [Export("Curt.csv", [row])];
    assert files[..0] == [];
    assert GeneactivLoopAsWritten(files) == GeneactivStepAsWritten(Straps([], []), files[0]);
  }

  /** "Curt.csv" is routed to the pink device. */
  lemma CurtIsPink()
    ensures GeneactivStrap("Curt.csv") == Some(Pink)
  {
    assert Text.StartsWith("Curt.csv", "Curt");
    Text.ContainsHead("Curt.csv", "Jon");
    assert 'J' !in "Curt.csv";
  }

  /** `geneactiv_acc` as the later copy in `normalize_acc_data.py` has it:
      each device's files are accumulated into its own table. */
  function Geneactiv<T(!new)>(files: seq<Export<T>>): (saved: Straps<T>)
    ensures forall x :: x in saved.black <==>
      exists k :: 0 <= k < |files| && GeneactivStrap(files[k].name) == Some(Black) && x in files[k].table
    ensures forall x :: x in saved.pink <==>
      exists k :: 0 <= k < |files| && GeneactivStrap(files[k].name) == Some(Pink) && x in files[k].table
  {
    Straps(Collect(files, n => GeneactivStrap(n) == Some(Black)),
           Collect(files, n => GeneactivStrap(n) == Some(Pink)))
  }

  /** With the correction the lone pink export's row reaches the pink output. */
  lemma GeneactivPinkKept(row: int)
    ensures row in Geneactiv([Export("Curt.csv", [row])]).pink
  {
    CurtIsPink();
    assert row in [Export("Curt.csv", [row])][0].table;
  }

  // ---------------------------------------------------------------------
  // save_df
  // ---------------------------------------------------------------------

  /** `save_df`'s file name: `'.'.join([device, 'csv'])`. */
  function SavedName(device: string): (name: string)
    ensures Text.EndsWith(name, ".csv")
    ensures Text.StartsWith(name, device)
    ensures name == device + ".csv"
  {
    Text.JoinPair(device, "csv", '.');
    Text.Join([device, "csv"], '.')
  }

  /** Distinct devices are saved under distinct names. */
  lemma SavedNamesDistinct(a: string, b: string)
    requires a != b
    ensures SavedName(a) != SavedName(b)
  {
    var na, nb := SavedName(a), SavedName(b);
    Text.JoinPair(a, "csv", '.');
    Text.JoinPair(b, "csv", '.');
    if |a| == |b| {
      assert na[..|a|] == a && nb[..|b|] == b;
    }
  }
}

=== FILE: plot_normalized_ppgs.dfy ===
/** `plot_normalized_ppgs.py`: the photoplethysmograph plot. Each device's
    table is cut to an inclusive time window and the tables are outer-merged
    on Timestamp; each light channel is then recentered on 0 (`demean`) and
    scaled into [-1, 1] (`normalize`) before it is charted. */
module PlotPpgs {
  import opened Wrappers
  import RealSeq
  import Window
  import NormalizeAccInferred

  /** `dropna`: the entries that are present, in order. */
  function Present(s: seq<Option<real>>): (r: seq<real>)
    ensures |r| <= |s|
    ensures forall x :: x in r <==> Some(x) in s
  {
    if |s| == 0 then []
    else
      assert s == [s[0]] + s[1..];
      (if s[0].Some? then [s[0].value] else []) + Present(s[1..])
  }

  /** `s.iloc[s.nonzero()[0]]`: the non-zero entries, in order. */
  function NonZero(s: seq<real>): (r: seq<real>)
    ensures |r| <= |s|
    ensures forall x :: x in r <==> x in s && x != 0.0
  {
    if |s| == 0 then []
    else
      assert s == [s[0]] + s[1..];
      (if s[0] != 0.0 then [s[0]] else []) + NonZero(s[1..])
  }

  /** The readings `demean` keeps: present and non-zero. */
  function Readings(s: seq<Option<real>>): seq<real>
  {
    NonZero(Present(s))
  }

  /** How many entries are present and non-zero. */
  function CountReadings(s: seq<Option<real>>): nat
  {
    if |s| == 0 then 0
    else (if s[0].Some? && s[0].value != 0.0 then 1 else 0) + CountReadings(s[1..])
  }

  lemma {:induction false} PresentCons(x: Option<real>, s: seq<Option<real>>)
    ensures Present([x] + s) == (if x.Some? then [x.value] else []) + Present(s)
  {
    assert ([x] + s)[1..] == s;
  }

  lemma {:induction false} NonZeroConcat(a: seq<real>, b: seq<real>)
    ensures NonZero(a + b) == NonZero(a) + NonZero(b)
  {
    if |a| > 0 {
      assert (a + b)[1..] == a[1..] + b;
      NonZeroConcat(a[1..], b);
    } else {
      assert a + b == b;
    }
  }

  /** `demean` keeps one reading per present non-zero entry. */
  lemma {:induction false} ReadingsCount(s: seq<Option<real>>)
    ensures |Readings(s)| == CountReadings(s)
    ensures forall x :: x in Readings(s) <==> x != 0.0 && Some(x) in s
  {
    if |s| > 0 {
      ReadingsCount(s[1..]);
      assert s == [s[0]] + s[1..];
      PresentCons(s[0], s[1..]);
      NonZeroConcat(if s[0].Some? then [s[0].value] else [], Present(s[1..]));
    }
  }

  /** `demean(s)`: the readings minus their mean. With no readings the mean
      is undefined and the result is the empty series. */
  function Demean(s: seq<Option<real>>): (r: seq<real>)
    ensures |r| == |Readings(s)|
    ensures forall i, j :: 0 <= i < |r| && 0 <= j < |r| ==>
      r[i] - r[j] == Readings(s)[i] - Readings(s)[j]
  {
    var nz := Readings(s);
    if |nz| == 0 then []
    else seq(|nz|, k requires 0 <= k < |nz| => nz[k] - RealSeq.Mean(nz))
  }

  lemma MeanTimesCount(total: real, n: real)
    requires n > 0.0
    ensures total - n * (total / n) == 0.0
  {
  }

  /** The result is "recentered on 0": it sums to 0. */
  lemma DemeanSumsToZero(s: seq<Option<real>>)
    ensures RealSeq.Sum(Demean(s)) == 0.0
  {
    var nz := Readings(s);
    if |nz| > 0 {
      MeanShiftSumsToZero(nz);
    }
  }

  lemma MeanShiftSumsToZero(nz: seq<real>)
    requires |nz| > 0
    ensures RealSeq.Sum(seq(|nz|, k requires 0 <= k < |nz| => nz[k] - RealSeq.Mean(nz))) == 0.0
  {
    var c := RealSeq.Mean(nz);
    RealSeq.SumShift(nz, c);
    MeanTimesCount(RealSeq.Sum(nz), |nz| as real);
  }

  /** The result keeps the order of the readings. */
  lemma DemeanOrder(s: seq<Option<real>>, i: nat, j: nat)
    requires i < |Demean(s)| && j < |Demean(s)|
    ensures Demean(s)[i] <= Demean(s)[j] <==> Readings(s)[i] <= Readings(s)[j]
  {
  }

  /** Demeaning is the only way to shift the readings so that they sum to 0:
      any series with the readings' pairwise differences and sum 0 is the
      demeaned series. */
  lemma DemeanUnique(s: seq<Option<real>>, t: seq<real>)
    requires |t| == |Readings(s)|
    requires forall i, j :: 0 <= i < |t| && 0 <= j < |t| ==> t[i] - t[j] == Readings(s)[i] - Readings(s)[j]
    requires RealSeq.Sum(t) == 0.0
    ensures t == Demean(s)
  {
    var nz := Readings(s);
    if |nz| > 0 {
      ShiftUnique(nz, t);
    }
  }

  /** A zero-sum shift of `nz` subtracts the mean. */
  lemma ShiftUnique(nz: seq<real>, t: seq<real>)
    requires |t| == |nz| > 0
    requires forall i, j :: 0 <= i < |t| && 0 <= j < |t| ==> t[i] - t[j] == nz[i] - nz[j]
    requires RealSeq.Sum(t) == 0.0
    ensures t == seq(|nz|, k requires 0 <= k < |nz| => nz[k] - RealSeq.Mean(nz))
  {
    var c := nz[0] - t[0];
    var shifted := seq(|nz|, k requires 0 <= k < |nz| => nz[k] - c);
    forall k | 0 <= k < |t|
      ensures t[k] == shifted[k]
    {
      assert t[k] - t[0] == nz[k] - nz[0];
    }
    assert t == shifted;
    ZeroSumShift(nz, c);
  }

  /** The only shift of `nz` that sums to 0 is the shift by the mean. */
  lemma ZeroSumShift(nz: seq<real>, c: real)
    requires |nz| > 0
    requires RealSeq.Sum(seq(|nz|, k requires 0 <= k < |nz| => nz[k] - c)) == 0.0
    ensures c == RealSeq.Mean(nz)
  {
    RealSeq.SumShift(nz, c);
    CountTimes(RealSeq.Sum(nz), |nz| as real, c);
  }

  lemma CountTimes(total: real, n: real, c: real)
    requires n > 0.0 && total - n * c == 0.0
    ensures c == total / n
  {
  }

  datatype NormalizeError = EmptySeries | ZeroScale

  /** `normalize(s)`: divides by `max(max(s), abs(min(s)))`, the largest
      absolute value. `max` of an empty series raises; an all-zero series
      has scale 0 and no quotient. */
  function Normalize(s: seq<real>): (r: Result<seq<real>, NormalizeError>)
    ensures r.Err? <==> |s| == 0 || forall k :: 0 <= k < |s| ==> s[k] == 0.0
    ensures r.Ok? ==> |r.value| == |s|
    ensures r.Ok? ==> DividedBy(s, NormalizeAccInferred.AxisExtent(s), r.value)
  {
    if |s| == 0 then Err(EmptySeries)
    else
      var absmax := NormalizeAccInferred.AxisExtent(s);
      if absmax == 0.0 then Err(ZeroScale)
      else
        assert forall k :: 0 <= k < |s| ==> RealSeq.Abs(s[k]) <= absmax;
        Ok(seq(|s|, k requires 0 <= k < |s| => s[k] / absmax))
  }

  /** `r` is `s` divided through by the positive `m`, the largest absolute
      value of `s`. */
  predicate DividedBy(s: seq<real>, m: real, r: seq<real>)
  {
    |r| == |s| && m > 0.0 &&
    (forall k :: 0 <= k < |s| ==> RealSeq.Abs(s[k]) <= m) &&
    forall k :: 0 <= k < |s| ==> r[k] == s[k] / m
  }

  lemma DividedBounded(s: seq<real>, m: real, r: seq<real>, j: nat)
    requires DividedBy(s, m, r)
    requires j < |s| && RealSeq.Abs(s[j]) == m
    ensures forall k :: 0 <= k < |s| ==> -1.0 <= r[k] <= 1.0
    ensures RealSeq.Abs(r[j]) == 1.0
    ensures forall k :: 0 <= k < |s| ==> (r[k] > 0.0 <==> s[k] > 0.0) && (r[k] < 0.0 <==> s[k] < 0.0)
    ensures forall i, k :: 0 <= i < |s| && 0 <= k < |s| && s[i] <= s[k] ==> r[i] <= r[k]
  {
    forall k | 0 <= k < |s|
      ensures -1.0 <= r[k] <= 1.0
      ensures (r[k] > 0.0 <==> s[k] > 0.0) && (r[k] < 0.0 <==> s[k] < 0.0)
    {
      DivUnit(s[k], m);
    }
    DivUnit(s[j], m);
    forall i, k | 0 <= i < |s| && 0 <= k < |s| && s[i] <= s[k]
      ensures r[i] <= r[k]
    {
      RealSeq.DivLe(s[i], s[k], m);
    }
  }

  /** Dividing by a bound `m` of `|x|` lands in [-1, 1], keeps the sign, and
      gives magnitude 1 when `|x|` is the bound. */
  lemma DivUnit(x: real, m: real)
    requires m > 0.0 && RealSeq.Abs(x) <= m
    ensures -1.0 <= x / m <= 1.0
    ensures (x / m > 0.0 <==> x > 0.0) && (x / m < 0.0 <==> x < 0.0)
    ensures RealSeq.Abs(x) == m ==> RealSeq.Abs(x / m) == 1.0
  {
    RealSeq.DivSelf(m);
    RealSeq.DivLe(x, m, m);
    RealSeq.DivLe(-m, x, m);
    assert -m / m == -1.0;
    assert (x / m) * m == x;
  }

  /** Every normalized value lies in [-1, 1], the value of largest magnitude
      reaches -1 or 1, and signs and order are kept. */
  lemma NormalizeBounded(s: seq<real>)
    requires Normalize(s).Ok?
    ensures forall k :: 0 <= k < |s| ==> -1.0 <= Normalize(s).value[k] <= 1.0
    ensures exists k :: 0 <= k < |s| && RealSeq.Abs(Normalize(s).value[k]) == 1.0
    ensures forall k :: 0 <= k < |s| ==>
      (Normalize(s).value[k] > 0.0 <==> s[k] > 0.0) && (Normalize(s).value[k] < 0.0 <==> s[k] < 0.0)
    ensures forall i, j :: 0 <= i < |s| && 0 <= j < |s| && s[i] <= s[j] ==>
      Normalize(s).value[i] <= Normalize(s).value[j]
  {
    var m := NormalizeAccInferred.AxisExtent(s);
    var j :| 0 <= j < |s| && RealSeq.Abs(s[j]) == m;
    DividedBounded(s, m, Normalize(s).value, j);
  }

  /** Only the side of larger magnitude is stretched to the bound: for
      [1, -2] the result is [0.5, -1], whose maximum is 0.5, not 1. */
  lemma NormalizeOneSided()
    ensures Normalize([1.0, -2.0]) == Ok([0.5, -1.0])
  {
    var s := [1.0, -2.0];
    assert s[1..] == [-2.0];
    assert RealSeq.Max(s) == 1.0;
    assert RealSeq.Min(s) == -2.0;
    assert NormalizeAccInferred.AxisExtent(s) == 2.0;
    var r := Normalize(s).value;
    assert r[0] == 1.0 / 2.0 && r[1] == -2.0 / 2.0;
    assert r == [0.5, -1.0];
  }

  /** The line `linechart` draws for one light channel: the E4 channel `nW`
      is only normalized, the others are demeaned first. */
  function PlotLine(light: string, column: seq<Option<real>>): (r: Result<seq<real>, NormalizeError>)
    ensures light == "nW" ==> r == Normalize(Present(column))
    ensures light != "nW" ==> r == Normalize(Demean(column))
    ensures r.Ok? ==> forall k :: 0 <= k < |r.value| ==> -1.0 <= r.value[k] <= 1.0
  {
    var series := if light == "nW" then Present(column) else Demean(column);
    var r := Normalize(series);
    if r.Ok? then NormalizeBounded(series); r else r
  }

  /** A demeaned channel cannot be charted exactly when it is flat: when it
      has no readings or all its readings are equal. */
  lemma FlatChannelFails(light: string, column: seq<Option<real>>)
    requires light != "nW"
    ensures PlotLine(light, column).Err? <==>
      forall i, j :: 0 <= i < |Readings(column)| && 0 <= j < |Readings(column)| ==>
        Readings(column)[i] == Readings(column)[j]
  {
    var nz := Readings(column);
    var d := Demean(column);
    if |nz| > 0 && forall i, j :: 0 <= i < |nz| && 0 <= j < |nz| ==> nz[i] == nz[j] {
      DemeanSumsToZero(column);
      RealSeq.SumConst(d, d[0]);
    }
  }

  /** A device's photoplethysmograph table, absent when the file
      `device.csv` does not exist; a row with a missing value is `None`. */
  datatype PpgInput<V> = PpgInput(device: Window.Device, table: Option<seq<Window.Sample<Option<V>>>>)

  /** `dropna()` on a table: the rows without a missing value. */
  function Complete<V(==)>(table: seq<Window.Sample<Option<V>>>): (r: seq<Window.Sample<V>>)
    ensures |r| <= |table|
  {
    if |table| == 0 then []
    else
      (if table[0].v.Some? then [Window.Sample(table[0].t, table[0].v.value)] else [])
      + Complete(table[1..])
  }

  lemma {:induction false} CompleteMembership<V>(table: seq<Window.Sample<Option<V>>>, x: Window.Sample<V>)
    ensures x in Complete(table) <==> Window.Sample(x.t, Some(x.v)) in table
  {
    if |table| > 0 {
      CompleteMembership(table[1..], x);
      assert table == [table[0]] + table[1..];
    }
  }

  /** The rows each present device contributes to the merge, tagged with the
      device: complete rows inside the window. */
  function Merged<V(==)>(inputs: seq<PpgInput<V>>, start: int, stop: int): seq<Window.Tagged<V>>
  {
    if |inputs| == 0 then []
    else
      (if inputs[0].table.Some?
       then Window.Tag(inputs[0].device, Window.Filter(Complete(inputs[0].table.value), start, stop))
       else [])
      + Merged(inputs[1..], start, stop)
  }

  /** Device input `x` is device `d`'s table and holds the complete row
      `(t, v)` inside the window. */
  predicate Supplies<V(==)>(x: PpgInput<V>, d: Window.Device, t: int, v: V, start: int, stop: int)
  {
    x.device == d && x.table.Some? && Window.Sample(t, Some(v)) in x.table.value && Window.InWindow(t, start, stop)
  }

  lemma {:induction false} MergedMembership<V>(inputs: seq<PpgInput<V>>, start: int, stop: int, d: Window.Device, t: int, v: V)
    ensures Window.Tagged(d, Window.Sample(t, v)) in Merged(inputs, start, stop) <==>
      exists i :: 0 <= i < |inputs| && Supplies(inputs[i], d, t, v, start, stop)
  {
    if |inputs| > 0 {
      var tail := inputs[1..];
      MergedMembership(tail, start, stop, d, t, v);
      var head := inputs[0];
      if head.table.Some? {
        var x := Window.Sample(t, v);
        CompleteMembership(head.table.value, x);
        Window.FilterMembership(Complete(head.table.value), start, stop, x);
        var w := Window.Filter(Complete(head.table.value), start, stop);
        assert Window.Tagged(d, x) in Window.Tag(head.device, w) <==> head.device == d && x in w;
      }
      if exists i :: 0 <= i < |tail| && Supplies(tail[i], d, t, v, start, stop) {
        var i :| 0 <= i < |tail| && Supplies(tail[i], d, t, v, start, stop);
        assert inputs[i + 1] == tail[i];
      }
      if exists i :: 0 <= i < |inputs| && Supplies(inputs[i], d, t, v, start, stop) {
        var i :| 0 <= i < |inputs| && Supplies(inputs[i], d, t, v, start, stop);
        if i > 0 {
          assert tail[i - 1] == inputs[i];
        }
      }
    }
  }

  /** `build_plot`: the windowed, complete device tables outer-merged on
      Timestamp; nothing is charted when the merge is empty. A device that
      reports one instant twice cannot be merged into one row per instant. */
  function BuildPlot<V(==)>(inputs: seq<PpgInput<V>>, start: int, stop: int): (r: Result<Option<Window.Wide<V>>, Window.MergeError>)
    ensures r == Ok(None) <==> |Merged(inputs, start, stop)| == 0
    ensures r.Ok? && r.value.Some? ==> Window.Pivot(Merged(inputs, start, stop)) == Ok(r.value.value)
    ensures r.Err? <==> |Merged(inputs, start, stop)| > 0 && Window.Pivot(Merged(inputs, start, stop)).Err?
    ensures r.Err? ==> r.error == Window.Pivot(Merged(inputs, start, stop)).error
  {
    var rows := Merged(inputs, start, stop);
    if |rows| == 0 then Ok(None)
    else
      var wide :- Window.Pivot(rows);
      Ok(Some(wide))
  }

  /** The outer merge keeps every instant any device reports inside the
      window and no other, and no merged row is empty, so `dropna(how='all')`
      removes nothing. */
  lemma BuildPlotOuter<V>(inputs: seq<PpgInput<V>>, start: int, stop: int)
    requires BuildPlot(inputs, start, stop).Ok? && BuildPlot(inputs, start, stop).value.Some?
    ensures forall t :: t in BuildPlot(inputs, start, stop).value.value <==>
      exists k :: 0 <= k < |Merged(inputs, start, stop)| && Merged(inputs, start, stop)[k].sample.t == t
    ensures forall t :: t in BuildPlot(inputs, start, stop).value.value ==>
      Window.InWindow(t, start, stop) && |BuildPlot(inputs, start, stop).value.value[t]| > 0
  {
    var rows := Merged(inputs, start, stop);
    var wide := BuildPlot(inputs, start, stop).value.value;
    Window.PivotKeys(rows);
    Window.PivotSound(rows);
    forall t | t in wide
      ensures Window.InWindow(t, start, stop) && |wide[t]| > 0
    {
      var k :| 0 <= k < |rows| && rows[k].sample.t == t;
      Window.PivotCells(rows);
      assert rows[k].device in wide[t];
      MergedInWindow(inputs, start, stop, k);
    }
  }

  lemma {:induction false} MergedInWindow<V>(inputs: seq<PpgInput<V>>, start: int, stop: int, k: nat)
    requires k < |Merged(inputs, start, stop)|
    ensures Window.InWindow(Merged(inputs, start, stop)[k].sample.t, start, stop)
  {
    var x := Merged(inputs, start, stop)[k];
    assert x in Merged(inputs, start, stop);
    MergedMembership(inputs, start, stop, x.device, x.sample.t, x.sample.v);
  }
}

=== FILE: plot_normalized_vector_lengths.dfy ===
/** `plot_normalized_vector_lengths.py`: the baseline shift that sets a
    device's normalized vector lengths at or below their median to 0 and
    scales the rest so the largest is 1, and the per-device tables
    `build_plot` charts -- the plain lengths and the baseline-adjusted ones --
    over an inclusive time window, pivoted to one column per device. */
module PlotVectorLengths {
  import opened Wrappers
  import RealSeq
  import Window

  type Sample = Window.Sample<real>

  /** An empty series has no maximum (`max()` raises); a series with nothing
      above its baseline has maximum 0, and dividing by it leaves no number
      (numpy gives NaN). */
  datatype BaseshiftError = EmptySeries | ZeroMaximum

  /** `max(a, 0)`. */
  function Clip(a: real): real
  {
    if a >= 0.0 then a else 0.0
  }

  /** The per-value map of the baseline shift: at or below the baseline a
      value becomes `max(x - baseline, 0)`, above it the value is kept. */
  function Shift(x: real, baseline: real): real
  {
    if x <= baseline then Clip(x - baseline) else x
  }

  function Shifted(s: seq<real>, baseline: real): (r: seq<real>)
    ensures |r| == |s|
  {
    seq(|s|, k requires 0 <= k < |s| => Shift(s[k], baseline))
  }

  /** Some value lies above the baseline `b` and above 0. */
  predicate RisesAbove(s: seq<real>, b: real)
  {
    exists k :: 0 <= k < |s| && s[k] > b && s[k] > 0.0
  }

  /** The series rises above its median, so the shifted series has a
      positive maximum. */
  predicate Rises(s: seq<real>)
    requires |s| > 0
  {
    RisesAbove(s, RealSeq.Median(s))
  }

  /** With some value at or below the baseline, the maximum of the shifted
      series is the series' own maximum when it rises above the baseline,
      and 0 otherwise. */
  lemma PeakAt(s: seq<real>, b: real)
    requires exists k :: 0 <= k < |s| && s[k] <= b
    ensures RealSeq.Max(Shifted(s, b)) == (if RisesAbove(s, b) then RealSeq.Max(s) else 0.0)
  {
    var shifted := Shifted(s, b);
    var m := RealSeq.Max(shifted);
    var k0 :| 0 <= k0 < |s| && s[k0] <= b;
    assert shifted[k0] == 0.0;
    var kk :| 0 <= kk < |shifted| && shifted[kk] == m;
    if RisesAbove(s, b) {
      var j :| 0 <= j < |s| && s[j] > b && s[j] > 0.0;
      var top := RealSeq.Max(s);
      assert top >= s[j];
      var km :| 0 <= km < |s| && s[km] == top;
      assert shifted[km] == top;
      assert shifted[kk] <= top;
    } else {
      assert shifted[kk] <= 0.0;
    }
  }

  lemma ShiftedPeak(s: seq<real>)
    requires |s| > 0
    ensures RealSeq.Max(Shifted(s, RealSeq.Median(s))) == (if Rises(s) then RealSeq.Max(s) else 0.0)
  {
    RealSeq.MedianBounds(s);
    PeakAt(s, RealSeq.Median(s));
  }

  /** Every shifted value divided by `top`. */
  function Scaled(s: seq<real>, b: real, top: real): (r: seq<real>)
    requires top != 0.0
    ensures |r| == |s|
  {
    seq(|s|, k requires 0 <= k < |s| => Shift(s[k], b) / top)
  }

  /** `baseshift_and_renormalize`: the baseline is the median, each value is
      shifted by `Shift`, and the result is divided by its maximum. */
  function Baseshift(s: seq<real>): (r: Result<seq<real>, BaseshiftError>)
    ensures r.Err? <==> |s| == 0 || !Rises(s)
    ensures r.Ok? ==> |r.value| == |s|
  {
    if |s| == 0 then Err(EmptySeries)
    else
      var shifted := Shifted(s, RealSeq.Median(s));
      var datamax := RealSeq.Max(shifted);
      ShiftedPeak(s);
      if datamax == 0.0 then Err(ZeroMaximum)
      else Ok(Scaled(s, RealSeq.Median(s), datamax))
  }

  /** Values at or below `b` scale to 0, the others to their ratio to `top`. */
  lemma ScaledValues(s: seq<real>, b: real, top: real)
    requires top != 0.0
    ensures forall k :: 0 <= k < |s| ==>
      Scaled(s, b, top)[k] == (if s[k] <= b then 0.0 else s[k] / top)
  {
  }

  /** Reference definition: values at or below the median become 0, the
      others are divided by the largest value of the series. */
  lemma BaseshiftReference(s: seq<real>)
    requires |s| > 0 && Rises(s)
    ensures RealSeq.Max(s) > 0.0
    ensures forall k :: 0 <= k < |s| ==>
      Baseshift(s).value[k] == (if s[k] <= RealSeq.Median(s) then 0.0 else s[k] / RealSeq.Max(s))
  {
    ShiftedPeak(s);
    var b := RealSeq.Median(s);
    var j :| 0 <= j < |s| && s[j] > b && s[j] > 0.0;
    assert RealSeq.Max(s) >= s[j];
    assert Baseshift(s).value == Scaled(s, b, RealSeq.Max(s));
    ScaledValues(s, b, RealSeq.Max(s));
  }

  /** `r` holds the values of `s` rescaled as the reference definition
      says, for baseline `b` and a positive maximum `top` above it. */
  predicate RescaledBy(s: seq<real>, b: real, top: real, r: seq<real>)
  {
    |r| == |s| && top > 0.0 &&
    forall k :: 0 <= k < |s| ==> r[k] == (if s[k] <= b then 0.0 else s[k] / top)
  }

  lemma RescaledPeak(s: seq<real>, b: real, top: real, r: seq<real>, km: nat)
    requires forall k :: 0 <= k < |s| ==> s[k] <= top
    requires km < |s| && s[km] == top && top > b
    requires RescaledBy(s, b, top, r)
    ensures forall k :: 0 <= k < |s| ==> r[k] <= 1.0
    ensures r[km] == 1.0
  {
    RealSeq.DivSelf(top);
    forall k | 0 <= k < |s|
      ensures r[k] <= 1.0
    {
      if s[k] > b {
        RealSeq.DivLe(s[k], top, top);
      }
    }
  }

  lemma RescaledMonotone(s: seq<real>, b: real, top: real, r: seq<real>)
    requires forall k :: 0 <= k < |s| ==> s[k] >= 0.0
    requires RescaledBy(s, b, top, r)
    ensures forall k :: 0 <= k < |s| ==> 0.0 <= r[k]
    ensures forall i, j :: 0 <= i < |s| && 0 <= j < |s| && s[i] <= s[j] ==> r[i] <= r[j]
  {
    forall k | 0 <= k < |s|
      ensures 0.0 <= r[k]
    {
      if s[k] > b {
        RealSeq.DivLe(0.0, s[k], top);
      }
    }
    forall i, j | 0 <= i < |s| && 0 <= j < |s| && s[i] <= s[j]
      ensures r[i] <= r[j]
    {
      if s[i] > b {
        RealSeq.DivLe(s[i], s[j], top);
      } else if s[j] > b {
        RealSeq.DivLe(0.0, s[j], top);
      }
    }
  }

  /** The result peaks at exactly 1, as the function's name promises: no
      value exceeds 1 and the largest input becomes 1. */
  lemma BaseshiftPeak(s: seq<real>)
    requires |s| > 0 && Rises(s)
    ensures forall k :: 0 <= k < |s| ==> Baseshift(s).value[k] <= 1.0
    ensures exists k :: 0 <= k < |s| && Baseshift(s).value[k] == 1.0
  {
    BaseshiftReference(s);
    var b := RealSeq.Median(s);
    var top := RealSeq.Max(s);
    var j :| 0 <= j < |s| && s[j] > b && s[j] > 0.0;
    assert top >= s[j];
    var km :| 0 <= km < |s| && s[km] == top;
    RescaledPeak(s, b, top, Baseshift(s).value, km);
  }

  /** For lengths (never negative) every result lies in [0, 1] and the map
      is monotone: a larger length never gets a smaller value. */
  lemma BaseshiftMonotone(s: seq<real>)
    requires forall k :: 0 <= k < |s| ==> s[k] >= 0.0
    requires |s| > 0 && Rises(s)
    ensures forall k :: 0 <= k < |s| ==> 0.0 <= Baseshift(s).value[k] <= 1.0
    ensures forall i, j :: 0 <= i < |s| && 0 <= j < |s| && s[i] <= s[j] ==>
      Baseshift(s).value[i] <= Baseshift(s).value[j]
  {
    BaseshiftReference(s);
    BaseshiftPeak(s);
    RescaledMonotone(s, RealSeq.Median(s), RealSeq.Max(s), Baseshift(s).value);
  }

  /** The instants of a table and its `normalized_vector_length` column. */
  function Values(s: seq<Sample>): (v: seq<real>)
    ensures |v| == |s|
  {
    seq(|s|, k requires 0 <= k < |s| => s[k].v)
  }

  function WithValues(s: seq<Sample>, v: seq<real>): (r: seq<Sample>)
    requires |v| == |s|
    ensures |r| == |s|
  {
    seq(|s|, k requires 0 <= k < |s| => Window.Sample(s[k].t, v[k]))
  }

  /** `baseshift_and_renormalize(df)` on a table: the length column is
      replaced, the instants stay. */
  function Rescale(s: seq<Sample>): (r: Result<seq<Sample>, BaseshiftError>)
    ensures r.Ok? <==> Baseshift(Values(s)).Ok?
    ensures r.Ok? ==> |r.value| == |s| && forall k :: 0 <= k < |s| ==>
      r.value[k].t == s[k].t && r.value[k].v == Baseshift(Values(s)).value[k]
  {
    var v :- Baseshift(Values(s));
    Ok(WithValues(s, v))
  }

  /** The window is not empty and rises above its median, so it can be
      rescaled. */
  predicate Rescalable(window: seq<Sample>)
  {
    |window| > 0 && Rises(Values(window))
  }

  /** What one device contributes to the two charts of `build_plot`. */
  datatype Charted = Charted(plain: seq<Sample>, adjusted: seq<Sample>)

  /** The tables as the script builds them: `baseshift_and_renormalize`
      rescales `person_device_df` in place after it was queued for the plain
      chart, and `person_device_shifted` is the untouched copy, so the plain
      chart gets the rescaled lengths and the "baseline adjusted" chart the
      raw ones. */
  function DeviceTablesAsWritten(table: seq<Sample>, start: int, stop: int): (r: Result<Charted, BaseshiftError>)
    ensures r.Ok? <==> Baseshift(Values(Window.Filter(table, start, stop))).Ok?
    ensures r.Ok? ==> r.value.adjusted == Window.Filter(table, start, stop)
    ensures r.Ok? ==>
      (Rescale(Window.Filter(table, start, stop)).Ok? &&
       r.value.plain == Rescale(Window.Filter(table, start, stop)).value)
  {
    var window := Window.Filter(table, start, stop);
    var shifted :- Rescale(window);
    Ok(Charted(shifted, window))
  }

  /** The tables as the chart titles describe them: the plain chart gets the
      windowed lengths, the "baseline adjusted" chart the rescaled ones. */
  function DeviceTables(table: seq<Sample>, start: int, stop: int): (r: Result<Charted, BaseshiftError>)
    ensures r.Ok? <==> Baseshift(Values(Window.Filter(table, start, stop))).Ok?
    ensures r.Ok? ==> r.value.plain == Window.Filter(table, start, stop)
    ensures r.Ok? ==>
      (Rescale(Window.Filter(table, start, stop)).Ok? &&
       r.value.adjusted == Rescale(Window.Filter(table, start, stop)).value)
  {
    var window := Window.Filter(table, start, stop);
    var shifted :- Rescale(window);
    Ok(Charted(window, shifted))
  }

  /** The two versions hand the same tables to the opposite charts. */
  lemma DeviceTablesSwapped(table: seq<Sample>, start: int, stop: int)
    ensures DeviceTablesAsWritten(table, start, stop).Ok? <==> DeviceTables(table, start, stop).Ok?
    ensures DeviceTables(table, start, stop).Ok? ==>
      DeviceTablesAsWritten(table, start, stop).value.plain == DeviceTables(table, start, stop).value.adjusted &&
      DeviceTablesAsWritten(table, start, stop).value.adjusted == DeviceTables(table, start, stop).value.plain
  {
  }

  /** As written, the plain chart does not show the lengths: when every
      windowed length is positive, the one at the bottom of the window is
      charted as 0. */
  lemma PlainChartAltered(table: seq<Sample>, start: int, stop: int)
    requires Rescalable(Window.Filter(table, start, stop))
    requires forall k :: 0 <= k < |Window.Filter(table, start, stop)| ==> Window.Filter(table, start, stop)[k].v > 0.0
    ensures DeviceTablesAsWritten(table, start, stop).value.plain != Window.Filter(table, start, stop)
  {
    var window := Window.Filter(table, start, stop);
    var v := Values(window);
    var plain := DeviceTablesAsWritten(table, start, stop).value.plain;
    BaseshiftReference(v);
    RealSeq.MedianBounds(v);
    var k :| 0 <= k < |v| && v[k] <= RealSeq.Median(v);
    assert plain[k].v == 0.0;
    assert window[k].v > 0.0;
  }

  /** In the corrected tables the plain chart shows the windowed lengths and
      the adjusted chart peaks at 1 over the same instants. */
  lemma AdjustedChartPeaks(table: seq<Sample>, start: int, stop: int)
    requires Rescalable(Window.Filter(table, start, stop))
    ensures forall k :: 0 <= k < |DeviceTables(table, start, stop).value.adjusted| ==>
      DeviceTables(table, start, stop).value.adjusted[k].v <= 1.0
    ensures exists k :: (0 <= k < |DeviceTables(table, start, stop).value.adjusted| &&
      DeviceTables(table, start, stop).value.adjusted[k].v == 1.0)
  {
    var v := Values(Window.Filter(table, start, stop));
    BaseshiftPeak(v);
    var j :| 0 <= j < |v| && Baseshift(v).value[j] == 1.0;
    assert DeviceTables(table, start, stop).value.adjusted[j].v == 1.0;
  }

  /** A device of the plot and its normalized table, absent when the file
      `device_normalized_unit.csv` does not exist. */
  datatype DeviceInput = DeviceInput(device: Window.Device, table: Option<seq<Sample>>)

  datatype PlotError = Rescaling(device: Window.Device, cause: BaseshiftError) | Merging(conflict: Window.MergeError)

  /** The windowed rows of one device, tagged with it; none when the device
      has no table. */
  function Piece(x: DeviceInput, start: int, stop: int): seq<Window.Tagged<real>>
  {
    if x.table.Some? then Window.Tag(x.device, Window.Filter(x.table.value, start, stop)) else []
  }

  /** Every device's windowed rows, tagged with the device, in device order:
      the rows `csv_df` collects for the plain chart. */
  function Windowed(inputs: seq<DeviceInput>, start: int, stop: int): seq<Window.Tagged<real>>
  {
    if |inputs| == 0 then [] else Piece(inputs[0], start, stop) + Windowed(inputs[1..], start, stop)
  }

  /** A present device whose window cannot be rescaled. */
  predicate Unscalable(x: DeviceInput, start: int, stop: int)
  {
    x.table.Some? && Baseshift(Values(Window.Filter(x.table.value, start, stop))).Err?
  }

  /** No listed device stops the plot. */
  predicate AllScalable(inputs: seq<DeviceInput>, start: int, stop: int)
  {
    forall i :: 0 <= i < |inputs| ==> !Unscalable(inputs[i], start, stop)
  }

  /** The rescaled window of a device, tagged with it; none when the device
      has no table. */
  function RescaledPiece(x: DeviceInput, start: int, stop: int): seq<Window.Tagged<real>>
    requires !Unscalable(x, start, stop)
  {
    if x.table.Some? then Window.Tag(x.device, Rescale(Window.Filter(x.table.value, start, stop)).value) else []
  }

  /** Reference for the rows `shifted_df` is meant to collect: every
      device's rescaled window, tagged with the device, in device order. */
  function RescaledWindowed(inputs: seq<DeviceInput>, start: int, stop: int): seq<Window.Tagged<real>>
    requires AllScalable(inputs, start, stop)
  {
    if |inputs| == 0 then []
    else
      assert forall i :: 0 <= i < |inputs[1..]| ==> inputs[1..][i] == inputs[i + 1];
      RescaledPiece(inputs[0], start, stop) + RescaledWindowed(inputs[1..], start, stop)
  }

  lemma AllScalableTail(inputs: seq<DeviceInput>, start: int, stop: int)
    requires |inputs| > 0 && AllScalable(inputs, start, stop)
    ensures !Unscalable(inputs[0], start, stop) && AllScalable(inputs[1..], start, stop)
  {
    var tail := inputs[1..];
    forall j | 0 <= j < |tail|
      ensures !Unscalable(tail[j], start, stop)
    {
      assert tail[j] == inputs[j + 1];
    }
  }

  /** The rescaled window of every listed device lies among the rescaled
      rows. */
  lemma {:induction false} RescaledPieceIn(inputs: seq<DeviceInput>, start: int, stop: int, i: nat)
    requires AllScalable(inputs, start, stop)
    requires i < |inputs|
    ensures forall x :: x in RescaledPiece(inputs[i], start, stop) ==> x in RescaledWindowed(inputs, start, stop)
  {
    AllScalableTail(inputs, start, stop);
    var tail := inputs[1..];
    if i > 0 {
      assert tail[i - 1] == inputs[i];
      RescaledPieceIn(tail, start, stop, i - 1);
    }
  }

  /** Every rescaled sample of a listed device appears in the rescaled rows
      under its device. */
  lemma RescaledMember(inputs: seq<DeviceInput>, start: int, stop: int, i: nat, k: nat)
    requires AllScalable(inputs, start, stop)
    requires i < |inputs| && inputs[i].table.Some?
    requires k < |Window.Filter(inputs[i].table.value, start, stop)|
    ensures Window.Tagged(inputs[i].device, Rescale(Window.Filter(inputs[i].table.value, start, stop)).value[k])
      in RescaledWindowed(inputs, start, stop)
  {
    var piece := RescaledPiece(inputs[i], start, stop);
    assert piece[k] in piece;
    RescaledPieceIn(inputs, start, stop, i);
  }

  /** Device `x` cannot be rescaled, and `e` names it and the cause. */
  predicate FailsWith(x: DeviceInput, e: PlotError, start: int, stop: int)
  {
    Unscalable(x, start, stop) &&
    e == Rescaling(x.device, Baseshift(Values(Window.Filter(x.table.value, start, stop))).error)
  }

  /** Plain rows that are the samples of `rows`, and adjusted rows that are
      the samples of `rescaled`, which has the same devices and instants. */
  predicate Matched(plain: seq<Sample>, adjusted: seq<Sample>, rows: seq<Window.Tagged<real>>, rescaled: seq<Window.Tagged<real>>)
  {
    |plain| == |rows| && |adjusted| == |rows| && |rescaled| == |rows| &&
    forall k :: 0 <= k < |rows| ==>
      plain[k] == rows[k].sample && adjusted[k] == rescaled[k].sample &&
      rescaled[k].device == rows[k].device && rescaled[k].sample.t == rows[k].sample.t
  }

  lemma MatchedConcat(p1: seq<Sample>, a1: seq<Sample>, r1: seq<Window.Tagged<real>>, s1: seq<Window.Tagged<real>>,
                      p2: seq<Sample>, a2: seq<Sample>, r2: seq<Window.Tagged<real>>, s2: seq<Window.Tagged<real>>)
    requires Matched(p1, a1, r1, s1) && Matched(p2, a2, r2, s2)
    ensures Matched(p1 + p2, a1 + a2, r1 + r2, s1 + s2)
  {
    forall k | |r1| <= k < |r1| + |r2|
      ensures (p1 + p2)[k] == (r1 + r2)[k].sample && (a1 + a2)[k] == (s1 + s2)[k].sample &&
        (s1 + s2)[k].device == (r1 + r2)[k].device && (s1 + s2)[k].sample.t == (r1 + r2)[k].sample.t
    {
      assert (r1 + r2)[k] == r2[k - |r1|];
      assert (s1 + s2)[k] == s2[k - |r1|];
      assert (p1 + p2)[k] == p2[k - |r1|];
      assert (a1 + a2)[k] == a2[k - |r1|];
    }
  }

  /** What one rescalable device contributes to both charts: nothing when
      it has no table. */
  function Contribution(x: DeviceInput, start: int, stop: int): Charted
    requires !Unscalable(x, start, stop)
  {
    if x.table.None? then Charted([], []) else DeviceTables(x.table.value, start, stop).value
  }

  lemma ContributionMatched(x: DeviceInput, start: int, stop: int)
    requires !Unscalable(x, start, stop)
    ensures Matched(Contribution(x, start, stop).plain, Contribution(x, start, stop).adjusted,
      Piece(x, start, stop), RescaledPiece(x, start, stop))
  {
  }

  /** The rows of both charts, device after device; the first device whose
      window cannot be rescaled stops the plot. */
  function Stack(inputs: seq<DeviceInput>, start: int, stop: int): (r: Result<Charted, PlotError>)
    ensures r.Ok? <==> AllScalable(inputs, start, stop)
    ensures r.Err? ==> exists i :: 0 <= i < |inputs| && FailsWith(inputs[i], r.error, start, stop)
    ensures r.Ok? ==>
      Matched(r.value.plain, r.value.adjusted, Windowed(inputs, start, stop), RescaledWindowed(inputs, start, stop))
  {
    if |inputs| == 0 then Ok(Charted([], []))
    else
      var x, tail := inputs[0], inputs[1..];
      assert forall i :: 0 <= i < |tail| ==> tail[i] == inputs[i + 1];
      if Unscalable(x, start, stop) then
        assert FailsWith(inputs[0], Rescaling(x.device, Baseshift(Values(Window.Filter(x.table.value, start, stop))).error), start, stop);
        Err(Rescaling(x.device, Baseshift(Values(Window.Filter(x.table.value, start, stop))).error))
      else
        var first := Contribution(x, start, stop);
        var rest := Stack(tail, start, stop);
        if rest.Err? then
          var i :| 0 <= i < |tail| && FailsWith(tail[i], rest.error, start, stop);
          assert FailsWith(inputs[i + 1], rest.error, start, stop);
          Err(rest.error)
        else
          ContributionMatched(x, start, stop);
          MatchedConcat(first.plain, first.adjusted, Piece(x, start, stop), RescaledPiece(x, start, stop),
                        rest.value.plain, rest.value.adjusted, Windowed(tail, start, stop), RescaledWindowed(tail, start, stop));
          Ok(Charted(first.plain + rest.value.plain, first.adjusted + rest.value.adjusted))
  }

  function Devices(inputs: seq<DeviceInput>, start: int, stop: int, rows: seq<Sample>): seq<Window.Tagged<real>>
    requires |rows| == |Windowed(inputs, start, stop)|
  {
    seq(|rows|, k requires 0 <= k < |rows| => Window.Tagged(Windowed(inputs, start, stop)[k].device, rows[k]))
  }

  /** Tagging the stacked rows with their devices gives back the windowed
      rows and the rescaled rows. */
  lemma DevicesOfPlain(inputs: seq<DeviceInput>, start: int, stop: int, plain: seq<Sample>, adjusted: seq<Sample>)
    requires AllScalable(inputs, start, stop)
    requires Matched(plain, adjusted, Windowed(inputs, start, stop), RescaledWindowed(inputs, start, stop))
    ensures Devices(inputs, start, stop, plain) == Windowed(inputs, start, stop)
    ensures Devices(inputs, start, stop, adjusted) == RescaledWindowed(inputs, start, stop)
  {
    var rows := Windowed(inputs, start, stop);
    var rescaled := RescaledWindowed(inputs, start, stop);
    var tagged := Devices(inputs, start, stop, plain);
    var shifted := Devices(inputs, start, stop, adjusted);
    forall k | 0 <= k < |rows|
      ensures tagged[k] == rows[k] && shifted[k] == rescaled[k]
    {
      assert plain[k] == rows[k].sample;
      assert adjusted[k] == rescaled[k].sample;
    }
  }

  /** What the two builds rely on once every window rescales: the stacked
      rows tagged with their devices are the windowed and the rescaled rows,
      they are empty exactly when no device has a table, and both pivot
      alike. */
  lemma Stacked(inputs: seq<DeviceInput>, start: int, stop: int)
    requires Stack(inputs, start, stop).Ok?
    ensures AllScalable(inputs, start, stop)
    ensures |Stack(inputs, start, stop).value.plain| == |Windowed(inputs, start, stop)|
    ensures |Stack(inputs, start, stop).value.adjusted| == |Windowed(inputs, start, stop)|
    ensures Devices(inputs, start, stop, Stack(inputs, start, stop).value.plain) == Windowed(inputs, start, stop)
    ensures Devices(inputs, start, stop, Stack(inputs, start, stop).value.adjusted) == RescaledWindowed(inputs, start, stop)
    ensures |Windowed(inputs, start, stop)| == 0 <==> forall i :: 0 <= i < |inputs| ==> inputs[i].table.None?
    ensures Window.Pivot(Windowed(inputs, start, stop)).Ok? <==> Window.Pivot(RescaledWindowed(inputs, start, stop)).Ok?
  {
    var stacked := Stack(inputs, start, stop).value;
    WindowedEmpty(inputs, start, stop);
    DevicesOfPlain(inputs, start, stop, stacked.plain, stacked.adjusted);
    Window.SameKeysPivot(Windowed(inputs, start, stop), RescaledWindowed(inputs, start, stop));
  }

  /** The two wide tables `build_plot` charts and writes. */
  datatype Charts = Charts(plain: Window.Wide<real>, adjusted: Window.Wide<real>)

  /** `build_plot` with the charts getting the tables their titles describe
      (see `DeviceTables`): stacks the device tables, and charts them only
      when the stacked table is not empty; `pivot` fails on a device
      reporting one instant twice. The rescaled rows keep the devices and
      instants of the windowed ones, so the second pivot succeeds whenever
      the first does. A device whose window is empty has no
      maximum and stops the plot, so nothing is charted exactly when no
      listed device has a table. */
  function BuildPlot(inputs: seq<DeviceInput>, start: int, stop: int): (r: Result<Option<Charts>, PlotError>)
    ensures r == Ok(None) <==>
      Stack(inputs, start, stop).Ok? && |Windowed(inputs, start, stop)| == 0
    ensures r == Ok(None) <==> forall i :: 0 <= i < |inputs| ==> inputs[i].table.None?
    ensures r.Ok? && r.value.Some? ==>
      Window.Pivot(Windowed(inputs, start, stop)) == Ok(r.value.value.plain)
    ensures r.Ok? && r.value.Some? ==>
      (AllScalable(inputs, start, stop) &&
       Window.Pivot(RescaledWindowed(inputs, start, stop)) == Ok(r.value.value.adjusted))
    ensures r.Err? <==> Stack(inputs, start, stop).Err? || Window.Pivot(Windowed(inputs, start, stop)).Err?
    ensures r.Err? && Stack(inputs, start, stop).Err? ==> r.error == Stack(inputs, start, stop).error
    ensures r.Err? && Stack(inputs, start, stop).Ok? ==> r.error == Merging(Window.Pivot(Windowed(inputs, start, stop)).error)
  {
    var stack := Stack(inputs, start, stop);
    if stack.Err? then Err(stack.error)
    else
      var stacked := stack.value;
      Stacked(inputs, start, stop);
      if |stacked.plain| == 0 then Ok(None)
      else
        var plain := Window.Pivot(Devices(inputs, start, stop, stacked.plain));
        var adjusted := Window.Pivot(Devices(inputs, start, stop, stacked.adjusted));
        if plain.Err? then Err(Merging(plain.error))
        else Ok(Some(Charts(plain.value, adjusted.value)))
  }

  /** `build_plot` as written: `csv_df` collects the frames that
      `baseshift_and_renormalize` rescales in place, so the plain chart is
      the pivot of the rescaled rows, and `shifted_df` collects the untouched
      copies, so the "baseline adjusted" chart is the pivot of the raw
      windows. */
  function BuildPlotAsWritten(inputs: seq<DeviceInput>, start: int, stop: int): (r: Result<Option<Charts>, PlotError>)
    ensures r == Ok(None) <==> forall i :: 0 <= i < |inputs| ==> inputs[i].table.None?
    ensures r.Ok? && r.value.Some? ==>
      Window.Pivot(Windowed(inputs, start, stop)) == Ok(r.value.value.adjusted)
    ensures r.Ok? && r.value.Some? ==>
      (AllScalable(inputs, start, stop) &&
       Window.Pivot(RescaledWindowed(inputs, start, stop)) == Ok(r.value.value.plain))
    ensures r.Err? <==> Stack(inputs, start, stop).Err? || Window.Pivot(Windowed(inputs, start, stop)).Err?
    ensures r.Err? && Stack(inputs, start, stop).Err? ==> r.error == Stack(inputs, start, stop).error
  {
    var stack := Stack(inputs, start, stop);
    if stack.Err? then Err(stack.error)
    else
      var stacked := stack.value;
      Stacked(inputs, start, stop);
      if |stacked.plain| == 0 then Ok(None)
      else
        var plain := Window.Pivot(Devices(inputs, start, stop, stacked.adjusted));
        var adjusted := Window.Pivot(Devices(inputs, start, stop, stacked.plain));
        if plain.Err? then Err(Merging(plain.error))
        else Ok(Some(Charts(plain.value, adjusted.value)))
  }

  /** The build as written charts the same two tables as the corrected one,
      each under the other chart's title. */
  lemma BuildPlotSwapped(inputs: seq<DeviceInput>, start: int, stop: int)
    ensures BuildPlotAsWritten(inputs, start, stop).Ok? <==> BuildPlot(inputs, start, stop).Ok?
    ensures BuildPlot(inputs, start, stop).Ok? ==>
      (BuildPlotAsWritten(inputs, start, stop).value.None? <==> BuildPlot(inputs, start, stop).value.None?)
    ensures BuildPlot(inputs, start, stop).Ok? && BuildPlot(inputs, start, stop).value.Some? ==>
      BuildPlotAsWritten(inputs, start, stop).value.value.plain == BuildPlot(inputs, start, stop).value.value.adjusted &&
      BuildPlotAsWritten(inputs, start, stop).value.value.adjusted == BuildPlot(inputs, start, stop).value.value.plain
  {
    var stack := Stack(inputs, start, stop);
    if stack.Ok? && |stack.value.plain| > 0 {
      var rows := Windowed(inputs, start, stop);
      DevicesOfPlain(inputs, start, stop, stack.value.plain, stack.value.adjusted);
      var rescaled := Devices(inputs, start, stop, stack.value.adjusted);
      Window.SameKeysPivot(rows, rescaled);
    }
  }

  /** Once every device's window rescales, the stacked rows are empty
      exactly when no device has a table: a present device's window is not
      empty. */
  lemma {:induction false} WindowedEmpty(inputs: seq<DeviceInput>, start: int, stop: int)
    requires forall i :: 0 <= i < |inputs| ==> !Unscalable(inputs[i], start, stop)
    ensures |Windowed(inputs, start, stop)| == 0 <==> forall i :: 0 <= i < |inputs| ==> inputs[i].table.None?
  {
    if |inputs| > 0 {
      var x, tail := inputs[0], inputs[1..];
      assert forall i :: 0 <= i < |tail| ==> tail[i] == inputs[i + 1];
      WindowedEmpty(tail, start, stop);
      if x.table.Some? {
        assert |Values(Window.Filter(x.table.value, start, stop))| > 0;
        assert |Piece(x, start, stop)| > 0;
      }
    }
  }

  /** The plain chart holds exactly the windowed samples: a row per instant
      any device reports in the window, each device's raw length in it. */
  lemma BuildPlotPlainCells(inputs: seq<DeviceInput>, start: int, stop: int)
    requires BuildPlot(inputs, start, stop).Ok? && BuildPlot(inputs, start, stop).value.Some?
    ensures BuildPlot(inputs, start, stop).value.value.plain.Keys == Window.Instants(Windowed(inputs, start, stop))
    ensures forall k :: 0 <= k < |Windowed(inputs, start, stop)| ==>
      var x := Windowed(inputs, start, stop)[k];
      x.device in BuildPlot(inputs, start, stop).value.value.plain[x.sample.t] &&
      BuildPlot(inputs, start, stop).value.value.plain[x.sample.t][x.device] == x.sample.v
  {
    Window.PivotKeys(Windowed(inputs, start, stop));
    Window.PivotCells(Windowed(inputs, start, stop));
  }

  /** The adjusted chart has the same rows as the plain one, every
      windowed sample's device has a cell in its instant's row, and every
      rescaled sample sits in its cell. */
  lemma BuildPlotAdjustedCells(inputs: seq<DeviceInput>, start: int, stop: int)
    requires BuildPlot(inputs, start, stop).Ok? && BuildPlot(inputs, start, stop).value.Some?
    ensures BuildPlot(inputs, start, stop).value.value.adjusted.Keys == BuildPlot(inputs, start, stop).value.value.plain.Keys
    ensures forall k :: 0 <= k < |Windowed(inputs, start, stop)| ==>
      var x := Windowed(inputs, start, stop)[k];
      x.sample.t in BuildPlot(inputs, start, stop).value.value.adjusted &&
      x.device in BuildPlot(inputs, start, stop).value.value.adjusted[x.sample.t]
    ensures forall k :: 0 <= k < |RescaledWindowed(inputs, start, stop)| ==>
      var x := RescaledWindowed(inputs, start, stop)[k];
      x.sample.t in BuildPlot(inputs, start, stop).value.value.adjusted &&
      x.device in BuildPlot(inputs, start, stop).value.value.adjusted[x.sample.t] &&
      BuildPlot(inputs, start, stop).value.value.adjusted[x.sample.t][x.device] == x.sample.v
  {
    var rows := Windowed(inputs, start, stop);
    var rescaled := RescaledWindowed(inputs, start, stop);
    DevicesOfPlain(inputs, start, stop, Stack(inputs, start, stop).value.plain, Stack(inputs, start, stop).value.adjusted);
    Window.PivotKeys(rows);
    Window.PivotKeys(rescaled);
    Window.PivotCells(rescaled);
    SameInstants(rows, rescaled);
  }

  /** In the corrected "baseline adjusted" chart, the cell of each windowed
      sample holds 0 when the sample is at or below its device window's
      median, and otherwise its length over the window's maximum. */
  lemma AdjustedChartValues(inputs: seq<DeviceInput>, start: int, stop: int, i: nat, k: nat)
    requires BuildPlot(inputs, start, stop).Ok? && BuildPlot(inputs, start, stop).value.Some?
    requires i < |inputs| && inputs[i].table.Some?
    requires k < |Window.Filter(inputs[i].table.value, start, stop)|
    ensures var w := Window.Filter(inputs[i].table.value, start, stop);
      var cells := BuildPlot(inputs, start, stop).value.value.adjusted;
      w[k].t in cells && inputs[i].device in cells[w[k].t] &&
      cells[w[k].t][inputs[i].device] ==
        (if w[k].v <= RealSeq.Median(Values(w)) then 0.0 else w[k].v / RealSeq.Max(Values(w)))
  {
    var w := Window.Filter(inputs[i].table.value, start, stop);
    var rescaled := RescaledWindowed(inputs, start, stop);
    var x := Window.Tagged(inputs[i].device, Rescale(w).value[k]);
    assert !Unscalable(inputs[i], start, stop);
    RescaledMember(inputs, start, stop, i, k);
    var j :| 0 <= j < |rescaled| && rescaled[j] == x;
    BuildPlotAdjustedCells(inputs, start, stop);
    assert Values(w)[k] == w[k].v;
    BaseshiftReference(Values(w));
  }

  /** Rows with the same instants position by position report the same set
      of instants. */
  lemma SameInstants(a: seq<Window.Tagged<real>>, b: seq<Window.Tagged<real>>)
    requires |a| == |b|
    requires forall k :: 0 <= k < |a| ==> a[k].sample.t == b[k].sample.t
    ensures Window.Instants(a) == Window.Instants(b)
  {
    forall t | t in Window.Instants(a)
      ensures t in Window.Instants(b)
    {
      var k :| 0 <= k < |a| && a[k].sample.t == t;
      assert b[k].sample.t == t;
    }
    forall t | t in Window.Instants(b)
      ensures t in Window.Instants(a)
    {
      var k :| 0 <= k < |b| && b[k].sample.t == t;
      assert a[k].sample.t == t;
    }
  }

  /** As written, the "baseline adjusted" chart holds exactly the raw
      windowed samples. */
  lemma AdjustedChartRaw(inputs: seq<DeviceInput>, start: int, stop: int)
    requires BuildPlotAsWritten(inputs, start, stop).Ok? && BuildPlotAsWritten(inputs, start, stop).value.Some?
    ensures BuildPlotAsWritten(inputs, start, stop).value.value.adjusted.Keys == Window.Instants(Windowed(inputs, start, stop))
    ensures forall k :: 0 <= k < |Windowed(inputs, start, stop)| ==>
      var x := Windowed(inputs, start, stop)[k];
      x.device in BuildPlotAsWritten(inputs, start, stop).value.value.adjusted[x.sample.t] &&
      BuildPlotAsWritten(inputs, start, stop).value.value.adjusted[x.sample.t][x.device] == x.sample.v
  {
    BuildPlotSwapped(inputs, start, stop);
    BuildPlotPlainCells(inputs, start, stop);
  }

  /** Device input `x` is device `d`'s table and holds sample `v` inside the
      window. */
  predicate Supplies(x: DeviceInput, d: Window.Device, v: Sample, start: int, stop: int)
  {
    x.device == d && x.table.Some? && v in x.table.value && Window.InWindow(v.t, start, stop)
  }

  /** The stacked rows are exactly the windowed samples of the devices whose
      tables exist, each tagged with its device. */
  lemma {:induction false} WindowedMembership(inputs: seq<DeviceInput>, start: int, stop: int, d: Window.Device, v: Sample)
    ensures Window.Tagged(d, v) in Windowed(inputs, start, stop) <==>
      exists i :: 0 <= i < |inputs| && Supplies(inputs[i], d, v, start, stop)
  {
    if |inputs| > 0 {
      var tail := inputs[1..];
      WindowedMembership(tail, start, stop, d, v);
      var head := inputs[0];
      if head.table.Some? {
        Window.FilterMembership(head.table.value, start, stop, v);
        var w := Window.Filter(head.table.value, start, stop);
        assert Window.Tagged(d, v) in Window.Tag(head.device, w) <==> head.device == d && v in w;
      }
      if exists i :: 0 <= i < |tail| && Supplies(tail[i], d, v, start, stop) {
        var i :| 0 <= i < |tail| && Supplies(tail[i], d, v, start, stop);
        assert inputs[i + 1] == tail[i];
      }
      if exists i :: 0 <= i < |inputs| && Supplies(inputs[i], d, v, start, stop) {
        var i :| 0 <= i < |inputs| && Supplies(inputs[i], d, v, start, stop);
        if i > 0 {
          assert tail[i - 1] == inputs[i];
        }
      }
    }
  }
}

=== FILE: realseq.dfy ===
/** Summary statistics over series of sensor values (`sum`, `max`, `min`,
    `mean`, `np.median`), with the values as mathematical reals. */
module RealSeq {
  import Sorting

  function Abs(x: real): (r: real)
    ensures r >= 0.0
    ensures r == x || r == -x
  {
    if x < 0.0 then -x else x
  }

  function Sum(s: seq<real>): real
  {
    if |s| == 0 then 0.0 else s[0] + Sum(s[1..])
  }

  /** Python's `max(s)`: an element that no element exceeds. */
  function Max(s: seq<real>): (m: real)
    requires |s| > 0
    ensures m in s
    ensures forall k :: 0 <= k < |s| ==> s[k] <= m
  {
    if |s| == 1 then s[0]
    else
      var rest := Max(s[1..]);
      assert forall k :: 1 <= k < |s| ==> s[k] == s[1..][k - 1];
      if s[0] >= rest then s[0] else rest
  }

  /** Python's `min(s)`: an element that exceeds no element. */
  function Min(s: seq<real>): (m: real)
    requires |s| > 0
    ensures m in s
    ensures forall k :: 0 <= k < |s| ==> m <= s[k]
  {
    if |s| == 1 then s[0]
    else
      var rest := Min(s[1..]);
      assert forall k :: 1 <= k < |s| ==> s[k] == s[1..][k - 1];
      if s[0] <= rest then s[0] else rest
  }

  function Mean(s: seq<real>): real
    requires |s| > 0
  {
    Sum(s) / (|s| as real)
  }

  /** `np.median(s)`: the middle of the sorted values, or the average of the
      two middle ones when the count is even. */
  function Median(s: seq<real>): real
    requires |s| > 0
  {
    var t := Sorting.Sort(s);
    var n := |t|;
    if n % 2 == 1 then t[n / 2] else (t[n / 2 - 1] + t[n / 2]) / 2.0
  }

  /** The median lies between the smallest and the largest value, and some
      value is at or below it. */
  lemma MedianBounds(s: seq<real>)
    requires |s| > 0
    ensures Min(s) <= Median(s) <= Max(s)
    ensures exists k :: 0 <= k < |s| && s[k] <= Median(s)
  {
    var t := Sorting.Sort(s);
    var n := |t|;
    assert t[0] in multiset(t);
    assert t[0] in s;
    assert t[n - 1] in multiset(t);
    assert t[n - 1] in s;
    forall k | 0 <= k < n
      ensures Min(s) <= t[k] <= Max(s)
    {
      assert t[k] in multiset(t);
      assert t[k] in s;
    }
    var k :| 0 <= k < |s| && s[k] == t[0];
    assert s[k] <= Median(s);
  }

  /** Subtracting `c` from every entry subtracts `|s| * c` from the sum. */
  lemma {:induction false} SumShift(s: seq<real>, c: real)
    ensures Sum(seq(|s|, k requires 0 <= k < |s| => s[k] - c)) == Sum(s) - (|s| as real) * c
  {
    var shifted := seq(|s|, k requires 0 <= k < |s| => s[k] - c);
    if |s| > 0 {
      var tail := seq(|s| - 1, k requires 0 <= k < |s| - 1 => s[1..][k] - c);
      assert shifted[1..] == tail;
      SumShift(s[1..], c);
    }
  }

  /** Division by a positive number keeps order. */
  lemma DivLe(a: real, b: real, d: real)
    requires d > 0.0 && a <= b
    ensures a / d <= b / d
  {
    assert b / d - a / d == (b - a) / d;
  }

  lemma DivSelf(t: real)
    requires t != 0.0
    ensures t / t == 1.0
  {
  }

  /** A series of equal values sums to their count times the value. */
  lemma {:induction false} SumConst(s: seq<real>, c: real)
    requires forall k :: 0 <= k < |s| ==> s[k] == c
    ensures Sum(s) == (|s| as real) * c
  {
    if |s| > 0 {
      SumConst(s[1..], c);
    }
  }
}

=== FILE: sorting.dfy ===
/** Sorting as the scripts use it: `sorted(unique(...))` over instants and
    the ascending sort behind `np.median`. */
module Sorting {

  predicate StrictlyIncreasing(s: seq<int>)
  {
    forall i, j :: 0 <= i < j < |s| ==> s[i] < s[j]
  }

  /** The last element of a strictly increasing sequence bounds all others. */
  lemma LastIsGreatest(s: seq<int>)
    requires StrictlyIncreasing(s) && |s| > 0
    ensures forall x :: x in s ==> x <= s[|s| - 1]
  {
    forall x | x in s
      ensures x <= s[|s| - 1]
    {
      var k :| 0 <= k < |s| && s[k] == x;
      if k < |s| - 1 {
        assert s[k] < s[|s| - 1];
      }
    }
  }

  predicate Ascending(s: seq<real>)
  {
    forall i, j :: 0 <= i < j < |s| ==> s[i] <= s[j]
  }

  /** Inserts `x` into a strictly increasing sequence, keeping it free of
      duplicates. */
  function InsertDistinct(x: int, s: seq<int>): (r: seq<int>)
    requires StrictlyIncreasing(s)
    ensures StrictlyIncreasing(r)
    ensures forall y :: y in r <==> y == x || y in s
  {
    if |s| == 0 then [x]
    else if x == s[0] then s
    else if x < s[0] then [x] + s
    else
      var rest := InsertDistinct(x, s[1..]);
      assert s == [s[0]] + s[1..];
      PrependBelow(s[0], rest);
      [s[0]] + rest
  }

  lemma PrependBelow(low: int, rest: seq<int>)
    requires StrictlyIncreasing(rest)
    requires forall y :: y in rest ==> low < y
    ensures StrictlyIncreasing([low] + rest)
  {
    forall i, j | 0 <= i < j < |[low] + rest|
      ensures ([low] + rest)[i] < ([low] + rest)[j]
    {
      assert ([low] + rest)[j] == rest[j - 1];
      if i > 0 {
        assert ([low] + rest)[i] == rest[i - 1];
      } else {
        assert rest[j - 1] in rest;
      }
    }
  }

  /** `sorted(pd.unique(xs))`: the distinct values of `xs` in ascending order. */
  function SortDistinct(xs: seq<int>): (r: seq<int>)
    ensures StrictlyIncreasing(r)
    ensures forall y :: y in r <==> y in xs
  {
    if |xs| == 0 then [] else InsertDistinct(xs[0], SortDistinct(xs[1..]))
  }

  /** Inserts `x` into an ascending sequence. */
  function Insert(x: real, s: seq<real>): (r: seq<real>)
    requires Ascending(s)
    ensures Ascending(r)
    ensures multiset(r) == multiset(s) + multiset{x}
  {
    if |s| == 0 then [x]
    else if x <= s[0] then [x] + s
    else
      var rest := Insert(x, s[1..]);
      InsertAbove(s[0], x, s[1..], rest);
      assert s == [s[0]] + s[1..];
      [s[0]] + rest
  }

  lemma InsertAbove(low: real, x: real, tail: seq<real>, rest: seq<real>)
    requires low <= x
    requires forall k :: 0 <= k < |tail| ==> low <= tail[k]
    requires Ascending(rest)
    requires multiset(rest) == multiset(tail) + multiset{x}
    ensures Ascending([low] + rest)
  {
    forall k | 0 <= k < |rest|
      ensures low <= rest[k]
    {
      assert rest[k] in multiset(rest);
      if rest[k] != x {
        assert rest[k] in multiset(tail);
        assert rest[k] in tail;
      }
    }
  }

  /** `np.sort(xs)`: the same values in ascending order. */
  function Sort(xs: seq<real>): (r: seq<real>)
    ensures Ascending(r)
    ensures multiset(r) == multiset(xs)
    ensures |r| == |xs|
  {
    if |xs| == 0 then []
    else
      assert xs == [xs[0]] + xs[1..];
      var r := Insert(xs[0], Sort(xs[1..]));
      assert |r| == |multiset(r)|;
      r
  }
}

=== FILE: text.dfy ===
/** Strings as sequences of code points, with the handful of Python string
    operations the scripts rely on: `split` on one separator, `join`,
    substring tests, suffix tests and code-point ordering. */
module Text {

  /** Number of occurrences of `c` in `s`. */
  function Count(s: string, c: char): nat
  {
    if |s| == 0 then 0 else (if s[0] == c then 1 else 0) + Count(s[1..], c)
  }

  /** Python's `s.split(sep)` for a one-character separator: every separator
      ends a field, so the result is never empty and fields never hold `sep`. */
  function Split(s: string, sep: char): (fields: seq<string>)
    ensures |fields| >= 1
    ensures forall k :: 0 <= k < |fields| ==> sep !in fields[k]
  {
    if |s| == 0 then [""]
    else
      var rest := Split(s[1..], sep);
      if s[0] == sep then [""] + rest
      else [[s[0]] + rest[0]] + rest[1..]
  }

  /** Python's `sep.join(fields)`. */
  function Join(fields: seq<string>, sep: char): string
  {
    if |fields| == 0 then ""
    else if |fields| == 1 then fields[0]
    else fields[0] + [sep] + Join(fields[1..], sep)
  }

  /** Joining two fields puts one separator between them. */
  lemma JoinPair(a: string, b: string, sep: char)
    ensures Join([a, b], sep) == a + [sep] + b
  {
    assert [a, b][1..] == [b];
  }

  /** Joining three fields puts one separator between each two. */
  lemma JoinTriple(a: string, b: string, c: string, sep: char)
    ensures Join([a, b, c], sep) == a + [sep] + b + [sep] + c
  {
    assert [a, b, c][1..] == [b, c];
    JoinPair(b, c, sep);
  }

  lemma {:induction false} JoinConsHead(c: char, head: string, tail: seq<string>, sep: char)
    ensures Join([[c] + head] + tail, sep) == [c] + Join([head] + tail, sep)
  {
    if |tail| == 0 {
    } else {
      assert ([[c] + head] + tail)[1..] == tail;
      assert ([head] + tail)[1..] == tail;
    }
  }

  /** Joining the fields of a split line with the same separator restores it. */
  lemma {:induction false} JoinSplit(s: string, sep: char)
    ensures Join(Split(s, sep), sep) == s
  {
    if |s| == 0 {
    } else {
      var rest := Split(s[1..], sep);
      JoinSplit(s[1..], sep);
      if s[0] == sep {
        assert ([""] + rest)[1..] == rest;
        assert Join([""] + rest, sep) == "" + [sep] + Join(rest, sep);
        assert s == [s[0]] + s[1..];
      } else {
        assert rest == [rest[0]] + rest[1..];
        JoinConsHead(s[0], rest[0], rest[1..], sep);
        assert s == [s[0]] + s[1..];
      }
    }
  }

  /** A split line has one more field than it has separators. */
  lemma {:induction false} SplitCount(s: string, sep: char)
    ensures |Split(s, sep)| == Count(s, sep) + 1
  {
    if |s| != 0 {
      SplitCount(s[1..], sep);
    }
  }

  /** Python's `s.startswith(prefix)`. */
  predicate StartsWith(s: string, prefix: string)
  {
    |prefix| <= |s| && s[..|prefix|] == prefix
  }

  /** Python's `sub in s`: `sub` starts at some position of `s`. */
  predicate Contains(s: string, sub: string)
  {
    StartsWith(s, sub) || (|s| > 0 && Contains(s[1..], sub))
  }

  /** A string containing `sub` contains its first character. */
  lemma {:induction false} ContainsHead(s: string, sub: string)
    requires |sub| > 0
    ensures Contains(s, sub) ==> sub[0] in s
  {
    if |s| > 0 && !StartsWith(s, sub) {
      ContainsHead(s[1..], sub);
      if sub[0] in s[1..] {
        var k :| 0 <= k < |s[1..]| && s[1..][k] == sub[0];
        assert s[k + 1] == sub[0];
      }
    } else if StartsWith(s, sub) {
      assert s[0] == sub[0];
    }
  }

  /** Python's `s.endswith(suffix)`. */
  predicate EndsWith(s: string, suffix: string)
  {
    |suffix| <= |s| && s[|s| - |suffix|..] == suffix
  }

  /** Python's `<` on strings: lexicographic by code point, a proper prefix
      sorting first. */
  predicate Less(a: string, b: string)
  {
    if |a| == 0 then |b| > 0
    else if |b| == 0 then false
    else if a[0] != b[0] then a[0] < b[0]
    else Less(a[1..], b[1..])
  }

  lemma {:induction false} LessIrreflexive(a: string)
    ensures !Less(a, a)
  {
    if |a| > 0 {
      LessIrreflexive(a[1..]);
    }
  }

  lemma {:induction false} LessTransitive(a: string, b: string, c: string)
    requires Less(a, b) && Less(b, c)
    ensures Less(a, c)
  {
    if |a| > 0 && |b| > 0 && |c| > 0 && a[0] == b[0] && b[0] == c[0] {
      LessTransitive(a[1..], b[1..], c[1..]);
    }
  }

  lemma {:induction false} LessTotal(a: string, b: string)
    requires a != b
    ensures Less(a, b) || Less(b, a)
  {
    if |a| > 0 && |b| > 0 && a[0] == b[0] {
      assert a == [a[0]] + a[1..];
      assert b == [b[0]] + b[1..];
      LessTotal(a[1..], b[1..]);
    }
  }

  lemma {:induction false} LessAsymmetric(a: string, b: string)
    requires Less(a, b)
    ensures !Less(b, a)
  {
    if |a| > 0 && |b| > 0 && a[0] == b[0] {
      LessAsymmetric(a[1..], b[1..]);
    }
  }
}

=== FILE: window.dfy ===
/** The two table operations every comparison script repeats: the inclusive
    time-window filter `df.loc[(df.Timestamp >= start) & (df.Timestamp <= stop)]`
    and the reshaping of per-device rows into one table indexed by timestamp
    with one column group per device (`pivot(index="Timestamp",
    columns="device")`, or an outer merge on Timestamp). */
module Window {
  import opened Wrappers

  type Device = string

  /** One row of a device table: an instant (Unix seconds) and its values. */
  datatype Sample<V> = Sample(t: int, v: V)

  /** A row tagged with the device it came from. */
  datatype Tagged<V> = Tagged(device: Device, sample: Sample<V>)

  /** Wide table: timestamp -> device -> values; a device absent from a
      timestamp's inner map is a missing (NaN) cell. */
  type Wide<V> = map<int, map<Device, V>>

  datatype MergeError = DuplicateEntry(device: Device, t: int)

  predicate InWindow(t: int, start: int, stop: int)
  {
    start <= t <= stop
  }

  /** The samples of `s` whose instant lies in `[start, stop]`, both ends
      included, in their original order. */
  function Filter<V>(s: seq<Sample<V>>, start: int, stop: int): (r: seq<Sample<V>>)
    ensures |r| <= |s|
    ensures forall k :: 0 <= k < |r| ==> InWindow(r[k].t, start, stop)
  {
    if |s| == 0 then []
    else (if InWindow(s[0].t, start, stop) then [s[0]] else []) + Filter(s[1..], start, stop)
  }

  /** Filtering keeps exactly the in-window samples. */
  lemma {:induction false} FilterMembership<V>(s: seq<Sample<V>>, start: int, stop: int, x: Sample<V>)
    ensures x in Filter(s, start, stop) <==> x in s && InWindow(x.t, start, stop)
  {
    if |s| > 0 {
      FilterMembership(s[1..], start, stop, x);
      assert s == [s[0]] + s[1..];
    }
  }

  /** Filtering distributes over concatenation, so it keeps the input order:
      the filter of a table is the filters of its parts, in sequence. */
  lemma {:induction false} FilterConcat<V>(a: seq<Sample<V>>, b: seq<Sample<V>>, start: int, stop: int)
    ensures Filter(a + b, start, stop) == Filter(a, start, stop) + Filter(b, start, stop)
  {
    if |a| > 0 {
      assert (a + b)[1..] == a[1..] + b;
      FilterConcat(a[1..], b, start, stop);
    } else {
      assert a + b == b;
    }
  }

  /** Both ends of the window are inclusive; one unit beyond either end is
      excluded. */
  lemma BoundariesInclusive<V>(start: int, stop: int, v: V)
    requires start <= stop
    ensures Filter([Sample(start, v)], start, stop) == [Sample(start, v)]
    ensures Filter([Sample(stop, v)], start, stop) == [Sample(stop, v)]
    ensures Filter([Sample(start - 1, v)], start, stop) == []
    ensures Filter([Sample(stop + 1, v)], start, stop) == []
  {
  }

  /** Filtering twice with the same window changes nothing. */
  lemma {:induction false} FilterIdempotent<V>(s: seq<Sample<V>>, start: int, stop: int)
    ensures Filter(Filter(s, start, stop), start, stop) == Filter(s, start, stop)
  {
    if |s| > 0 {
      FilterIdempotent(s[1..], start, stop);
      var head := if InWindow(s[0].t, start, stop) then [s[0]] else [];
      FilterConcat(head, Filter(s[1..], start, stop), start, stop);
    }
  }

  /** Tags every row of a device table with the device name
      (`df['device'] = device`). */
  function Tag<V>(d: Device, s: seq<Sample<V>>): (r: seq<Tagged<V>>)
    ensures |r| == |s|
    ensures forall k :: 0 <= k < |r| ==> r[k] == Tagged(d, s[k])
  {
    if |s| == 0 then [] else [Tagged(d, s[0])] + Tag(d, s[1..])
  }

  /** Whether some row after position `from` has the same device and instant
      as the row at `from`. */
  predicate Duplicated<V>(rows: seq<Tagged<V>>, from: nat)
    requires from < |rows|
  {
    exists k :: from < k < |rows| && rows[k].device == rows[from].device && rows[k].sample.t == rows[from].sample.t
  }

  /** Adds one tagged row to a wide table. */
  function Put<V>(m: Wide<V>, x: Tagged<V>): Wide<V>
  {
    var inner := if x.sample.t in m then m[x.sample.t] else map[];
    m[x.sample.t := inner[x.device := x.sample.v]]
  }

  /** `pivot(index="Timestamp", columns="device")`: one row per instant that
      any device reports, one cell per device that reports it. Two rows with
      the same device and instant cannot be reshaped and raise an error. */
  function Pivot<V>(rows: seq<Tagged<V>>): Result<Wide<V>, MergeError>
  {
    if |rows| == 0 then Ok(map[])
    else
      var rest :- Pivot(rows[1..]);
      var x := rows[0];
      if x.sample.t in rest && x.device in rest[x.sample.t] then Err(DuplicateEntry(x.device, x.sample.t))
      else Ok(Put(rest, x))
  }

  function Instants<V>(rows: seq<Tagged<V>>): set<int>
  {
    set k | 0 <= k < |rows| :: rows[k].sample.t
  }

  lemma InstantsCons<V>(rows: seq<Tagged<V>>)
    requires |rows| > 0
    ensures Instants(rows) == Instants(rows[1..]) + {rows[0].sample.t}
  {
    var tail := rows[1..];
    forall t | t in Instants(rows)
      ensures t in Instants(tail) + {rows[0].sample.t}
    {
      var k :| 0 <= k < |rows| && rows[k].sample.t == t;
      if k > 0 {
        assert tail[k - 1].sample.t == t;
      }
    }
    forall t | t in Instants(tail)
      ensures t in Instants(rows)
    {
      var k :| 0 <= k < |tail| && tail[k].sample.t == t;
      assert rows[k + 1].sample.t == t;
    }
  }

  /** Dropping the first row shifts the other rows' duplicate checks by one. */
  lemma DuplicatedTail<V>(rows: seq<Tagged<V>>, k: nat)
    requires 1 <= k < |rows|
    ensures Duplicated(rows, k) <==> Duplicated(rows[1..], k - 1)
  {
    var tail := rows[1..];
    if Duplicated(rows, k) {
      var j :| k < j < |rows| && rows[j].device == rows[k].device && rows[j].sample.t == rows[k].sample.t;
      assert tail[j - 1] == rows[j] && tail[k - 1] == rows[k];
    }
    if Duplicated(tail, k - 1) {
      var j :| k - 1 < j < |tail| && tail[j].device == tail[k - 1].device && tail[j].sample.t == tail[k - 1].sample.t;
      assert tail[j] == rows[j + 1];
    }
  }

  /** Once the rest has pivoted, the first row goes in exactly when no later
      row repeats its device and instant. */
  lemma PivotHead<V>(rows: seq<Tagged<V>>)
    requires |rows| > 0 && Pivot(rows[1..]).Ok?
    ensures Pivot(rows).Ok? <==> !Duplicated(rows, 0)
  {
    var tail := rows[1..];
    var m := Pivot(tail).value;
    var x := rows[0];
    PivotCells(tail);
    PivotSound(tail);
    if x.sample.t in m && x.device in m[x.sample.t] {
      var y := Tagged(x.device, Sample(x.sample.t, m[x.sample.t][x.device]));
      var j :| 0 <= j < |tail| && tail[j] == y;
      assert rows[j + 1].device == x.device && rows[j + 1].sample.t == x.sample.t;
    } else {
      forall j | 0 < j < |rows|
        ensures !(rows[j].device == x.device && rows[j].sample.t == x.sample.t)
      {
        assert tail[j - 1] == rows[j];
      }
    }
  }

  /** The pivot succeeds exactly when no device reports the same instant
      twice. */
  lemma {:induction false} PivotSucceeds<V>(rows: seq<Tagged<V>>)
    ensures Pivot(rows).Ok? <==> forall k :: 0 <= k < |rows| ==> !Duplicated(rows, k)
  {
    if |rows| > 0 {
      var tail := rows[1..];
      PivotSucceeds(tail);
      forall k | 1 <= k < |rows|
        ensures Duplicated(rows, k) <==> Duplicated(tail, k - 1)
      {
        DuplicatedTail(rows, k);
      }
      if Pivot(tail).Ok? {
        PivotHead(rows);
      } else {
        var k :| 0 <= k < |tail| && Duplicated(tail, k);
        assert Duplicated(rows, k + 1);
      }
    }
  }

  /** Whether the pivot succeeds depends only on the devices and instants
      of the rows, not on their values. */
  lemma SameKeysPivot<V>(a: seq<Tagged<V>>, b: seq<Tagged<V>>)
    requires |a| == |b|
    requires forall k :: 0 <= k < |a| ==> a[k].device == b[k].device && a[k].sample.t == b[k].sample.t
    ensures Pivot(a).Ok? <==> Pivot(b).Ok?
  {
    PivotSucceeds(a);
    PivotSucceeds(b);
    forall k | 0 <= k < |a|
      ensures Duplicated(a, k) <==> Duplicated(b, k)
    {
      if Duplicated(a, k) {
        var j :| k < j < |a| && a[j].device == a[k].device && a[j].sample.t == a[k].sample.t;
        assert b[j].device == b[k].device && b[j].sample.t == b[k].sample.t;
      }
      if Duplicated(b, k) {
        var j :| k < j < |b| && b[j].device == b[k].device && b[j].sample.t == b[k].sample.t;
        assert a[j].device == a[k].device && a[j].sample.t == a[k].sample.t;
      }
    }
  }

  /** The pivoted table has a row for exactly the instants some input row
      reports. */
  lemma {:induction false} PivotKeys<V>(rows: seq<Tagged<V>>)
    requires Pivot(rows).Ok?
    ensures Pivot(rows).value.Keys == Instants(rows)
  {
    if |rows| > 0 {
      PivotKeys(rows[1..]);
      InstantsCons(rows);
    }
  }

  /** Every input row lands in its instant's row, under its device. */
  lemma {:induction false} PivotCells<V>(rows: seq<Tagged<V>>)
    requires Pivot(rows).Ok?
    ensures forall k :: 0 <= k < |rows| ==>
      rows[k].sample.t in Pivot(rows).value &&
      rows[k].device in Pivot(rows).value[rows[k].sample.t] &&
      Pivot(rows).value[rows[k].sample.t][rows[k].device] == rows[k].sample.v
  {
    if |rows| > 0 {
      var tail := rows[1..];
      PivotCells(tail);
      var m := Pivot(tail).value;
      var x := rows[0];
      forall k | 1 <= k < |rows|
        ensures rows[k].sample.t in Pivot(rows).value &&
          rows[k].device in Pivot(rows).value[rows[k].sample.t] &&
          Pivot(rows).value[rows[k].sample.t][rows[k].device] == rows[k].sample.v
      {
        assert tail[k - 1] == rows[k];
      }
    }
  }

  /** Every cell of the pivoted table comes from an input row. */
  lemma {:induction false} PivotSound<V>(rows: seq<Tagged<V>>)
    requires Pivot(rows).Ok?
    ensures forall t, d :: t in Pivot(rows).value && d in Pivot(rows).value[t] ==>
      Tagged(d, Sample(t, Pivot(rows).value[t][d])) in rows
  {
    if |rows| > 0 {
      var tail := rows[1..];
      PivotSound(tail);
      var m := Pivot(tail).value;
      var x := rows[0];
      forall t, d | t in Pivot(rows).value && d in Pivot(rows).value[t]
        ensures Tagged(d, Sample(t, Pivot(rows).value[t][d])) in rows
      {
        if t == x.sample.t && d == x.device {
          assert rows[0] == Tagged(d, Sample(t, Pivot(rows).value[t][d]));
        } else {
          assert Tagged(d, Sample(t, m[t][d])) in tail;
        }
      }
    }
  }

  /** Two devices with disjoint, duplicate-free instants merge without
      collapsing: one table row per input row, and each table row holds
      exactly one device. */
  lemma DisjointMerge<V>(d1: Device, a: seq<Sample<V>>, d2: Device, b: seq<Sample<V>>)
    requires d1 != d2
    requires forall i, j :: 0 <= i < j < |a| ==> a[i].t != a[j].t
    requires forall i, j :: 0 <= i < j < |b| ==> b[i].t != b[j].t
    requires forall i, j :: 0 <= i < |a| && 0 <= j < |b| ==> a[i].t != b[j].t
    ensures Pivot(Tag(d1, a) + Tag(d2, b)).Ok?
    ensures |Pivot(Tag(d1, a) + Tag(d2, b)).value| == |a| + |b|
    ensures forall t :: t in Pivot(Tag(d1, a) + Tag(d2, b)).value ==> |Pivot(Tag(d1, a) + Tag(d2, b)).value[t]| == 1
  {
    var rows := Tag(d1, a) + Tag(d2, b);
    DistinctConcat(d1, a, d2, b);
    DistinctNoDuplicates(rows);
    var m := Pivot(rows).value;
    PivotKeys(rows);
    DistinctInstantsCard(rows);
    SingleDevicePerInstant(rows, m);
  }

  /** The rows of two tables with disjoint, duplicate-free instants have
      pairwise distinct instants. */
  lemma DistinctConcat<V>(d1: Device, a: seq<Sample<V>>, d2: Device, b: seq<Sample<V>>)
    requires forall i, j :: 0 <= i < j < |a| ==> a[i].t != a[j].t
    requires forall i, j :: 0 <= i < j < |b| ==> b[i].t != b[j].t
    requires forall i, j :: 0 <= i < |a| && 0 <= j < |b| ==> a[i].t != b[j].t
    ensures DistinctInstants(Tag(d1, a) + Tag(d2, b))
  {
    var rows := Tag(d1, a) + Tag(d2, b);
    forall i, j | 0 <= i < j < |rows|
      ensures rows[i].sample.t != rows[j].sample.t
    {
      if j < |a| {
        assert rows[i] == Tagged(d1, a[i]) && rows[j] == Tagged(d1, a[j]);
      } else if i < |a| {
        assert rows[i] == Tagged(d1, a[i]) && rows[j] == Tagged(d2, b[j - |a|]);
      } else {
        assert rows[i] == Tagged(d2, b[i - |a|]) && rows[j] == Tagged(d2, b[j - |a|]);
      }
    }
  }

  predicate DistinctInstants<V>(rows: seq<Tagged<V>>)
  {
    forall i, j :: 0 <= i < j < |rows| ==> rows[i].sample.t != rows[j].sample.t
  }

  lemma DistinctNoDuplicates<V>(rows: seq<Tagged<V>>)
    requires DistinctInstants(rows)
    ensures Pivot(rows).Ok?
  {
    forall k | 0 <= k < |rows|
      ensures !Duplicated(rows, k)
    {
    }
    PivotSucceeds(rows);
  }

  lemma SingleDevicePerInstant<V>(rows: seq<Tagged<V>>, m: Wide<V>)
    requires DistinctInstants(rows)
    requires Pivot(rows) == Ok(m)
    ensures forall t :: t in m ==> |m[t]| == 1
  {
    PivotKeys(rows);
    forall t | t in m
      ensures |m[t]| == 1
    {
      var k :| 0 <= k < |rows| && rows[k].sample.t == t;
      OnlyDevice(rows, m, k);
    }
  }

  /** With distinct instants, the row of row `k`'s instant holds only row
      `k`'s device. */
  lemma OnlyDevice<V>(rows: seq<Tagged<V>>, m: Wide<V>, k: nat)
    requires DistinctInstants(rows)
    requires Pivot(rows) == Ok(m)
    requires k < |rows|
    ensures rows[k].sample.t in m && m[rows[k].sample.t].Keys == {rows[k].device}
  {
    PivotCells(rows);
    PivotSound(rows);
    var t, d := rows[k].sample.t, rows[k].device;
    forall e | e in m[t]
      ensures e == d
    {
      var y := Tagged(e, Sample(t, m[t][e]));
      var j :| 0 <= j < |rows| && rows[j] == y;
      assert j == k;
    }
  }

  /** Rows with pairwise distinct instants have as many distinct instants as
      rows. */
  lemma {:induction false} DistinctInstantsCard<V>(rows: seq<Tagged<V>>)
    requires DistinctInstants(rows)
    ensures |Instants(rows)| == |rows|
  {
    if |rows| > 0 {
      var tail := rows[1..];
      DistinctInstantsCard(tail);
      InstantsCons(rows);
      assert rows[0].sample.t !in Instants(tail) by {
        forall k | 0 <= k < |tail|
          ensures tail[k].sample.t != rows[0].sample.t
        {
          assert tail[k] == rows[k + 1];
        }
      }
    }
  }
}

=== FILE: wrappers.dfy ===
/** Failure-carrying results used wherever the scripts raise an exception
    or produce an undefined (NaN) value. */
module Wrappers {

  datatype Option<+T> = None | Some(value: T)

  datatype Result<+T, +E> = Ok(value: T) | Err(error: E) {

    predicate IsFailure() {
      Err?
    }

    function PropagateFailure<U>(): Result<U, E>
      requires Err?
    {
      Err(error)
    }

    function Extract(): T
      requires Ok?
    {
      value
    }
  }
}
